=== FILE: README.md ===
# Clinic pharmacy: inventory, purchases, patients and login, in Dafny

This project models the core of a clinic's web application. It covers:

- the **master** and **pharmacy** medicine inventories:
  - adding and updating medicines;
  - moving stock from master to pharmacy;
  - the transfers log and its statistics;
- the **purchase ledger**:
  - creating a purchase with its line items, which first seeds new medicines into the master inventory;
  - editing items, the paid amount and the payment status;
  - committing a paid purchase's items into the master inventory;
  - deleting a purchase, the list badges, and the total of paid purchases;
- the **patient registry**: registration, editing, lookup by phone number, and the filtered patient list;
- the **login rate limiter**;
- the small pure rules of the inventory screens: the medicine search, the low-stock flag and the quantity field.

Each store table (`master_inventory`, `pharmacy_inventory`, `purchases`, `purchase_items`, `transfers`, `patients`, `visits`) is a sequence of rows in storage order.

- A query `.eq(column, v)` is a filter.
- `.single()` returns the row only when exactly one row matches. Otherwise it is error PGRST116.
- An update rewrites every matching row.
- An insert appends the row under a fresh identity (`nextId`).

The tables are sequences, not maps keyed by name, on purpose: the application declares no unique constraint on medicine names or phone numbers. A lookup whose error is ignored can therefore create a second row with the same name, and the model shows where that happens.

Every operation that talks to the store takes a failure oracle `oracle: seq<bool>`. Entry `k` says whether the operation's `k`-th store call fails. Indices past the end succeed. Each operation's doc comment numbers its store calls.

Other modelling choices:

- Quantities are integers.
- Purchase amounts are `real`s, without floating-point rounding.
- Dates in the transfers log are comparable integers.
- Clocks are parameters (`now`).
- `parseInt` follows section 19.2.5 of ECMA-262 (`Text.ParseInt`), including the leading white space of ECMA-262's WhiteSpace and LineTerminator (with the space separators of Unicode 15), sign, `0x` prefix and trailing garbage.
- JavaScript's `x || y` on numbers is written out (`Purchases.OrElse`).

Modules, one per file:

| file | module | what |
|---|---|---|
| text.dfy | `Text` | `Option`, ASCII lower-casing, `includes`, the phone check, `parseInt` |
| inventory.dfy | `Inventory` | rows, the two tables, quantity by name, the store calls |
| transfer.dfy | `StockTransfer` | master → pharmacy transfer with its compensating write |
| medicine_forms.dfy | `MedicineForms` | add (upsert by name) and update (overwrite by id) dialogs |
| medicine_list.dfy | `MedicineList` | medicine search, low-stock flag, min-stock column, quantity field |
| purchases.dfy | `Purchases` | purchases, items, totals, paid amount, status, list, delete, paid total |
| purchase_commit.dfy | `PurchaseCommit` | the transfer of a purchase's items into master inventory |
| new_purchase.dfy | `NewPurchase` | the new-purchase dialog: item list, unit price, validation, submit |
| transfer_log.dfy | `TransferLog` | the transfers page: range filter, recent list, statistics, delete, edit |
| patients.dfy | `Patients` | registration, edit, lookup, patient list, sample patients |
| login.dfy | `LoginLimiter` | the login rate limiter |

## Model

| member | source | states |
|---|---|---|
| Text.Contains | app/dashboard/inventory/medicine-autocomplete.tsx:54 | `includes`: true exactly when the second string occurs as a contiguous piece of the first |
| Text.ContainsLower | app/patients/page.tsx:117-121 | a substring stays a substring after both sides are lower-cased, so case-insensitive search finds everything case-sensitive search does |
| Text.ParseNatToString | app/dashboard/transfers/edit-transfer-dialog.tsx:51 | `parseInt` reads back the decimal text of any natural number as that number, with or without a radix |
| Text.ParseHexPrefix | app/dashboard/transfers/edit-transfer-dialog.tsx:51 | without a radix, `parseInt` reads "0x1A" as 26; with radix 10 it reads 0. The edit dialog's number field delivers decimal text, so there the difference stays latent |
| Text.ParseNoDigits | components/ui/quantity-input.tsx:23-24 | the empty string, and text starting with an ASCII letter (which the text-typed quantity field lets through), are NaN under `parseInt` |
| Inventory.SingleNamed | app/dashboard/inventory/add-medicine-dialog.tsx:69-73 | `.single()` by name finds a row exactly when one row has the name; the row found is that one and no other row has the name |
| Inventory.InsertKeepsWf | app/dashboard/inventory/add-medicine-dialog.tsx:106-109 | inserting keeps row ids distinct and below the next id |
| Inventory.QtySetById | app/dashboard/inventory/transfer-medicine-dialog.tsx:89-94 | with distinct ids, setting one row's quantity moves that medicine's total by the difference and no other medicine's total |
| StockTransfer.FindListed | app/dashboard/inventory/transfer-medicine-dialog.tsx:71 | `find` by id returns a listed entry with that id, and nothing exactly when no entry has the id |
| StockTransfer.Submit | app/dashboard/inventory/transfer-medicine-dialog.tsx:69-185 | a transfer is refused before any write exactly when the schema, the lookup in the dialog's list or the available-quantity check fails; refusals and a failed debit leave the store unchanged |
| StockTransfer.SubmitSucceedsIff | app/dashboard/inventory/transfer-medicine-dialog.tsx:88-173 | the transfer completes exactly when the request is admissible and the debit, the pharmacy lookup and the credit all succeed |
| StockTransfer.SubmitConservesStock | app/dashboard/inventory/transfer-medicine-dialog.tsx:88-158 | on success master loses the quantity and pharmacy gains it, so their sum for the medicine is unchanged |
| StockTransfer.SubmitAllDrainsMaster | app/dashboard/inventory/transfer-medicine-dialog.tsx:89-94 | moving the whole listed quantity leaves the master row at 0 |
| StockTransfer.SubmitTouchesOnlyTheMedicine | app/dashboard/inventory/transfer-medicine-dialog.tsx:126-158 | on success no other master row changes, and the pharmacy has either its only row of that name credited (taking the new minimum) or one new row copying name and unit |
| StockTransfer.SubmitCompensationRestores | app/dashboard/inventory/transfer-medicine-dialog.tsx:112-172 | after a later failure, a successful compensating write restores the store exactly |
| StockTransfer.SubmitFailedCompensationLosesStock | app/dashboard/inventory/transfer-medicine-dialog.tsx:112-172 | if the compensating write also fails, master stays debited and pharmacy is unchanged: the units are lost |
| StockTransfer.SubmitExample | app/dashboard/inventory/transfer-medicine-dialog.tsx:69-185 | moving 30 of 100 Paracetamol with minimum 10 leaves 70 in master and creates a pharmacy row of 30 with minimum 10 |
| MedicineForms.Add | app/dashboard/inventory/add-medicine-dialog.tsx:64-120 | the add is rejected exactly when the schema fails; rejections and failed writes change nothing; the other inventory is never touched |
| MedicineForms.AddRaisesStock | app/dashboard/inventory/add-medicine-dialog.tsx:75-110 | a successful add raises that medicine's total by the submitted quantity in either branch and changes no other medicine |
| MedicineForms.AddKeepsClassification | app/dashboard/inventory/add-medicine-dialog.tsx:77-84 | the update branch keeps id, name, category, location, page and unit; it writes the minimum only for the pharmacy |
| MedicineForms.AddNewRow | app/dashboard/inventory/add-medicine-dialog.tsx:95-110 | with no row of that name exactly one row is appended, carrying the submitted fields and the minimum only for the pharmacy |
| MedicineForms.AddZeroToMasterChangesNothing | app/dashboard/inventory/add-medicine-dialog.tsx:77-84 | adding 0 units to an existing master medicine leaves the store as it was |
| MedicineForms.AddKeepsNamesUnique | app/dashboard/inventory/add-medicine-dialog.tsx:69-110 | with a working lookup, a table with distinct names keeps distinct names |
| MedicineForms.AddAfterFailedLookupDuplicates | app/dashboard/inventory/add-medicine-dialog.tsx:69-75 | when the ignored lookup fails for an existing medicine, the add creates a second row of that name |
| MedicineForms.Update | app/dashboard/inventory/update-medicine-dialog.tsx:89-116 | the update goes through exactly when the schema holds and the write succeeds; otherwise nothing changes |
| MedicineForms.UpdateOverwritesById | app/dashboard/inventory/update-medicine-dialog.tsx:92-107 | only rows with the id in the selected table change; they take the submitted fields, the quantity set rather than added, and the minimum only in the pharmacy |
| MedicineForms.UpdateIdempotent | app/dashboard/inventory/update-medicine-dialog.tsx:95-107 | submitting the same update twice gives the same store as once |
| MedicineList.Matching | app/dashboard/inventory/medicine-autocomplete.tsx:52-56 | a medicine is shown exactly when its lower-cased name contains the lower-cased term |
| MedicineList.MatchingIsSubsequence | app/dashboard/inventory/medicine-autocomplete.tsx:53-55 | the shown list keeps the loaded order: it is the full list with entries left out |
| MedicineList.LoadThenEmptySearch | app/dashboard/inventory/medicine-autocomplete.tsx:40-56 | clearing the search after loading shows exactly what loading showed, whether the query succeeded or not |
| MedicineList.Search | app/dashboard/inventory/medicine-autocomplete.tsx:52-56 | a search keeps the full list and shows a subsequence of it |
| MedicineList.EmptySearchShowsAll | app/dashboard/inventory/medicine-autocomplete.tsx:52-56 | an empty term shows the whole list |
| MedicineList.SearchForgetsEarlierTerms | app/dashboard/inventory/medicine-autocomplete.tsx:53 | a search always starts from the full list, so the earlier term has no effect |
| MedicineList.WideningKeepsEntries | app/dashboard/inventory/medicine-autocomplete.tsx:53-55 | an entry shown for a term is still shown for any part of that term |
| MedicineList.SearchIgnoresCase | app/dashboard/inventory/medicine-autocomplete.tsx:54 | searching the lower-cased term shows the same entries |
| MedicineList.LowStockMonotone | app/dashboard/inventory/medicine-table.tsx:52 | lowering a row's quantity never clears its warning, and raising it never brings one |
| MedicineList.MasterTableNeverWarns | app/dashboard/inventory/medicine-table.tsx:52 | without the min-stock view there is never a warning |
| MedicineList.Columns | app/dashboard/inventory/medicine-table.tsx:38-43 | the min-stock column is present exactly on the pharmacy view, between Unit and Actions |
| MedicineList.OnChange | components/ui/quantity-input.tsx:18-27 | empty text reports `''`; other text reports its base-10 `parseInt` value, and nothing when that is NaN |
| MedicineList.OnChangeDigits | components/ui/quantity-input.tsx:23-25 | a string of decimal digits reports its decimal value |
| MedicineList.OnChangeRoundTrip | components/ui/quantity-input.tsx:23-25 | the decimal text of a number reports that number |
| MedicineList.OnChangeIgnoresPattern | components/ui/quantity-input.tsx:14-26 | the digits-only pattern is not enforced: "12abc" reports 12, "-3" reports -3, "abc" reports nothing |
| Purchases.AddItem | app/dashboard/purchases/view-purchase-dialog.tsx:281-314 | a failed insert changes nothing; otherwise exactly one item is appended with total quantity × unit price. A failed total write leaves every purchase as it was; after both writes the purchase's rows take the dialog's total plus that line. No other purchase ever changes |
| Purchases.AddItemKeepsTotals | app/dashboard/purchases/view-purchase-dialog.tsx:288-310 | when both writes succeed, a purchase total that matched its items still matches and grew by quantity × unit price |
| Purchases.AddItemPartialWrite | app/dashboard/purchases/view-purchase-dialog.tsx:291-310 | if the total write fails, the item stays and the stored total lags the items by exactly that line |
| Purchases.AddEnabledItemRaisesTotal | app/dashboard/purchases/view-purchase-dialog.tsx:913 | an item the enabled button can add strictly raises the purchase's item total |
| Purchases.RemoveItemId | app/dashboard/purchases/view-purchase-dialog.tsx:349-353 | the delete by id removes exactly the items with that id |
| Purchases.DeleteItem | app/dashboard/purchases/view-purchase-dialog.tsx:342-368 | a failed delete changes nothing; otherwise exactly the item with that id is gone. A failed total write leaves every purchase as it was; after both writes the purchase's rows take the dialog's total minus the line shown. No other purchase ever changes |
| Purchases.DeleteItemKeepsTotals | app/dashboard/purchases/view-purchase-dialog.tsx:348-368 | deleting one of the purchase's items, both writes succeeding, keeps the total equal to the remaining items' sum |
| Purchases.EditQuantity | app/dashboard/purchases/view-purchase-dialog.tsx:778-792 | a quantity edit changes only that row: quantity `parseInt(text) \|\| 0`, line total quantity × the edited or saved unit price; the purchase total is the sum of the lines |
| Purchases.EditQuantityMovesTotal | app/dashboard/purchases/view-purchase-dialog.tsx:780-787 | a quantity edit moves the purchase total by exactly the change of that line |
| Purchases.EditPrice | app/dashboard/purchases/view-purchase-dialog.tsx:805-819 | a price edit changes only that row: price (0 when unparsable), line total price × the edited or saved quantity; the total is the sum of the lines |
| Purchases.EditPriceMovesTotal | app/dashboard/purchases/view-purchase-dialog.tsx:807-814 | a price edit moves the purchase total by exactly the change of that line |
| Purchases.EditQuantityUnparsable | app/dashboard/purchases/view-purchase-dialog.tsx:780 | a quantity that does not parse zeroes the line total; from this number field that is the cleared (empty) field |
| Purchases.DerivedStatus | app/dashboard/purchases/view-purchase-dialog.tsx:95-96 | the displayed status is "paid" exactly when a non-zero amount equal to the total is paid, else "pending" |
| Purchases.ClampPaid | app/dashboard/purchases/view-purchase-dialog.tsx:397 | the paid amount is clamped into [0, total] and left alone inside it |
| Purchases.UpdatePaidAmount | app/dashboard/purchases/view-purchase-dialog.tsx:386-420 | a failed write changes nothing; the items and every other purchase are never touched |
| Purchases.UpdatePaidAmountStatus | app/dashboard/purchases/view-purchase-dialog.tsx:397-410 | the stored amount is the clamped one, and the stored status is "pending" exactly when it is 0 |
| Purchases.PartPaymentDisplaysPending | app/dashboard/purchases/view-purchase-dialog.tsx:397-410 | a part payment is stored as "paid" but displayed as "pending" |
| Purchases.SetStatus | app/dashboard/purchases/view-purchase-dialog.tsx:173-195 | a failed write changes nothing. Otherwise the purchase's rows take the chosen status, with the total as paid amount for "paid" and 0 for anything else, and keep every other field. The items and every other purchase are never touched |
| Purchases.SetStatusDisplayed | app/dashboard/purchases/view-purchase-dialog.tsx:180-195 | the chosen status is stored; it displays as "paid" exactly when "paid" was chosen and the total is not 0 |
| Purchases.ZeroTotalNeverOffered | app/dashboard/purchases/view-purchase-dialog.tsx:585 | a purchase with total 0 is never offered for transfer to inventory |
| Purchases.StatusColourAsWritten | app/dashboard/purchases/purchases-list.tsx:63-72 | as written, no status is ever yellow: only "paid" is green, and everything else, "pending" included, is red |
| Purchases.StatusColour | app/dashboard/purchases/purchases-list.tsx:63-72 | with the "pending" label restored, "paid" is green, "pending" yellow and any other status red |
| Purchases.StatusColourFixesOnlyPending | app/dashboard/purchases/purchases-list.tsx:63-72 | the corrected colouring differs from the written one on "pending" only |
| Purchases.InventoryBadgeOf | app/dashboard/purchases/purchases-list.tsx:147-157 | a badge appears exactly for paid purchases and reads Transferred exactly when the flag is set |
| Purchases.RemoveItemsOf | app/dashboard/purchases/purchases-list.tsx:82-85 | deleting by purchase id removes exactly that purchase's items |
| Purchases.RemovePurchase | app/dashboard/purchases/purchases-list.tsx:90-93 | deleting by id removes exactly the purchase rows with that id |
| Purchases.DeletePurchase | app/dashboard/purchases/purchases-list.tsx:74-95 | the items go first, and when that fails nothing changes. Otherwise exactly the purchase's items are gone. If the second delete fails the purchases stay as they were; if not, exactly the rows with that id are gone |
| Purchases.DeletePurchaseNoOrphans | app/dashboard/purchases/purchases-list.tsx:81-95 | whatever fails, no item is left without its purchase |
| Purchases.TotalPurchasesIsPaidSum | app/dashboard/purchases/purchases-client.tsx:23-32 | the page's total equals the sum of the totals of the rows whose status is "paid" |
| Purchases.TotalPurchasesAppend | app/dashboard/purchases/purchases-client.tsx:25-30 | the paid total is additive over the table |
| Purchases.PendingAddsNothing | app/dashboard/purchases/purchases-client.tsx:28 | a purchase that is not paid adds nothing to the total |
| Purchases.TotalPurchasesBounded | app/dashboard/purchases/purchases-client.tsx:25-30 | with non-negative totals the paid total lies between 0 and the total of all purchases; a failed query shows 0 |
| PurchaseCommit.ApplyItemFacts | app/dashboard/purchases/view-purchase-dialog.tsx:224-251 | one item adds its quantity to its medicine if the write succeeds and changes no other medicine; existing rows keep all fields but quantity; an added row is TDSR, filed under the invoice |
| PurchaseCommit.Commit | app/dashboard/purchases/view-purchase-dialog.tsx:216-262 | no items means nothing happens. Otherwise each medicine gains the quantities of the items whose write succeeded, the pharmacy is untouched and every new master row was created for an item. The stored flag is set only if its write succeeds; the dialog's copy is set regardless |
| PurchaseCommit.CommitAppliesEveryItem | app/dashboard/purchases/view-purchase-dialog.tsx:224-251 | with no failed item write, each medicine gains exactly the purchase's quantity of it |
| PurchaseCommit.FlagEndsOffer | app/dashboard/purchases/view-purchase-dialog.tsx:585 | once the flag is stored, the purchase is no longer offered for transfer |
| NewPurchase.RemoveAt | app/dashboard/purchases/new-purchase-dialog.tsx:64-66 | removing a valid position drops exactly that row; any other position leaves the list |
| NewPurchase.RemoveAddedBlank | app/dashboard/purchases/new-purchase-dialog.tsx:52-66 | removing the row just added gives the list back |
| NewPurchase.RemoveLastRow | app/dashboard/purchases/new-purchase-dialog.tsx:301-308 | the only row can be removed, leaving an empty list |
| NewPurchase.UpdateItem | app/dashboard/purchases/new-purchase-dialog.tsx:68-75 | an update changes one field of one row: no other row changes and the numeric fields are never touched |
| NewPurchase.ChosenNameIsLost | app/dashboard/purchases/new-purchase-dialog.tsx:316-319 | choosing "Paracetamol" from the search leaves the row's name empty |
| NewPurchase.UpdateTwice | app/dashboard/purchases/new-purchase-dialog.tsx:316-319 | applied in sequence, the two updates leave every other row alone |
| NewPurchase.ChosenNameIsKept | app/dashboard/purchases/new-purchase-dialog.tsx:316-319 | applied in sequence, the chosen name and the existing-medicine flag are both kept |
| NewPurchase.UnitPrice | app/dashboard/purchases/new-purchase-dialog.tsx:422-427 | a unit price exists exactly when total and quantity are non-zero, and then price × quantity = total |
| NewPurchase.OnQuantity | app/dashboard/purchases/new-purchase-dialog.tsx:417-433 | typing a quantity changes only that row's quantity and unit price |
| NewPurchase.OnTotal | app/dashboard/purchases/new-purchase-dialog.tsx:442-458 | typing a total changes only that row's total and unit price |
| NewPurchase.PricesStayConsistent | app/dashboard/purchases/new-purchase-dialog.tsx:417-458 | every list change keeps each row's unit price equal to total / quantity, or empty |
| NewPurchase.DraftTotalAddBlank | app/dashboard/purchases/new-purchase-dialog.tsx:109 | a blank row adds nothing to the purchase total |
| NewPurchase.DraftTotalRemoveAt | app/dashboard/purchases/new-purchase-dialog.tsx:109 | removing a row takes exactly its total off the purchase total |
| NewPurchase.FirstNewMedicineFault | app/dashboard/purchases/new-purchase-dialog.tsx:87-93 | the first pass reports a fault exactly when some new medicine lacks name, category or page |
| NewPurchase.ValidateAcceptsIff | app/dashboard/purchases/new-purchase-dialog.tsx:86-130 | a submission passes exactly when invoice, supplier and date are given and the list is non-empty with every row complete |
| NewPurchase.LateNewMedicineChecksUnreachable | app/dashboard/purchases/new-purchase-dialog.tsx:126-129 | the per-row category and page checks can never be the reported fault |
| NewPurchase.NewMedicineChecksComeFirst | app/dashboard/purchases/new-purchase-dialog.tsx:87-114 | a nameless new medicine is reported before a missing invoice |
| NewPurchase.EmptyListRefused | app/dashboard/purchases/new-purchase-dialog.tsx:117 | a filled-in form with no rows is refused for having no items |
| NewPurchase.SeedFrom | app/dashboard/purchases/new-purchase-dialog.tsx:133-159 | seeding appends zero-quantity master rows only; it stops at the first failing new medicine: the row it reports is a new medicine whose insert fails, and every new medicine before it succeeded; it reports none exactly when no new medicine's insert fails |
| NewPurchase.SeedStopsAtFailure | app/dashboard/purchases/new-purchase-dialog.tsx:133-159 | after a reported failure, exactly the new medicines before it have been appended to master, and none after it |
| NewPurchase.SeedKeepsQuantities | app/dashboard/purchases/new-purchase-dialog.tsx:139-145 | seeding changes no medicine's master quantity |
| NewPurchase.Submit | app/dashboard/purchases/new-purchase-dialog.tsx:77-191 | refused exactly when validation fails, with nothing written. On success one purchase row and one item row per draft row are appended. Nothing is undone after a failure |
| NewPurchase.SubmitKeepsQuantities | app/dashboard/purchases/new-purchase-dialog.tsx:132-191 | creating a purchase never changes a master quantity, whatever fails |
| NewPurchase.SubmitTotalsAgree | app/dashboard/purchases/new-purchase-dialog.tsx:109-188 | a created purchase's total equals the sum of its items' totals |
| NewPurchase.NoRollback | app/dashboard/purchases/new-purchase-dialog.tsx:133-174 | when the purchase insert fails, the seeded master rows stay, one per new medicine |
| TransferLog.InRange | app/dashboard/transfers/page.tsx:106-108 | with a start date, exactly the transfers on or after it are kept |
| TransferLog.InRangeAll | app/dashboard/transfers/page.tsx:92-93 | the "all" range keeps every transfer |
| TransferLog.InRangeNewestFirst | app/dashboard/transfers/page.tsx:101-108 | the filter keeps the newest-first order |
| TransferLog.Recent | app/dashboard/transfers/page.tsx:140-157 | the recent list is the first min(10, n) of the filtered rows |
| TransferLog.EntriesDescribe | app/dashboard/transfers/page.tsx:122-135 | the per-medicine entries have one entry per distinct medicine, with its transfer count and quantity, and the first date seen; counts sum to the transfers and quantities to the total |
| TransferLog.StatsAgree | app/dashboard/transfers/page.tsx:114-135 | the summary's medicine count, transfer count and total quantity agree with the per-medicine entries |
| TransferLog.LastIsLatest | app/dashboard/transfers/page.tsx:104-128 | with rows newest first, each entry's date is that medicine's latest transfer |
| TransferLog.DeleteTransfer | app/dashboard/transfers/page.tsx:63-79 | a delete removes exactly the rows with that id and never touches the inventories |
| TransferLog.EditTransfer | app/dashboard/transfers/edit-transfer-dialog.tsx:46-67 | an edit is refused exactly when the quantity does not parse to a positive number. On success the rows with the id take that quantity and the dialog's source, target, issuer and receiver. Rows with another id, and the names, dates and ids of all rows, never change; nor do the inventories |
| TransferLog.EditUntouchedKeepsLog | app/dashboard/transfers/edit-transfer-dialog.tsx:39-65 | a dialog showing the row's own values (what a freshly mounted dialog shows), saved untouched, writes the log back unchanged |
| TransferLog.OpenAsWritten | app/dashboard/transfers/page.tsx:58-61 | opening an edit shows the selected transfer's values only when no dialog is mounted yet; a mounted dialog keeps its fields |
| TransferLog.Close | app/dashboard/transfers/page.tsx:293-294 | closing only drops the open flag: the selection and fields stay |
| TransferLog.SaveAsWritten | app/dashboard/transfers/page.tsx:290-299 | a save writes the dialog's fields to the selected id, and the selection and fields survive it, because the callback throws before clearing them |
| TransferLog.StaleFieldsWriteIntoNextTransfer | app/dashboard/transfers/page.tsx:290-299 | after editing one transfer and opening another, saving untouched writes the first transfer's quantity, places and people into the second one's row |
| TransferLog.OpenKeyed | app/dashboard/transfers/page.tsx:290-299 | with the dialog keyed by transfer, opening always shows the selected transfer's values |
| TransferLog.SaveKeyed | app/dashboard/transfers/page.tsx:295-298 | with a callback that does not throw, a save that writes clears the selection and closes the dialog |
| TransferLog.KeyedDialogKeepsLog | app/dashboard/transfers/page.tsx:290-299 | with the keyed dialog, whatever was opened before, opening a transfer and saving it untouched writes the log back unchanged |
| Patients.SchemasDiffer | components/patient-edit-form.tsx:18-30 | edit also accepts gender Other and requires an ID number; registration requires neither |
| Patients.Register | components/patient-registration-form.tsx:81-126 | refused exactly when the schema fails. A known phone, or a failed patient insert, writes nothing. Success appends one patient, plus one visit with the doctor and empty notes unless that insert fails |
| Patients.RegisterKeepsInvariants | components/patient-registration-form.tsx:82-99 | with a working lookup, registration keeps phone numbers and ids unique |
| Patients.RegisterRefusesKnownPhone | components/patient-registration-form.tsx:82-96 | a phone already registered is refused with nothing written |
| Patients.RegisterAfterFailedLookupDuplicates | components/patient-registration-form.tsx:82-99 | when the ignored lookup fails, a registered phone is registered again |
| Patients.Edit | components/patient-edit-form.tsx:87-114 | refused exactly when the schema fails; only the rows with the patient's id are rewritten, and only on success |
| Patients.EditKeepsPhonesUnique | components/patient-edit-form.tsx:88-110 | with a working lookup, an edit keeps phone numbers unique |
| Patients.EditKeepsOwnPhone | components/patient-edit-form.tsx:93 | keeping one's own phone number is never refused as taken |
| Patients.EditRefusesOthersPhone | components/patient-edit-form.tsx:88-104 | a phone held by another patient is refused with nothing written |
| Patients.Lookup | components/patient-lookup.tsx:24-52 | invalid input queries nothing and changes nothing; PGRST116 shows not-found and no patient; another error leaves the patient; a hit shows a patient with that phone |
| Patients.LookupFindsRegistered | components/patient-lookup.tsx:40-51 | with unique phones, a registered phone finds exactly that patient |
| Patients.FilterPatients | app/patients/page.tsx:116-127 | a patient is listed exactly when it matches the search and both filters |
| Patients.FilterIsSubsequence | app/patients/page.tsx:116 | the list keeps the store's order |
| Patients.FilterIdempotent | app/patients/page.tsx:116-127 | filtering twice with the same settings equals filtering once |
| Patients.FilterUnsetKeepsAll | app/patients/page.tsx:116-127 | with no search and the filters "" or "all", every patient is listed |
| Patients.SearchExamples | app/patients/page.tsx:117-121 | names match regardless of case ("SINGH"); phones match as typed ("3210") |
| Patients.Listed | app/patients/page.tsx:96-103 | the page never shows an empty list: store rows when there are any, otherwise the sample patients |
| Patients.MockPatientsWellFormed | app/patients/page.tsx:29-74 | the four sample patients have distinct ids and phones, and are shown on error or empty data |
| LoginLimiter.CeilDiv | app/login/page.tsx:53 | `Math.ceil(a / b)`: the least c with a ≤ c·b |
| LoginLimiter.RefusalChangesNothing | app/login/page.tsx:35-61 | a refused attempt changes neither the counter nor the timestamp |
| LoginLimiter.AdmittedCounts | app/login/page.tsx:35-65 | an admitted attempt records now and counts one more, from 0 after the reset period |
| LoginLimiter.AdmittedIff | app/login/page.tsx:35-61 | admitted exactly when the cooldown has passed and, unless reset, fewer than 5 attempts were counted |
| LoginLimiter.AttemptsBounded | app/login/page.tsx:52-64 | the counter never exceeds 5 |
| LoginLimiter.MinutesLeftRange | app/login/page.tsx:52-53 | the minutes shown lie in 0..5 and are 0 exactly at the end of the reset period |
| LoginLimiter.EmptyCredentialsCount | app/login/page.tsx:63-69 | empty credentials still use up an attempt |
| LoginLimiter.SignInAddress | app/login/page.tsx:67-74 | what is sent is the username plus "@healthcare.local" and the password as typed |
| LoginLimiter.RunSpaced | app/login/page.tsx:41-65 | over any run of submissions, admitted attempts are spaced by the cooldown and the counter stays at most 5 |
| LoginLimiter.AdmittedAttemptsApart | app/login/page.tsx:41-65 | from page load, any two admitted attempts are at least 2000 ms apart |

## Findings

| source | as written | input that shows it | evidently intended | confidence | as-written member | corrected member |
|---|---|---|---|---|---|---|
| app/dashboard/purchases/new-purchase-dialog.tsx:316-319 | choosing a medicine from the search calls `updateItem` twice in one event. Each call copies the same `items` snapshot, so the second call's list replaces the first's and the chosen name is dropped. The "New" button at lines 322-326 has the same shape. | an existing-medicine row with name "", then "Paracetamol" chosen: the row keeps name "", and submitting fails with "Medicine name is required" | both fields set on the row | not executed | NewPurchase.ChosenNameIsLost | NewPurchase.ChosenNameIsKept |
| app/dashboard/purchases/purchases-list.tsx:66-68 | the yellow return follows the "paid" return with no `case "pending":` label before it, so it can never be reached | status "pending": the badge is red, the colour of unknown statuses | "pending" shown yellow | not executed | Purchases.StatusColourAsWritten | Purchases.StatusColour |
| app/dashboard/transfers/page.tsx:290-299 | the edit dialog is rendered without a `key`, and its fields are `useState` initialisers (edit-transfer-dialog.tsx:39-43) that run only when it mounts. Closing clears only the open flag, and the save callback calls `refetch`, which page.tsx never declares, before it clears the selection. So once mounted, the dialog stays mounted and keeps its fields | edit transfer A and cancel, then edit transfer B and save untouched: B's row takes A's quantity, source, target, issuer and receiver | each opening shows the selected transfer's values | not executed | TransferLog.StaleFieldsWriteIntoNextTransfer | TransferLog.KeyedDialogKeepsLog |

`Purchases.PendingShownRed` exhibits the red pending badge. `NewPurchase.UpdateTwiceAsWritten` models the handler as written. `TransferLog.OpenAsWritten` and `TransferLog.SaveAsWritten` model the page as written; `TransferLog.OpenKeyed` and `TransferLog.SaveKeyed` are the corrected pair. `NewPurchase.UpdateTwice` applies the second update to the first one's result.

## Behaviour of the code worth knowing

- The stock transfer writes no transfers-log row.
- The pharmacy credit writes only the quantity and the minimum stock level. A new pharmacy row gets name, quantity, unit and minimum, not the master row's category, location or page.
- The purchase commit re-checks neither "paid" nor "not yet transferred". It ignores the outcome of every per-item call and sets the flag after the loop. Only the button's visibility (line 585) gates it.
- The transfer relies on the form schema for quantity ≥ 1 and does no check of its own.
- A successful transfer edit shows both the success and the failure toast: the write goes through, then the page's callback throws on the undeclared `refetch`.

## Left out

- User interface: rendering, dialogs, toasts, `alert`/`confirm`, navigation and the React state machinery. Only the state the rules read and write is modelled.
- The form library's internals. Each schema is a predicate. E-mail syntax is a boolean input (`Patients.Values.emailValid`).
- Authentication: the `signInWithPassword` call and how its errors are shown. `LoginLimiter` models only what is sent.
- The realtime subscription of the visit history, and the vitals hand-off through session storage in the visit forms.
- Concurrency. Each operation runs alone against the store. Dialog snapshots (the transfer's master list, the commit's purchase) are parameters.
- Floating-point arithmetic and `toFixed`. Amounts are exact reals. Fractional quantities typed into the new-purchase dialog (`parseFloat`, then `parseInt` on submit) are whole numbers here.
- StockTransfer.Submit: the quantity and minimum are integers, while the transfer dialog reads them with `Number` and its schema's `min(1)` accepts a fraction such as 2.5.
- Calendar arithmetic of the time-range filter. The start date is an opaque comparable number.
- Store-side defaults: a new purchase gets status "pending", paid 0 and not transferred, which the store is assumed to supply. Store-side unique constraints: the model assumes there are none.
- Unicode case mapping. `toLowerCase` is modelled on ASCII letters only, while `parseInt`'s leading white space is ECMA-262's full set, with the space separators as of Unicode 15.
- The purchase dialog's `handleSave` and its own `handleDelete`, which deletes only the purchase row. Neither is part of this model.
- `updatePaymentStatus` in the purchase dialog: no control calls it. `Purchases.UpdatePaidAmount` is modelled, though no control calls it either.
- Patients.Register: the age is an integer, while the form coerces any number, fractions included.
- Patients.Edit: the age is an integer as well, while the edit schema coerces any number the same way, fractions included.
- Patients.Register: a name's length is counted in code points, while the form's minimum of 2 counts UTF-16 code units, so a single character outside the Basic Multilingual Plane passes the form and fails the model's rule; Patients.Edit shares this rule.
- Patients.Lookup: the loading flag and the toast shown after a failed search are not modelled.
- MedicineForms.Values: an omitted optional location is written as the empty string rather than as a missing field.

=== FILE: inventory.dfy ===
/**
  The two stock tables, `master_inventory` and `pharmacy_inventory`, as the
  record store holds them: a sequence of rows in storage order. Every store
  call the dialogs make is one of the filters, updates or appends below. The
  store itself enforces nothing: two rows may share a medicine name, which is
  why the quantity of a medicine is the SUM over the rows carrying its name.
 */
module Inventory {
  import opened Text

  datatype Row = Row(
    id: nat,
    name: string,
    quantity: int,
    unit: Option<string>,
    category: Option<string>,
    location: Option<string>,
    page: Option<string>,
    minStock: Option<int>)

  type Table = seq<Row>

  /** The two inventories; `nextId` is the identity the store gives the next
      inserted row. */
  datatype Stock = Stock(master: Table, pharmacy: Table, nextId: nat)

  datatype Which = Master | Pharmacy

  function TableOf(s: Stock, w: Which): Table {
    if w == Master then s.master else s.pharmacy
  }

  function WithTable(s: Stock, w: Which, t: Table): (r: Stock)
    ensures TableOf(r, w) == t
    ensures TableOf(r, if w == Master then Pharmacy else Master)
            == TableOf(s, if w == Master then Pharmacy else Master)
    ensures r.nextId == s.nextId
  {
    if w == Master then s.(master := t) else s.(pharmacy := t)
  }

  /** The `n`-th store call of an operation fails. Calls past the end of the
      oracle succeed. */
  predicate Fails(oracle: seq<bool>, n: nat) {
    n < |oracle| && oracle[n]
  }

  // ----- well-formedness -----

  ghost predicate IdsUnique(t: Table) {
    forall i, j :: 0 <= i < j < |t| ==> t[i].id != t[j].id
  }

  ghost predicate IdsBelow(t: Table, bound: nat) {
    forall i :: 0 <= i < |t| ==> t[i].id < bound
  }

  ghost predicate NamesUnique(t: Table) {
    forall i, j :: 0 <= i < j < |t| ==> t[i].name != t[j].name
  }

  /** Row identities are distinct and below the next identity to hand out. */
  ghost predicate Wf(s: Stock) {
    IdsUnique(s.master) && IdsBelow(s.master, s.nextId)
    && IdsUnique(s.pharmacy) && IdsBelow(s.pharmacy, s.nextId)
  }

  // ----- quantities by name -----

  function Contribution(row: Row, n: string): int {
    if row.name == n then row.quantity else 0
  }

  /** Total stock of medicine `n` in a table. */
  function Qty(t: Table, n: string): int {
    if |t| == 0 then 0 else Contribution(t[0], n) + Qty(t[1..], n)
  }

  function CountNamed(t: Table, n: string): nat {
    if |t| == 0 then 0 else (if t[0].name == n then 1 else 0) + CountNamed(t[1..], n)
  }

  lemma {:induction false} QtyAppend(t: Table, row: Row, n: string)
    ensures Qty(t + [row], n) == Qty(t, n) + Contribution(row, n)
  {
    if |t| > 0 {
      assert (t + [row])[1..] == t[1..] + [row];
      QtyAppend(t[1..], row, n);
    }
  }

  lemma {:induction false} CountAppend(t: Table, row: Row, n: string)
    ensures CountNamed(t + [row], n) == CountNamed(t, n) + (if row.name == n then 1 else 0)
  {
    if |t| > 0 {
      assert (t + [row])[1..] == t[1..] + [row];
      CountAppend(t[1..], row, n);
    }
  }

  /** Replacing one row changes the total of a name by that row's difference. */
  lemma {:induction false} QtyPointUpdate(t: Table, r: Table, k: nat, n: string)
    requires |r| == |t| && k < |t|
    requires forall i :: 0 <= i < |t| && i != k ==> r[i] == t[i]
    ensures Qty(r, n) == Qty(t, n) - Contribution(t[k], n) + Contribution(r[k], n)
  {
    if k > 0 {
      QtyPointUpdate(t[1..], r[1..], k - 1, n);
    } else {
      assert r[1..] == t[1..];
    }
  }

  lemma {:induction false} CountPointUpdate(t: Table, r: Table, k: nat, n: string)
    requires |r| == |t| && k < |t|
    requires forall i :: 0 <= i < |t| && i != k ==> r[i] == t[i]
    ensures CountNamed(r, n) == CountNamed(t, n) - (if t[k].name == n then 1 else 0)
                                + (if r[k].name == n then 1 else 0)
  {
    if k > 0 {
      CountPointUpdate(t[1..], r[1..], k - 1, n);
    } else {
      assert r[1..] == t[1..];
    }
  }

  lemma {:induction false} QtyNoRows(t: Table, n: string)
    requires forall i :: 0 <= i < |t| ==> t[i].name != n
    ensures Qty(t, n) == 0 && CountNamed(t, n) == 0
  {
    if |t| > 0 {
      QtyNoRows(t[1..], n);
    }
  }

  lemma {:induction false} QtySingleRow(t: Table, k: nat, n: string)
    requires k < |t| && t[k].name == n
    requires forall i :: 0 <= i < |t| && i != k ==> t[i].name != n
    ensures Qty(t, n) == t[k].quantity && CountNamed(t, n) == 1
  {
    if k == 0 {
      QtyNoRows(t[1..], n);
    } else {
      QtySingleRow(t[1..], k - 1, n);
    }
  }

  /** Each name occurs at most once, so a present name occurs exactly once. */
  lemma NamesUniqueCount(t: Table, k: nat)
    requires NamesUnique(t) && k < |t|
    ensures CountNamed(t, t[k].name) == 1 && Qty(t, t[k].name) == t[k].quantity
  {
    QtySingleRow(t, k, t[k].name);
  }

  lemma NamesUniqueAtMostOne(t: Table, n: string)
    requires NamesUnique(t)
    ensures CountNamed(t, n) <= 1
  {
    if k :| 0 <= k < |t| && t[k].name == n {
      NamesUniqueCount(t, k);
    } else {
      QtyNoRows(t, n);
    }
  }

  // ----- store calls -----

  /** Position of the first row named `n` (what `.eq("medicine_name", n)` finds). */
  function FindNamed(t: Table, n: string): (r: Option<nat>)
    ensures r.Some? ==> r.value < |t| && t[r.value].name == n
    ensures r.Some? ==> forall i :: 0 <= i < r.value ==> t[i].name != n
    ensures r.None? ==> forall i :: 0 <= i < |t| ==> t[i].name != n
  {
    if |t| == 0 then None
    else if t[0].name == n then Some(0)
    else match FindNamed(t[1..], n)
      case None => None
      case Some(k) => Some(k + 1)
  }

  /** Result of `.select("*").eq("medicine_name", n).single()` when the call itself
      goes through: the row when exactly one matches, otherwise error PGRST116. */
  datatype Lookup = Found(row: Row, at: nat) | NoRows

  function SingleNamed(t: Table, n: string): (r: Lookup)
    ensures r.Found? <==> CountNamed(t, n) == 1
    ensures r.Found? ==> r.at < |t| && t[r.at] == r.row && r.row.name == n
    ensures r.Found? ==> forall i :: 0 <= i < |t| && i != r.at ==> t[i].name != n
  {
    if CountNamed(t, n) != 1 then NoRows
    else
      match FindNamed(t, n)
      case None =>
        QtyNoRows(t, n);
        NoRows
      case Some(k) =>
        OnlyRowNamed(t, k, n);
        Found(t[k], k)
  }

  lemma {:induction false} OnlyRowNamed(t: Table, k: nat, n: string)
    requires CountNamed(t, n) == 1 && k < |t| && t[k].name == n
    requires forall i :: 0 <= i < k ==> t[i].name != n
    ensures forall i :: 0 <= i < |t| && i != k ==> t[i].name != n
  {
    if k == 0 {
      assert CountNamed(t[1..], n) == 0;
      CountZero(t[1..], n);
      assert forall i :: 1 <= i < |t| ==> t[i] == t[1..][i - 1];
    } else {
      OnlyRowNamed(t[1..], k - 1, n);
      assert forall i :: 1 <= i < |t| ==> t[i] == t[1..][i - 1];
    }
  }

  lemma {:induction false} CountZero(t: Table, n: string)
    requires CountNamed(t, n) == 0
    ensures forall i :: 0 <= i < |t| ==> t[i].name != n
  {
    if |t| > 0 {
      CountZero(t[1..], n);
      assert forall i :: 1 <= i < |t| ==> t[i] == t[1..][i - 1];
    }
  }

  /** `.update({quantity: q}).eq("id", id)`: every row with that identity. */
  function SetQuantityById(t: Table, id: nat, q: int): (r: Table)
    ensures |r| == |t|
  {
    seq(|t|, i requires 0 <= i < |t| => if t[i].id == id then t[i].(quantity := q) else t[i])
  }

  /** `.update(patch).eq("id", id)` for a patch given as a row transformer. */
  function UpdateById(t: Table, id: nat, patch: Row -> Row): (r: Table)
    ensures |r| == |t|
  {
    seq(|t|, i requires 0 <= i < |t| => if t[i].id == id then patch(t[i]) else t[i])
  }

  /** `.update(patch).eq("medicine_name", n)`. */
  function UpdateByName(t: Table, n: string, patch: Row -> Row): (r: Table)
    ensures |r| == |t|
  {
    seq(|t|, i requires 0 <= i < |t| => if t[i].name == n then patch(t[i]) else t[i])
  }

  /** `.insert(row)`: the store appends the row under a fresh identity. */
  function Insert(s: Stock, w: Which, row: Row): (r: Stock)
    ensures TableOf(r, w) == TableOf(s, w) + [row.(id := s.nextId)]
    ensures TableOf(r, if w == Master then Pharmacy else Master)
            == TableOf(s, if w == Master then Pharmacy else Master)
    ensures r.nextId == s.nextId + 1
  {
    WithTable(s, w, TableOf(s, w) + [row.(id := s.nextId)]).(nextId := s.nextId + 1)
  }

  lemma InsertKeepsWf(s: Stock, w: Which, row: Row)
    requires Wf(s)
    ensures Wf(Insert(s, w, row))
  {
  }

  /** Where identities are unique, an update by identity rewrites at most the one
      row with that identity, and so moves the total of its name by the change. */
  lemma QtySetById(t: Table, k: nat, q: int)
    requires IdsUnique(t) && k < |t|
    ensures Qty(SetQuantityById(t, t[k].id, q), t[k].name) == Qty(t, t[k].name) - t[k].quantity + q
    ensures forall n :: n != t[k].name ==> Qty(SetQuantityById(t, t[k].id, q), n) == Qty(t, n)
  {
    var r := SetQuantityById(t, t[k].id, q);
    assert forall i :: 0 <= i < |t| && i != k ==> r[i] == t[i];
    forall n
      ensures Qty(r, n) == Qty(t, n) - Contribution(t[k], n) + Contribution(r[k], n)
    {
      QtyPointUpdate(t, r, k, n);
    }
  }
}

=== FILE: login.dfy ===
/**
  The client-side rate limiter of the login page (`handleLogin` in
  app/login/page.tsx). Two counters survive between submissions: the number
  of attempts and the time of the last admitted attempt, both 0 when the page
  loads. The clock reading is a parameter, in milliseconds; the sign-in call
  itself is not modelled, only what is sent to it.
 */
module LoginLimiter {

  const CooldownPeriod: int := 2000
  const MaxAttempts: nat := 5
  const ResetPeriod: int := 300000
  const MinuteMs: int := 60000

  /** The username becomes the account's e-mail address by this suffix. */
  const EmailSuffix: string := "@healthcare.local"

  datatype Limiter = Limiter(attempts: nat, last: int)

  function Initial(): Limiter {
    Limiter(0, 0)
  }

  datatype Outcome =
    | Cooldown
    | TooMany(minutesLeft: int)
    | MissingCredentials
    | SignIn(email: string, password: string)

  predicate Admitted(o: Outcome) {
    o.MissingCredentials? || o.SignIn?
  }

  /** `Math.ceil(a / b)` for a positive `b`. */
  function CeilDiv(a: int, b: int): (c: int)
    requires b > 0
    ensures (c - 1) * b < a <= c * b
  {
    if a % b == 0 then a / b else a / b + 1
  }

  /** One submission at time `now` with the two form fields. */
  function Submit(st: Limiter, now: int, username: string, password: string): (r: (Limiter, Outcome))
  {
    var elapsed := now - st.last;
    var attempts := if elapsed > ResetPeriod then 0 else st.attempts;
    if elapsed < CooldownPeriod then (st.(attempts := attempts), Cooldown)
    else if attempts >= MaxAttempts then (st.(attempts := attempts), TooMany(CeilDiv(ResetPeriod - elapsed, MinuteMs)))
    else
      var st' := Limiter(attempts + 1, now);
      if |username| == 0 || |password| == 0 then (st', MissingCredentials)
      else (st', SignIn(username + EmailSuffix, password))
  }

  /** A refused submission changes neither counter: the reset can only happen
      when the attempt is then admitted. */
  lemma RefusalChangesNothing(st: Limiter, now: int, u: string, p: string)
    requires !Admitted(Submit(st, now, u, p).1)
    ensures Submit(st, now, u, p).0 == st
  {
  }

  /** An admitted attempt records `now` and counts one more attempt, from zero
      when more than the reset period has passed. */
  lemma AdmittedCounts(st: Limiter, now: int, u: string, p: string)
    requires Admitted(Submit(st, now, u, p).1)
    ensures var st' := Submit(st, now, u, p).0;
            && st'.last == now
            && st'.attempts == (if now - st.last > ResetPeriod then 1 else st.attempts + 1)
            && now - st.last >= CooldownPeriod
  {
  }

  /** Admission rule, both ways: an attempt is admitted exactly when the
      cooldown has passed and, unless the counter was reset, fewer than five
      attempts have been counted. */
  lemma AdmittedIff(st: Limiter, now: int, u: string, p: string)
    ensures Admitted(Submit(st, now, u, p).1) <==>
      now - st.last >= CooldownPeriod && (now - st.last > ResetPeriod || st.attempts < MaxAttempts)
  {
  }

  /** The counter never passes five. */
  lemma AttemptsBounded(st: Limiter, now: int, u: string, p: string)
    requires st.attempts <= MaxAttempts
    ensures Submit(st, now, u, p).0.attempts <= MaxAttempts
  {
  }

  /** The minutes shown when refused for too many attempts lie in 0..5, and
      are 0 exactly at the end of the reset period. */
  lemma MinutesLeftRange(st: Limiter, now: int, u: string, p: string)
    requires Submit(st, now, u, p).1.TooMany?
    ensures var m := Submit(st, now, u, p).1.minutesLeft;
            0 <= m <= 5 && (m == 0 <==> now - st.last == ResetPeriod)
  {
    var elapsed := now - st.last;
    var m := CeilDiv(ResetPeriod - elapsed, MinuteMs);
    assert CooldownPeriod <= elapsed <= ResetPeriod;
    assert (m - 1) * MinuteMs < ResetPeriod - elapsed <= m * MinuteMs;
  }

  /** Empty credentials still use up an attempt: the check comes after the
      counter is raised, and nothing is sent. */
  lemma EmptyCredentialsCount(st: Limiter, now: int, p: string)
    requires now - st.last >= CooldownPeriod && st.attempts < MaxAttempts
    ensures Submit(st, now, "", p) == (Limiter((if now - st.last > ResetPeriod then 0 else st.attempts) + 1, now),
                                       MissingCredentials)
  {
  }

  /** What is sent for a filled-in form: the username with the suffix, and the
      password as typed. */
  lemma SignInAddress(st: Limiter, now: int, u: string, p: string)
    requires Submit(st, now, u, p).1.SignIn?
    ensures var o := Submit(st, now, u, p).1;
            && |u| > 0 && |p| > 0
            && o.email[..|u|] == u && o.email[|u|..] == EmailSuffix && o.password == p
  {
  }

  // ----- runs of submissions -----

  datatype Attempt = Attempt(now: int, username: string, password: string)

  /** The limiter after a run of submissions, and the times of the admitted
      ones in order. */
  function Run(st: Limiter, run: seq<Attempt>): (Limiter, seq<int>) {
    if |run| == 0 then (st, [])
    else
      var (mid, times) := Run(st, run[..|run| - 1]);
      var a := run[|run| - 1];
      var (st', o) := Submit(mid, a.now, a.username, a.password);
      (st', if Admitted(o) then times + [a.now] else times)
  }

  /** Admitted attempts are at least the cooldown apart, the last one admitted
      is the one recorded, and the counter stays at most five. */
  ghost predicate Spaced(st0: Limiter, st: Limiter, times: seq<int>) {
    && (forall i, j :: 0 <= i < j < |times| ==> times[j] - times[i] >= CooldownPeriod * (j - i))
    && (|times| > 0 ==> st.last == times[|times| - 1] && times[0] - st0.last >= CooldownPeriod)
    && (|times| == 0 ==> st == st0)
    && st.attempts <= MaxAttempts
  }

  lemma {:induction false} RunSpaced(st0: Limiter, run: seq<Attempt>)
    requires st0.attempts <= MaxAttempts
    ensures Spaced(st0, Run(st0, run).0, Run(st0, run).1)
  {
    if |run| > 0 {
      var front := run[..|run| - 1];
      RunSpaced(st0, front);
      var (mid, times) := Run(st0, front);
      var a := run[|run| - 1];
      AttemptsBounded(mid, a.now, a.username, a.password);
      if Admitted(Submit(mid, a.now, a.username, a.password).1) {
        AdmittedCounts(mid, a.now, a.username, a.password);
        var times' := times + [a.now];
        forall i, j | 0 <= i < j < |times'|
          ensures times'[j] - times'[i] >= CooldownPeriod * (j - i)
        {
          if j == |times| && i < |times| {
            assert times'[i] == times[i];
            if i < |times| - 1 {
              assert times[|times| - 1] - times[i] >= CooldownPeriod * (|times| - 1 - i);
            }
          }
        }
      } else {
        RefusalChangesNothing(mid, a.now, a.username, a.password);
      }
    }
  }

  /** From the page's initial state, any two admitted attempts are at least
      two seconds apart. */
  lemma AdmittedAttemptsApart(run: seq<Attempt>, i: nat, j: nat)
    requires i < j < |Run(Initial(), run).1|
    ensures Run(Initial(), run).1[j] - Run(Initial(), run).1[i] >= CooldownPeriod
  {
    RunSpaced(Initial(), run);
  }
}

=== FILE: medicine_forms.dfy ===
/**
  The two inventory forms:
  - the add dialog (app/dashboard/inventory/add-medicine-dialog.tsx) adds the
    submitted quantity to the row of the same name in the chosen inventory, or
    inserts a new row when there is none;
  - the update dialog (app/dashboard/inventory/update-medicine-dialog.tsx)
    overwrites the fields of one row, chosen by id, with the submitted values.
 */
module MedicineForms {
  import opened Text
  import opened Inventory

  /** The submitted fields, shared by both forms. `minStock` is `None` when the
      field is left undefined. */
  datatype Values = Values(
    name: string,
    quantity: int,
    category: string,
    location: string,
    page: string,
    minStock: Option<int>)

  /** The schema both forms use. */
  predicate SchemaAccepts(v: Values) {
    |v.name| >= 1 && v.quantity >= 0 && v.category in {"TDSR", "PDSR"} && |v.page| >= 1
    && (v.minStock.Some? ==> v.minStock.value >= 0)
  }

  // ----- add: upsert by exact name -----

  datatype AddOutcome = AddRejected | UpdateFailed | InsertFailed | AddedToExisting | AddedNew

  datatype AddResult = AddResult(stock: Stock, outcome: AddOutcome)

  /** The update branch writes the summed quantity and, for the pharmacy only, a
      defined minimum stock level (an undefined one is left out of the request). */
  function AddPatch(w: Which, existing: Row, v: Values): Row -> Row {
    (row: Row) => row.(quantity := existing.quantity + v.quantity,
                       minStock := if w == Pharmacy && v.minStock.Some? then v.minStock else row.minStock)
  }

  function AddedRow(w: Which, v: Values): Row {
    Row(0, v.name, v.quantity, None, Some(v.category), Some(v.location), Some(v.page),
        if w == Pharmacy then v.minStock else None)
  }

  /** Store calls: 0 look up by name (its error is ignored, so a failed lookup
      is taken as "no such medicine"), 1 update or insert. */
  function Add(s: Stock, w: Which, v: Values, oracle: seq<bool>): (r: AddResult)
    ensures TableOf(r.stock, if w == Master then Pharmacy else Master)
            == TableOf(s, if w == Master then Pharmacy else Master)
    ensures r.outcome in {AddRejected, UpdateFailed, InsertFailed} ==> r.stock == s
    ensures r.outcome == AddRejected <==> !SchemaAccepts(v)
  {
    var t := TableOf(s, w);
    if !SchemaAccepts(v) then AddResult(s, AddRejected)
    else
      var found := if Fails(oracle, 0) then NoRows else SingleNamed(t, v.name);
      match found
      case Found(existing, _) =>
        if Fails(oracle, 1) then AddResult(s, UpdateFailed)
        else
          AddResult(WithTable(s, w, UpdateByName(t, v.name, AddPatch(w, existing, v))), AddedToExisting)
      case NoRows =>
        if Fails(oracle, 1) then AddResult(s, InsertFailed)
        else AddResult(Insert(s, w, AddedRow(w, v)), AddedNew)
  }

  /** Whenever the add goes through, by either branch, the stock of that name
      rises by exactly the submitted quantity and no other name changes. This
      holds even when the lookup failed and a second row of the name was made. */
  lemma AddRaisesStock(s: Stock, w: Which, v: Values, oracle: seq<bool>, n: string)
    requires Add(s, w, v, oracle).outcome in {AddedToExisting, AddedNew}
    ensures Qty(TableOf(Add(s, w, v, oracle).stock, w), n)
            == Qty(TableOf(s, w), n) + (if n == v.name then v.quantity else 0)
  {
    var t := TableOf(s, w);
    var found := if Fails(oracle, 0) then NoRows else SingleNamed(t, v.name);
    match found
    case Found(existing, at) =>
      var t' := UpdateByName(t, v.name, AddPatch(w, existing, v));
      assert forall i :: 0 <= i < |t| && i != at ==> t'[i] == t[i];
      QtyPointUpdate(t, t', at, n);
    case NoRows =>
      QtyAppend(t, AddedRow(w, v).(id := s.nextId), n);
  }

  /** The update branch keeps the row's category, location and stock book page
      and its identity; it changes the minimum stock level only in the pharmacy,
      and only when one was submitted. */
  lemma AddKeepsClassification(s: Stock, w: Which, v: Values, oracle: seq<bool>, i: nat)
    requires Add(s, w, v, oracle).outcome == AddedToExisting
    requires i < |TableOf(s, w)|
    ensures var t := TableOf(s, w);
            var t' := TableOf(Add(s, w, v, oracle).stock, w);
            && |t'| == |t|
            && t'[i].id == t[i].id && t'[i].name == t[i].name
            && t'[i].category == t[i].category && t'[i].location == t[i].location
            && t'[i].page == t[i].page && t'[i].unit == t[i].unit
            && (w == Master ==> t'[i].minStock == t[i].minStock)
            && (t[i].name == v.name && w == Pharmacy && v.minStock.Some? ==> t'[i].minStock == v.minStock)
  {
  }

  /** When no row has the name, exactly one row is appended, carrying the
      submitted fields; the minimum stock level only for the pharmacy. */
  lemma AddNewRow(s: Stock, w: Which, v: Values, oracle: seq<bool>)
    requires Add(s, w, v, oracle).outcome == AddedNew
    ensures var t' := TableOf(Add(s, w, v, oracle).stock, w);
            && t' == TableOf(s, w) + [t'[|t'| - 1]]
            && t'[|t'| - 1] == Row(s.nextId, v.name, v.quantity, None, Some(v.category),
                                   Some(v.location), Some(v.page),
                                   if w == Pharmacy then v.minStock else None)
  {
  }

  /** Adding zero units to a medicine the master inventory already holds
      leaves the master inventory exactly as it was. */
  lemma AddZeroToMasterChangesNothing(s: Stock, v: Values, oracle: seq<bool>)
    requires v.quantity == 0
    requires Add(s, Master, v, oracle).outcome == AddedToExisting
    ensures Add(s, Master, v, oracle).stock == s
  {
    var t := s.master;
    var existing := SingleNamed(t, v.name).row;
    var t' := UpdateByName(t, v.name, AddPatch(Master, existing, v));
    assert forall i :: 0 <= i < |t| ==> t'[i] == t[i];
    assert t' == t;
  }

  /** With a working lookup the add never creates a second row of a name, so a
      table whose names are distinct stays that way. */
  lemma AddKeepsNamesUnique(s: Stock, w: Which, v: Values, oracle: seq<bool>)
    requires NamesUnique(TableOf(s, w))
    requires !Fails(oracle, 0)
    ensures NamesUnique(TableOf(Add(s, w, v, oracle).stock, w))
  {
    var t := TableOf(s, w);
    var r := Add(s, w, v, oracle);
    var t' := TableOf(r.stock, w);
    if r.outcome == AddedNew {
      NamesUniqueAtMostOne(t, v.name);
      CountZero(t, v.name);
      assert t' == t + [AddedRow(w, v).(id := s.nextId)];
    } else {
      assert |t'| == |t| && forall i :: 0 <= i < |t| ==> t'[i].name == t[i].name;
    }
  }

  /** A failed lookup of a medicine that exists makes the add insert a second
      row under the same name. */
  lemma AddAfterFailedLookupDuplicates(s: Stock, w: Which, v: Values, oracle: seq<bool>)
    requires SchemaAccepts(v)
    requires Fails(oracle, 0) && !Fails(oracle, 1)
    requires CountNamed(TableOf(s, w), v.name) == 1
    ensures CountNamed(TableOf(Add(s, w, v, oracle).stock, w), v.name) == 2
  {
    CountAppend(TableOf(s, w), AddedRow(w, v).(id := s.nextId), v.name);
  }

  // ----- update: overwrite by id -----

  datatype UpdateOutcome = UpdateRejected | WriteFailed | Overwritten

  datatype UpdateResult = UpdateResult(stock: Stock, outcome: UpdateOutcome)

  /** The fields written by the update form. The minimum stock level is written
      only for the pharmacy, and an undefined one is written as null. */
  function OverwritePatch(w: Which, v: Values): Row -> Row {
    (row: Row) => row.(name := v.name, quantity := v.quantity, category := Some(v.category),
                       location := Some(v.location), page := Some(v.page),
                       minStock := if w == Pharmacy then v.minStock else row.minStock)
  }

  /** `showMinStock` selects the pharmacy table; one store call, by id. */
  function Update(s: Stock, showMinStock: bool, id: nat, v: Values, oracle: seq<bool>): (r: UpdateResult)
    ensures r.outcome != Overwritten ==> r.stock == s
    ensures r.outcome == Overwritten <==> SchemaAccepts(v) && !Fails(oracle, 0)
  {
    var w := if showMinStock then Pharmacy else Master;
    if !SchemaAccepts(v) then UpdateResult(s, UpdateRejected)
    else if Fails(oracle, 0) then UpdateResult(s, WriteFailed)
    else UpdateResult(WithTable(s, w, UpdateById(TableOf(s, w), id, OverwritePatch(w, v))), Overwritten)
  }

  /** Only rows carrying the id, in the chosen table, change; they take the
      submitted name, quantity (absolute, not added), category, location and
      page; a master row keeps its minimum stock level. */
  lemma UpdateOverwritesById(s: Stock, showMinStock: bool, id: nat, v: Values, oracle: seq<bool>, i: nat)
    requires Update(s, showMinStock, id, v, oracle).outcome == Overwritten
    ensures var w := if showMinStock then Pharmacy else Master;
            var other := if showMinStock then Master else Pharmacy;
            var t := TableOf(s, w);
            var t' := TableOf(Update(s, showMinStock, id, v, oracle).stock, w);
            && TableOf(Update(s, showMinStock, id, v, oracle).stock, other) == TableOf(s, other)
            && |t'| == |t|
            && (i < |t| && t[i].id != id ==> t'[i] == t[i])
            && (i < |t| && t[i].id == id ==>
                  && t'[i].id == id && t'[i].name == v.name && t'[i].quantity == v.quantity
                  && t'[i].category == Some(v.category) && t'[i].location == Some(v.location)
                  && t'[i].page == Some(v.page) && t'[i].unit == t[i].unit
                  && t'[i].minStock == (if showMinStock then v.minStock else t[i].minStock))
  {
  }

  /** Because the quantity is set rather than added, submitting the same update
      twice leaves the store as a single submission does. */
  lemma UpdateIdempotent(s: Stock, showMinStock: bool, id: nat, v: Values)
    ensures var once := Update(s, showMinStock, id, v, []).stock;
            Update(once, showMinStock, id, v, []).stock == once
  {
    var w := if showMinStock then Pharmacy else Master;
    var once := Update(s, showMinStock, id, v, []).stock;
    if SchemaAccepts(v) {
      var t0 := TableOf(s, w);
      var t := TableOf(once, w);
      assert t == UpdateById(t0, id, OverwritePatch(w, v));
      var t' := UpdateById(t, id, OverwritePatch(w, v));
      forall i | 0 <= i < |t|
        ensures t'[i] == t[i]
      {
        if t0[i].id == id {
          assert t[i] == OverwritePatch(w, v)(t0[i]);
          assert t'[i] == OverwritePatch(w, v)(t[i]);
        }
      }
      assert t' == t;
    }
  }
}

=== FILE: medicine_list.dfy ===
/**
  The inventory screens' small pure rules: the medicine picker's search
  (app/dashboard/inventory/medicine-autocomplete.tsx), the low-stock flag and
  the min-stock column of the medicine table
  (app/dashboard/inventory/medicine-table.tsx), and the quantity field's
  change handler (components/ui/quantity-input.tsx).
 */
module MedicineList {
  import opened Text
  import Inventory

  // ----- the medicine picker -----

  datatype Medicine = Medicine(id: nat, name: string, unit: string)

  /** The picker's full list (loaded once, ordered by name) and the entries
      it shows. */
  datatype Picker = Picker(all: seq<Medicine>, shown: seq<Medicine>)

  function Matching(all: seq<Medicine>, term: string): (r: seq<Medicine>)
    ensures |r| <= |all|
    ensures forall m :: m in r <==> m in all && Contains(Lower(m.name), Lower(term))
  {
    if |all| == 0 then []
    else
      var rest := Matching(all[1..], term);
      assert forall m :: m in all <==> m == all[0] || m in all[1..];
      if Contains(Lower(all[0].name), Lower(term)) then [all[0]] + rest else rest
  }

  /** The store's rows once loaded; a failed query (`None`) gives an empty
      list. */
  function Load(data: Option<seq<Medicine>>): (p: Picker)
    ensures p.shown == p.all
    ensures p.all == if data.Some? then data.value else []
  {
    var rows := if data.Some? then data.value else [];
    Picker(rows, rows)
  }

  /** `filterMedicines`: the search always starts from the full list. */
  function Search(p: Picker, term: string): (q: Picker)
    ensures q.all == p.all
    ensures Subsequence(q.shown, p.all)
  {
    MatchingIsSubsequence(p.all, term);
    p.(shown := Matching(p.all, term))
  }

  lemma {:induction false} MatchingIsSubsequence(all: seq<Medicine>, term: string)
    ensures Subsequence(Matching(all, term), all)
  {
    if |all| > 0 {
      MatchingIsSubsequence(all[1..], term);
      var rest := Matching(all[1..], term);
      if Contains(Lower(all[0].name), Lower(term)) {
        assert ([all[0]] + rest)[1..] == rest;
      } else if |rest| > 0 {
        assert rest[0] in rest;
      }
    }
  }

  /** An empty search shows the whole list again. */
  lemma {:induction false} EmptySearchShowsAll(all: seq<Medicine>)
    ensures Matching(all, "") == all
  {
    if |all| > 0 {
      EmptySearchShowsAll(all[1..]);
      ContainsEmpty(Lower(all[0].name));
    }
  }

  /** The result of a search depends on the last term only, so entries a
      narrower term dropped come back when the term is widened. */
  lemma SearchForgetsEarlierTerms(p: Picker, t1: string, t2: string)
    ensures Search(Search(p, t1), t2) == Search(p, t2)
  {
  }

  /** Clearing the search after loading shows exactly what loading showed. */
  lemma LoadThenEmptySearch(data: Option<seq<Medicine>>)
    ensures Search(Load(data), "") == Load(data)
  {
    EmptySearchShowsAll(Load(data).all);
  }

  /** Widening the term (keeping a part of it) never loses an entry. */
  lemma WideningKeepsEntries(all: seq<Medicine>, narrow: string, wide: string, m: Medicine)
    requires Contains(narrow, wide)
    requires m in Matching(all, narrow)
    ensures m in Matching(all, wide)
  {
    ContainsLower(narrow, wide);
    ContainsTransitive(Lower(m.name), Lower(narrow), Lower(wide));
  }

  /** The search ignores the case of letters on both sides. */
  lemma SearchIgnoresCase(all: seq<Medicine>, term: string)
    ensures Matching(all, Lower(term)) == Matching(all, term)
  {
    LowerIdempotent(term);
  }

  // ----- the medicine table -----

  /** `min_stock_level || 0`: a missing level reads as 0. */
  function MinLevel(row: Inventory.Row): int {
    if row.minStock.Some? then row.minStock.value else 0
  }

  /** The low-stock warning next to a quantity. */
  predicate LowStock(row: Inventory.Row, showMinStock: bool) {
    showMinStock && row.quantity <= MinLevel(row)
  }

  /** The warning, both ways: only on a table that shows minimum levels, at or
      below the row's level (inclusive), and at or below 0 when the row has no
      level. */
  lemma LowStockIff(row: Inventory.Row, showMinStock: bool)
    ensures LowStock(row, showMinStock) <==>
              showMinStock
              && (match row.minStock
                  case Some(level) => row.quantity <= level
                  case None => row.quantity <= 0)
  {
  }

  /** Stock only ever leaves a row flagged when it falls: lowering a row's
      quantity keeps a warning, and raising it never brings one. */
  lemma LowStockMonotone(row: Inventory.Row, showMinStock: bool, q: int)
    ensures q <= row.quantity && LowStock(row, showMinStock) ==> LowStock(row.(quantity := q), showMinStock)
    ensures q >= row.quantity && !LowStock(row, showMinStock) ==> !LowStock(row.(quantity := q), showMinStock)
  {
  }

  /** The master table never warns. */
  lemma MasterTableNeverWarns(row: Inventory.Row)
    ensures !LowStock(row, false)
  {
  }

  function Columns(showMinStock: bool): (r: seq<string>)
    ensures |r| == if showMinStock then 5 else 4
    ensures "Min Stock Level" in r <==> showMinStock
    ensures r[..3] == ["Medicine Name", "Quantity", "Unit"] && r[|r| - 1] == "Actions"
  {
    ["Medicine Name", "Quantity", "Unit"] + (if showMinStock then ["Min Stock Level"] else []) + ["Actions"]
  }

  // ----- the quantity field -----

  datatype Change = Cleared | Number(n: int)

  /** The field's change handler: `None` means the callback is not called. */
  function OnChange(text: string): (r: Option<Change>)
    ensures text == "" <==> r == Some(Cleared)
    ensures r.Some? && r.value.Number? ==> ParseInt(text, Ten) == Some(r.value.n)
    ensures text != "" ==> (r.None? <==> ParseInt(text, Ten).None?)
  {
    if text == "" then Some(Cleared)
    else match ParseInt(text, Ten)
      case Some(n) => Some(Number(n))
      case None => None
  }

  /** Digits are read as their decimal value, and a number written out reads
      back as itself. */
  lemma OnChangeDigits(text: string)
    requires |text| > 0 && AllDigits(text)
    ensures OnChange(text) == Some(Number(DigitsValue(text, 10)))
  {
    ParseDigits(text, Ten);
  }

  lemma OnChangeRoundTrip(n: nat)
    ensures OnChange(NatToString(n)) == Some(Number(n))
  {
    ParseNatToString(n, Ten);
  }

  /** The handler does not hold to the field's digits-only pattern: trailing
      letters are dropped and a minus sign is kept. Text starting with a letter
      leaves the value as it was. */
  lemma OnChangeIgnoresPattern()
    ensures OnChange("12abc") == Some(Number(12))
    ensures OnChange("-3") == Some(Number(-3))
    ensures OnChange("abc") == None
  {
    ParseTrailingLetters();
    ParseNegative();
    ParseNoDigits("abc", Ten);
  }
}

=== FILE: new_purchase.dfy ===
/**
  The new-purchase dialog (app/dashboard/purchases/new-purchase-dialog.tsx):
  the editable list of draft items, the unit price it derives, the validation
  run on submit, and the writes that follow. New medicines are first seeded
  into the master inventory with quantity 0; then the purchase row and its
  items are inserted. Nothing is rolled back when a later write fails.
 */
module NewPurchase {
  import opened Text
  import opened Inventory
  import Purchases

  /** One row of the item list. Numeric fields are `None` while empty. */
  datatype DraftItem = DraftItem(
    name: string,
    batch: string,
    expiry: Option<string>,
    quantity: Option<int>,
    unitPrice: Option<real>,
    totalPrice: Option<real>,
    category: Option<string>,
    location: Option<string>,
    page: Option<string>,
    isNew: bool)

  /** The invoice, supplier and notes fields and the purchase date. */
  datatype Form = Form(invoice: string, supplier: string, date: Option<string>, notes: string)

  // ----- JavaScript truthiness of the optional fields -----

  predicate Filled(o: Option<string>) {
    o.Some? && |o.value| > 0
  }

  predicate NonZero(o: Option<int>) {
    o.Some? && o.value != 0
  }

  predicate NonZeroAmount(o: Option<real>) {
    o.Some? && o.value != 0.0
  }

  // ----- editing the list -----

  function Blank(): DraftItem {
    DraftItem("", "", None, None, None, None, None, None, None, true)
  }

  /** `addItem`: one blank new-medicine row at the end. */
  function AddBlank(items: seq<DraftItem>): (r: seq<DraftItem>)
    ensures |r| == |items| + 1 && r[..|items|] == items && r[|items|] == Blank()
  {
    items + [Blank()]
  }

  /** `removeItem(i)`: keep every row whose position is not `i`. */
  function RemoveAt(items: seq<DraftItem>, i: int): (r: seq<DraftItem>)
    ensures 0 <= i < |items| ==> r == items[..i] + items[i + 1..]
    ensures !(0 <= i < |items|) ==> r == items
  {
    if |items| == 0 then []
    else
      var rest := RemoveAt(items[1..], i - 1);
      if i == 0 then
        assert rest == items[1..];
        rest
      else
        assert 0 <= i < |items| ==> [items[0]] + rest == items[..i] + items[i + 1..];
        [items[0]] + rest
  }

  /** Removing the row just added gives the list back. */
  lemma RemoveAddedBlank(items: seq<DraftItem>)
    ensures RemoveAt(AddBlank(items), |items|) == items
  {
    assert AddBlank(items)[..|items|] == items;
  }

  /** The remove button is never disabled, so the last row can go too. */
  lemma RemoveLastRow(it: DraftItem)
    ensures RemoveAt([it], 0) == []
  {
  }

  /** The fields `updateItem` is called with. */
  datatype FieldEdit =
    | SetName(name: string)
    | SetIsNew(isNew: bool)
    | SetCategory(category: string)
    | SetLocation(location: string)
    | SetPage(page: string)
    | SetBatch(batch: string)
    | SetExpiry(expiry: Option<string>)

  function ApplyEdit(it: DraftItem, e: FieldEdit): DraftItem {
    match e
    case SetName(v) => it.(name := v)
    case SetIsNew(v) => it.(isNew := v)
    case SetCategory(v) => it.(category := Some(v))
    case SetLocation(v) => it.(location := Some(v))
    case SetPage(v) => it.(page := Some(v))
    case SetBatch(v) => it.(batch := v)
    case SetExpiry(v) => it.(expiry := v)
  }

  /** `updateItem(k, field, value)`: one field of row `k`; no other row and no
      other field changes, and the numeric fields are never touched. */
  function UpdateItem(items: seq<DraftItem>, k: nat, e: FieldEdit): (r: seq<DraftItem>)
    requires k < |items|
    ensures |r| == |items|
    ensures forall i :: 0 <= i < |items| && i != k ==> r[i] == items[i]
    ensures r[k].quantity == items[k].quantity && r[k].unitPrice == items[k].unitPrice
            && r[k].totalPrice == items[k].totalPrice
  {
    items[k := ApplyEdit(items[k], e)]
  }

  /** The two-step handlers (choosing a medicine from the search list, or
      pressing "New") call `updateItem` twice in one event, each time starting
      from the list as it was before the event; the list set last wins. */
  function UpdateTwiceAsWritten(items: seq<DraftItem>, k: nat, first: FieldEdit, second: FieldEdit): (r: seq<DraftItem>)
    requires k < |items|
    ensures r == UpdateItem(items, k, second)
  {
    var discarded := UpdateItem(items, k, first);
    UpdateItem(items, k, second)
  }

  /** Choosing "Paracetamol" from the search list leaves the row's name as it
      was: the name edit is discarded by the second update. */
  lemma ChosenNameIsLost()
    ensures var items := [Blank().(isNew := false)];
            UpdateTwiceAsWritten(items, 0, SetName("Paracetamol"), SetIsNew(false))[0].name == ""
  {
  }

  /** Applying the second update to the result of the first keeps both. */
  function UpdateTwice(items: seq<DraftItem>, k: nat, first: FieldEdit, second: FieldEdit): (r: seq<DraftItem>)
    requires k < |items|
    ensures |r| == |items|
    ensures forall i :: 0 <= i < |items| && i != k ==> r[i] == items[i]
  {
    UpdateItem(UpdateItem(items, k, first), k, second)
  }

  lemma ChosenNameIsKept(items: seq<DraftItem>, k: nat, name: string)
    requires k < |items|
    ensures var r := UpdateTwice(items, k, SetName(name), SetIsNew(false));
            r[k].name == name && !r[k].isNew
  {
  }

  // ----- quantity, total and unit price -----

  /** The unit price shown for a row: total / quantity when both are non-zero,
      otherwise empty. */
  function UnitPrice(total: Option<real>, quantity: Option<int>): (r: Option<real>)
    ensures r.Some? <==> NonZeroAmount(total) && NonZero(quantity)
    ensures r.Some? ==> r.value * quantity.value as real == total.value
  {
    if NonZeroAmount(total) && NonZero(quantity) then Some(total.value / quantity.value as real) else None
  }

  /** The row's unit price is the one derived from its total and quantity. */
  predicate PriceConsistent(it: DraftItem) {
    it.unitPrice == UnitPrice(it.totalPrice, it.quantity)
  }

  /** Typing into the quantity field of row `k` (`None` for an empty field). */
  function OnQuantity(items: seq<DraftItem>, k: nat, quantity: Option<int>): (r: seq<DraftItem>)
    requires k < |items|
    ensures |r| == |items|
    ensures forall i :: 0 <= i < |items| && i != k ==> r[i] == items[i]
    ensures r[k] == items[k].(quantity := quantity, unitPrice := r[k].unitPrice)
  {
    items[k := items[k].(quantity := quantity, unitPrice := UnitPrice(items[k].totalPrice, quantity))]
  }

  /** Typing into the total field of row `k`. */
  function OnTotal(items: seq<DraftItem>, k: nat, total: Option<real>): (r: seq<DraftItem>)
    requires k < |items|
    ensures |r| == |items|
    ensures forall i :: 0 <= i < |items| && i != k ==> r[i] == items[i]
    ensures r[k] == items[k].(totalPrice := total, unitPrice := r[k].unitPrice)
  {
    items[k := items[k].(totalPrice := total, unitPrice := UnitPrice(total, items[k].quantity))]
  }

  /** Every way the dialog changes the list keeps every row's unit price equal
      to total / quantity (or empty), starting from the blank first row. */
  lemma PricesStayConsistent(items: seq<DraftItem>, k: nat, q: Option<int>, t: Option<real>, e: FieldEdit, i: int)
    requires forall j :: 0 <= j < |items| ==> PriceConsistent(items[j])
    requires k < |items|
    ensures PriceConsistent(Blank())
    ensures forall j :: 0 <= j < |items| + 1 ==> PriceConsistent(AddBlank(items)[j])
    ensures forall j :: 0 <= j < |RemoveAt(items, i)| ==> PriceConsistent(RemoveAt(items, i)[j])
    ensures forall j :: 0 <= j < |items| ==> PriceConsistent(UpdateItem(items, k, e)[j])
    ensures forall j :: 0 <= j < |items| ==> PriceConsistent(OnQuantity(items, k, q)[j])
    ensures forall j :: 0 <= j < |items| ==> PriceConsistent(OnTotal(items, k, t)[j])
  {
    var r := RemoveAt(items, i);
    forall j | 0 <= j < |r|
      ensures PriceConsistent(r[j])
    {
      if 0 <= i < |items| {
        assert r[j] == (if j < i then items[j] else items[j + 1]);
      }
    }
  }

  // ----- the total -----

  function AmountOf(it: DraftItem): real {
    match it.totalPrice case None => 0.0 case Some(v) => v
  }

  /** The purchase total: the sum of the rows' totals, an empty total as 0. */
  function DraftTotal(items: seq<DraftItem>): real {
    if |items| == 0 then 0.0 else AmountOf(items[0]) + DraftTotal(items[1..])
  }

  lemma {:induction false} DraftTotalAppend(a: seq<DraftItem>, b: seq<DraftItem>)
    ensures DraftTotal(a + b) == DraftTotal(a) + DraftTotal(b)
  {
    if |a| > 0 {
      assert (a + b)[1..] == a[1..] + b;
      DraftTotalAppend(a[1..], b);
    } else {
      assert a + b == b;
    }
  }

  /** A blank row adds nothing to the total; removing a row takes away exactly
      its total. */
  lemma DraftTotalAddBlank(items: seq<DraftItem>)
    ensures DraftTotal(AddBlank(items)) == DraftTotal(items)
  {
    DraftTotalAppend(items, [Blank()]);
  }

  lemma {:induction false} DraftTotalRemoveAt(items: seq<DraftItem>, i: nat)
    requires i < |items|
    ensures DraftTotal(RemoveAt(items, i)) == DraftTotal(items) - AmountOf(items[i])
  {
    if i > 0 {
      var rest := RemoveAt(items[1..], i - 1);
      assert RemoveAt(items, i) == [items[0]] + rest;
      assert ([items[0]] + rest)[1..] == rest;
      DraftTotalRemoveAt(items[1..], i - 1);
    }
  }

  // ----- validation -----

  datatype Rejection =
    | NewMedicineName | NewMedicineCategory | NewMedicinePage
    | InvoiceRequired | SupplierRequired | DateRequired
    | NoItems
    | ItemName(k: nat) | ItemBatch(k: nat) | ItemExpiry(k: nat) | ItemQuantity(k: nat) | ItemTotal(k: nat)
    | ItemCategory(k: nat) | ItemPage(k: nat)

  /** The first pass, over the new medicines only. */
  function NewMedicineFault(it: DraftItem): Option<Rejection> {
    if !it.isNew then None
    else if |it.name| == 0 then Some(NewMedicineName)
    else if !Filled(it.category) then Some(NewMedicineCategory)
    else if !Filled(it.page) then Some(NewMedicinePage)
    else None
  }

  function FirstNewMedicineFault(items: seq<DraftItem>): (r: Option<Rejection>)
    ensures r.None? <==> forall i :: 0 <= i < |items| ==> NewMedicineFault(items[i]).None?
    ensures r.Some? ==> r.value in {NewMedicineName, NewMedicineCategory, NewMedicinePage}
  {
    if |items| == 0 then None
    else if NewMedicineFault(items[0]).Some? then NewMedicineFault(items[0])
    else
      var rest := FirstNewMedicineFault(items[1..]);
      assert forall i :: 1 <= i < |items| ==> items[i] == items[1..][i - 1];
      rest
  }

  /** The per-row pass; row `k` is reported by its position. */
  function ItemFault(it: DraftItem, k: nat): Option<Rejection> {
    if |it.name| == 0 then Some(ItemName(k))
    else if |it.batch| == 0 then Some(ItemBatch(k))
    else if it.expiry.None? then Some(ItemExpiry(k))
    else if !NonZero(it.quantity) then Some(ItemQuantity(k))
    else if !NonZeroAmount(it.totalPrice) then Some(ItemTotal(k))
    else if it.isNew && !Filled(it.category) then Some(ItemCategory(k))
    else if it.isNew && !Filled(it.page) then Some(ItemPage(k))
    else None
  }

  function FirstItemFault(items: seq<DraftItem>, from: nat): (r: Option<Rejection>)
    requires from <= |items|
    ensures r.None? <==> forall i :: from <= i < |items| ==> ItemFault(items[i], i).None?
    decreases |items| - from
  {
    if from == |items| then None
    else if ItemFault(items[from], from).Some? then ItemFault(items[from], from)
    else FirstItemFault(items, from + 1)
  }

  /** The checks in the order the dialog runs them; the first failure is the
      one reported. */
  function Validate(f: Form, items: seq<DraftItem>): Option<Rejection> {
    var early := FirstNewMedicineFault(items);
    if early.Some? then early
    else if |f.invoice| == 0 then Some(InvoiceRequired)
    else if |f.supplier| == 0 then Some(SupplierRequired)
    else if f.date.None? then Some(DateRequired)
    else if |items| == 0 then Some(NoItems)
    else FirstItemFault(items, 0)
  }

  /** A complete row: every required field filled, quantity and total non-zero,
      and a new medicine's category and page given. */
  predicate Complete(it: DraftItem) {
    |it.name| > 0 && |it.batch| > 0 && it.expiry.Some? && NonZero(it.quantity) && NonZeroAmount(it.totalPrice)
    && (it.isNew ==> Filled(it.category) && Filled(it.page))
  }

  /** The submission passes exactly when the form is filled in and the list is
      a non-empty list of complete rows. So a row with quantity 0 or total 0 is
      refused like an empty one. */
  lemma ValidateAcceptsIff(f: Form, items: seq<DraftItem>)
    ensures Validate(f, items).None? <==>
      && |f.invoice| > 0 && |f.supplier| > 0 && f.date.Some? && |items| > 0
      && forall i :: 0 <= i < |items| ==> Complete(items[i])
  {
    if Validate(f, items).None? {
      forall i | 0 <= i < |items|
        ensures Complete(items[i])
      {
        assert ItemFault(items[i], i).None?;
      }
    }
    if forall i :: 0 <= i < |items| ==> Complete(items[i]) {
      assert forall i :: 0 <= i < |items| ==> NewMedicineFault(items[i]).None?;
      assert forall i :: 0 <= i < |items| ==> ItemFault(items[i], i).None?;
    }
  }

  /** The category and page checks of the per-row pass can never fire: the
      first pass has already refused any new medicine lacking them. */
  lemma LateNewMedicineChecksUnreachable(f: Form, items: seq<DraftItem>, k: nat)
    ensures Validate(f, items) != Some(ItemCategory(k))
    ensures Validate(f, items) != Some(ItemPage(k))
  {
    if FirstNewMedicineFault(items).None? && |items| > 0 {
      FirstItemFaultNotLate(items, 0, k);
    }
  }

  lemma {:induction false} FirstItemFaultNotLate(items: seq<DraftItem>, from: nat, k: nat)
    requires from <= |items|
    requires forall i :: 0 <= i < |items| ==> NewMedicineFault(items[i]).None?
    ensures FirstItemFault(items, from) != Some(ItemCategory(k))
    ensures FirstItemFault(items, from) != Some(ItemPage(k))
    decreases |items| - from
  {
    if from < |items| {
      assert NewMedicineFault(items[from]).None?;
      if ItemFault(items[from], from).None? {
        FirstItemFaultNotLate(items, from + 1, k);
      }
    }
  }

  /** A new medicine without a name is reported before a missing invoice. */
  lemma NewMedicineChecksComeFirst(f: Form, items: seq<DraftItem>)
    requires |items| > 0 && items[0].isNew && |items[0].name| == 0
    ensures Validate(f, items) == Some(NewMedicineName)
  {
  }

  /** Once every row has been removed, a filled-in form is refused for having
      no items. */
  lemma EmptyListRefused(f: Form)
    requires |f.invoice| > 0 && |f.supplier| > 0 && f.date.Some?
    ensures Validate(f, []) == Some(NoItems)
  {
  }

  // ----- submitting -----

  /** The master row seeded for a new medicine: quantity 0. */
  function SeedRow(it: DraftItem): Row {
    Row(0, it.name, 0, None, it.category, it.location, it.page, None)
  }

  /** Seeds rows `from..` of the list, one store call per new medicine
      (call `i` for row `i`); the first failure stops the loop and is returned,
      and only the new medicines before it have been seeded. */
  function SeedFrom(s: Stock, items: seq<DraftItem>, from: nat, oracle: seq<bool>): (r: (Stock, Option<nat>))
    requires from <= |items|
    ensures r.0.pharmacy == s.pharmacy
    ensures |s.master| <= |r.0.master| && r.0.master[..|s.master|] == s.master
    ensures forall j :: |s.master| <= j < |r.0.master| ==> r.0.master[j].quantity == 0
    ensures r.1.Some? ==> from <= r.1.value < |items| && items[r.1.value].isNew && Fails(oracle, r.1.value)
    ensures r.1.None? ==> forall i :: from <= i < |items| && items[i].isNew ==> !Fails(oracle, i)
    ensures r.1.Some? ==> forall i :: from <= i < r.1.value && items[i].isNew ==> !Fails(oracle, i)
    decreases |items| - from
  {
    if from == |items| then (s, None)
    else if !items[from].isNew then SeedFrom(s, items, from + 1, oracle)
    else if Fails(oracle, from) then (s, Some(from))
    else
      var s' := Insert(s, Master, SeedRow(items[from]));
      var r := SeedFrom(s', items, from + 1, oracle);
      assert r.0.master[..|s.master|] == r.0.master[..|s'.master|][..|s.master|];
      r
  }

  /** Seeding stops at the reported failure: exactly the new medicines before
      it were appended, and none after it. */
  lemma {:induction false} SeedStopsAtFailure(s: Stock, items: seq<DraftItem>, from: nat, oracle: seq<bool>)
    requires from <= |items|
    ensures var r := SeedFrom(s, items, from, oracle);
            r.1.Some? ==> |r.0.master| == |s.master| + NewCount(items[..r.1.value], from)
    decreases |items| - from
  {
    if from < |items| && items[from].isNew && !Fails(oracle, from) {
      SeedStopsAtFailure(Insert(s, Master, SeedRow(items[from])), items, from + 1, oracle);
    } else if from < |items| && !items[from].isNew {
      SeedStopsAtFailure(s, items, from + 1, oracle);
    }
  }

  /** Seeding adds rows of quantity 0 at the end, so no medicine's master
      quantity changes. */
  lemma {:induction false} SeedKeepsQuantities(s: Stock, items: seq<DraftItem>, from: nat, oracle: seq<bool>, n: string)
    requires from <= |items|
    ensures Qty(SeedFrom(s, items, from, oracle).0.master, n) == Qty(s.master, n)
    decreases |items| - from
  {
    if from < |items| && items[from].isNew && !Fails(oracle, from) {
      var s' := Insert(s, Master, SeedRow(items[from]));
      QtyAppend(s.master, SeedRow(items[from]).(id := s.nextId), n);
      SeedKeepsQuantities(s', items, from + 1, oracle, n);
    } else if from < |items| && !items[from].isNew {
      SeedKeepsQuantities(s, items, from + 1, oracle, n);
    }
  }

  datatype Outcome =
    | Refused(reason: Rejection)
    | SeedFailed(row: nat)
    | PurchaseInsertFailed
    | ItemsInsertFailed
    | Created(purchaseId: nat)

  datatype Submission = Submission(stock: Stock, ledger: Purchases.Ledger, outcome: Outcome)

  function OrZero(o: Option<int>): int {
    match o case None => 0 case Some(v) => v
  }

  function OrZeroAmount(o: Option<real>): real {
    match o case None => 0.0 case Some(v) => v
  }

  /** The purchase row. Status, paid amount and transfer flag are not sent;
      they take the table's defaults (pending, 0, not transferred). */
  function PurchaseRow(id: nat, f: Form, items: seq<DraftItem>): Purchases.Purchase {
    Purchases.Purchase(id, f.invoice, f.supplier, match f.date case None => "" case Some(d) => d,
                       DraftTotal(items), "pending", 0.0, f.notes, false)
  }

  function ItemRow(id: nat, pid: nat, it: DraftItem): Purchases.Item {
    Purchases.Item(id, pid, it.name, it.batch, match it.expiry case None => "" case Some(d) => d,
                   OrZero(it.quantity), OrZeroAmount(it.unitPrice), OrZeroAmount(it.totalPrice))
  }

  /** All the rows inserted in one call, with consecutive fresh identities. */
  function ItemRows(first: nat, pid: nat, items: seq<DraftItem>): (r: seq<Purchases.Item>)
    ensures |r| == |items|
  {
    seq(|items|, i requires 0 <= i < |items| => ItemRow(first + i, pid, items[i]))
  }

  /** `handleSubmit`. Store calls: `i` seeds row `i` when it is a new medicine,
      `|items|` inserts the purchase, `|items| + 1` inserts its items. */
  function Submit(s: Stock, l: Purchases.Ledger, f: Form, items: seq<DraftItem>, oracle: seq<bool>): (r: Submission)
    ensures r.outcome.Refused? <==> Validate(f, items).Some?
    ensures r.outcome.Refused? ==> r.stock == s && r.ledger == l
    ensures r.stock.pharmacy == s.pharmacy
    ensures !r.outcome.Refused? ==> r.stock == SeedFrom(s, items, 0, oracle).0
    ensures r.outcome.Created? || r.outcome.ItemsInsertFailed? ==>
              r.ledger.purchases == l.purchases + [PurchaseRow(l.nextId, f, items)]
    ensures !r.outcome.Created? && !r.outcome.ItemsInsertFailed? ==> r.ledger.purchases == l.purchases
    ensures r.outcome.Created? ==>
              r.ledger.items == l.items + ItemRows(l.nextId + 1, l.nextId, items)
    ensures !r.outcome.Created? ==> r.ledger.items == l.items
  {
    match Validate(f, items)
    case Some(reason) => Submission(s, l, Refused(reason))
    case None =>
      var (seeded, failed) := SeedFrom(s, items, 0, oracle);
      if failed.Some? then Submission(seeded, l, SeedFailed(failed.value))
      else if Fails(oracle, |items|) then Submission(seeded, l, PurchaseInsertFailed)
      else
        var pid := l.nextId;
        var l' := l.(purchases := l.purchases + [PurchaseRow(pid, f, items)], nextId := pid + 1);
        if Fails(oracle, |items| + 1) then Submission(seeded, l', ItemsInsertFailed)
        else
          Submission(seeded, l'.(items := l.items + ItemRows(pid + 1, pid, items), nextId := pid + 1 + |items|),
                     Created(pid))
  }

  /** Creating a purchase never changes a master quantity, whatever fails. */
  lemma SubmitKeepsQuantities(s: Stock, l: Purchases.Ledger, f: Form, items: seq<DraftItem>, oracle: seq<bool>, n: string)
    ensures Qty(Submit(s, l, f, items, oracle).stock.master, n) == Qty(s.master, n)
  {
    SeedKeepsQuantities(s, items, 0, oracle, n);
  }

  /** A created purchase's total is the sum of its items' totals, so the
      ledger's total bookkeeping starts out consistent. */
  lemma SubmitTotalsAgree(s: Stock, l: Purchases.Ledger, f: Form, items: seq<DraftItem>, oracle: seq<bool>)
    requires forall i :: 0 <= i < |l.items| ==> l.items[i].purchaseId != l.nextId
    requires forall i :: 0 <= i < |l.purchases| ==> l.purchases[i].id != l.nextId
    requires Submit(s, l, f, items, oracle).outcome.Created?
    ensures Purchases.TotalsAgree(Submit(s, l, f, items, oracle).ledger, l.nextId)
  {
    var r := Submit(s, l, f, items, oracle).ledger;
    ItemsTotalOfNew(l.items, l.nextId + 1, l.nextId, items);
  }

  lemma {:induction false} ItemsTotalOfNew(old_: seq<Purchases.Item>, first: nat, pid: nat, items: seq<DraftItem>)
    requires forall i :: 0 <= i < |old_| ==> old_[i].purchaseId != pid
    ensures Purchases.ItemsTotal(old_ + ItemRows(first, pid, items), pid) == DraftTotal(items)
    decreases |old_| + |items|
  {
    if |old_| > 0 {
      assert (old_ + ItemRows(first, pid, items))[1..] == old_[1..] + ItemRows(first, pid, items);
      ItemsTotalOfNew(old_[1..], first, pid, items);
    } else if |items| > 0 {
      assert ItemRows(first, pid, items)[1..] == ItemRows(first + 1, pid, items[1..]);
      ItemsTotalOfNew([], first + 1, pid, items[1..]);
      assert [] + ItemRows(first, pid, items) == ItemRows(first, pid, items);
      assert [] + ItemRows(first + 1, pid, items[1..]) == ItemRows(first + 1, pid, items[1..]);
    } else {
      assert old_ + ItemRows(first, pid, items) == [];
    }
  }

  /** When the purchase insert fails after new medicines were seeded, the
      seeded rows stay in the master inventory: one per new medicine. */
  lemma {:induction false} SeedCount(s: Stock, items: seq<DraftItem>, from: nat, oracle: seq<bool>)
    requires from <= |items|
    requires forall i :: from <= i < |items| ==> !Fails(oracle, i)
    ensures |SeedFrom(s, items, from, oracle).0.master| == |s.master| + NewCount(items, from)
    decreases |items| - from
  {
    if from < |items| {
      if items[from].isNew {
        SeedCount(Insert(s, Master, SeedRow(items[from])), items, from + 1, oracle);
      } else {
        SeedCount(s, items, from + 1, oracle);
      }
    }
  }

  /** Number of new-medicine rows from position `from` on. */
  function NewCount(items: seq<DraftItem>, from: nat): nat
    requires from <= |items|
    decreases |items| - from
  {
    if from == |items| then 0 else (if items[from].isNew then 1 else 0) + NewCount(items, from + 1)
  }

  lemma NoRollback(s: Stock, l: Purchases.Ledger, f: Form, items: seq<DraftItem>, oracle: seq<bool>)
    requires Validate(f, items).None?
    requires forall i :: 0 <= i < |items| ==> !Fails(oracle, i)
    requires Fails(oracle, |items|)
    ensures var r := Submit(s, l, f, items, oracle);
            && r.outcome == PurchaseInsertFailed
            && r.ledger == l
            && |r.stock.master| == |s.master| + NewCount(items, 0)
  {
    SeedCount(s, items, 0, oracle);
  }
}

=== FILE: patients.dfy ===
/**
  The patient registry: registration (components/patient-registration-form.tsx),
  editing (components/patient-edit-form.tsx), lookup by phone number
  (components/patient-lookup.tsx) and the filtered patient list
  (app/patients/page.tsx). The phone number identifies a patient: when the lookup succeeds,
  registration and edit both refuse a phone number another patient already has.
 */
module Patients {
  import opened Text

  datatype Patient = Patient(
    id: nat,
    name: string,
    gender: string,
    age: int,
    idNumber: Option<string>,
    phone: string,
    email: string,
    role: string)

  /** The visit recorded with a registration. */
  datatype Visit = Visit(patientId: nat, date: int, doctor: string, complaints: string, diagnosis: string, advice: string)

  datatype Registry = Registry(patients: seq<Patient>, visits: seq<Visit>, nextId: nat)

  const Roles: set<string> := {"Student", "Permanent Employee", "Contract Employee", "Retired Employee", "Dependent"}

  /** The doctor preselected on the registration form. */
  const DefaultDoctor: string := "Dr. P. Indrasen Reddy"

  /** The submitted form. `emailValid` stands for the e-mail syntax check of
      the form library, which is not modelled. */
  datatype Values = Values(
    name: string,
    gender: string,
    age: int,
    idNumber: string,
    phone: string,
    email: string,
    emailValid: bool,
    role: string)

  predicate CommonRules(v: Values) {
    |v.name| >= 2 && v.age >= 1 && IsPhoneNumber(v.phone) && (v.email == "" || v.emailValid) && v.role in Roles
  }

  /** Registration: gender Male or Female, the ID number optional. */
  predicate RegistrationAccepts(v: Values) {
    CommonRules(v) && v.gender in {"Male", "Female"}
  }

  /** Edit: gender may also be Other, and the ID number is required. */
  predicate EditAccepts(v: Values) {
    CommonRules(v) && v.gender in {"Male", "Female", "Other"} && |v.idNumber| >= 1
  }

  /** What edit accepts beyond registration, and what it demands beyond it. */
  lemma SchemasDiffer(v: Values)
    requires CommonRules(v)
    ensures v.gender == "Other" ==> EditAccepts(v.(idNumber := "x")) && !RegistrationAccepts(v)
    ensures |v.idNumber| == 0 ==> !EditAccepts(v) && (v.gender == "Male" ==> RegistrationAccepts(v))
  {
  }

  // ----- invariants -----

  ghost predicate PhonesUnique(ps: seq<Patient>) {
    forall i, j :: 0 <= i < j < |ps| ==> ps[i].phone != ps[j].phone
  }

  ghost predicate IdsUnique(ps: seq<Patient>) {
    forall i, j :: 0 <= i < j < |ps| ==> ps[i].id != ps[j].id
  }

  ghost predicate Wf(r: Registry) {
    IdsUnique(r.patients) && forall i :: 0 <= i < |r.patients| ==> r.patients[i].id < r.nextId
  }

  /** Number of patients with phone `ph`, other than patient `except`. */
  function CountPhone(ps: seq<Patient>, ph: string, except: Option<nat>): nat {
    if |ps| == 0 then 0
    else (if ps[0].phone == ph && (except.None? || ps[0].id != except.value) then 1 else 0)
         + CountPhone(ps[1..], ph, except)
  }

  lemma {:induction false} CountPhoneZero(ps: seq<Patient>, ph: string, except: Option<nat>)
    ensures CountPhone(ps, ph, except) == 0 <==>
            forall i :: 0 <= i < |ps| ==> !(ps[i].phone == ph && (except.None? || ps[i].id != except.value))
  {
    if |ps| > 0 {
      CountPhoneZero(ps[1..], ph, except);
      assert forall i :: 1 <= i < |ps| ==> ps[i] == ps[1..][i - 1];
    }
  }

  lemma {:induction false} CountPhoneTwo(ps: seq<Patient>, ph: string, except: Option<nat>, i: nat, j: nat)
    requires i < j < |ps|
    requires ps[i].phone == ph && ps[j].phone == ph
    requires except.None? || (ps[i].id != except.value && ps[j].id != except.value)
    ensures CountPhone(ps, ph, except) >= 2
  {
    if i > 0 {
      CountPhoneTwo(ps[1..], ph, except, i - 1, j - 1);
    } else {
      CountPhoneZero(ps[1..], ph, except);
      assert ps[1..][j - 1] == ps[j];
    }
  }

  /** With unique phone numbers a phone occurs at most once. */
  lemma {:induction false} CountPhoneAtMostOne(ps: seq<Patient>, ph: string, except: Option<nat>)
    requires PhonesUnique(ps)
    ensures CountPhone(ps, ph, except) <= 1
  {
    if |ps| > 0 {
      CountPhoneAtMostOne(ps[1..], ph, except);
      if ps[0].phone == ph {
        CountPhoneZero(ps[1..], ph, except);
      }
    }
  }

  // ----- registration -----

  datatype RegisterOutcome =
    | RegisterRefused
    | PhoneRegistered
    | InsertFailed
    | RegisteredWithoutVisit(id: nat)
    | Registered(id: nat)

  function NewPatient(id: nat, v: Values): Patient {
    Patient(id, v.name, v.gender, v.age, Some(v.idNumber), v.phone, v.email, v.role)
  }

  /** `onSubmit` of the registration form at time `now`. Store calls: 0 the
      phone lookup (`.single()`, so it finds a patient only when exactly one
      has the phone; a failed lookup finds none), 1 the patient insert, 2 the
      visit insert. */
  function Register(r: Registry, v: Values, doctor: string, now: int, oracle: seq<bool>): (res: (Registry, RegisterOutcome))
    ensures res.1 == RegisterRefused <==> !RegistrationAccepts(v)
    ensures res.1 in {RegisterRefused, PhoneRegistered, InsertFailed} ==> res.0 == r
    ensures res.1.RegisteredWithoutVisit? || res.1.Registered? ==>
              && res.1.id == r.nextId
              && res.0.patients == r.patients + [NewPatient(r.nextId, v)]
              && res.0.nextId == r.nextId + 1
    ensures res.1.RegisteredWithoutVisit? ==> res.0.visits == r.visits
    ensures res.1.Registered? ==> res.0.visits == r.visits + [Visit(r.nextId, now, doctor, "", "", "")]
  {
    if !RegistrationAccepts(v) then (r, RegisterRefused)
    else if !Fails(oracle, 0) && CountPhone(r.patients, v.phone, None) == 1 then (r, PhoneRegistered)
    else if Fails(oracle, 1) then (r, InsertFailed)
    else
      var id := r.nextId;
      var r' := r.(patients := r.patients + [NewPatient(id, v)], nextId := id + 1);
      if Fails(oracle, 2) then (r', RegisteredWithoutVisit(id))
      else (r'.(visits := r.visits + [Visit(id, now, doctor, "", "", "")]), Registered(id))
  }

  predicate Fails(oracle: seq<bool>, n: nat) {
    n < |oracle| && oracle[n]
  }

  /** With a working lookup, registration keeps phone numbers unique, and it
      keeps identities unique and below the next one. */
  lemma RegisterKeepsInvariants(r: Registry, v: Values, doctor: string, now: int, oracle: seq<bool>)
    requires PhonesUnique(r.patients) && Wf(r)
    requires !Fails(oracle, 0)
    ensures PhonesUnique(Register(r, v, doctor, now, oracle).0.patients)
    ensures Wf(Register(r, v, doctor, now, oracle).0)
  {
    var res := Register(r, v, doctor, now, oracle);
    if res.1.RegisteredWithoutVisit? || res.1.Registered? {
      CountPhoneAtMostOne(r.patients, v.phone, None);
      CountPhoneZero(r.patients, v.phone, None);
      var ps := res.0.patients;
      assert forall i :: 0 <= i < |r.patients| ==> ps[i] == r.patients[i];
    }
  }

  /** A phone already registered is refused with nothing written. */
  lemma RegisterRefusesKnownPhone(r: Registry, v: Values, doctor: string, now: int, i: nat)
    requires PhonesUnique(r.patients) && RegistrationAccepts(v)
    requires i < |r.patients| && r.patients[i].phone == v.phone
    ensures Register(r, v, doctor, now, []) == (r, PhoneRegistered)
  {
    CountPhoneAtMostOne(r.patients, v.phone, None);
    CountPhoneZero(r.patients, v.phone, None);
  }

  /** If the lookup itself fails, a phone that is already registered is
      registered a second time. */
  lemma RegisterAfterFailedLookupDuplicates(r: Registry, v: Values, doctor: string, now: int, i: nat)
    requires RegistrationAccepts(v)
    requires i < |r.patients| && r.patients[i].phone == v.phone
    ensures var ps := Register(r, v, doctor, now, [true]).0.patients;
            |ps| == |r.patients| + 1 && ps[i].phone == ps[|r.patients|].phone
  {
  }

  // ----- edit -----

  datatype EditOutcome = EditRefused | PhoneTaken | UpdateFailed | Updated

  function Overwrite(p: Patient, v: Values): Patient {
    p.(name := v.name, gender := v.gender, age := v.age, idNumber := Some(v.idNumber),
       phone := v.phone, email := v.email, role := v.role)
  }

  function UpdateById(ps: seq<Patient>, id: nat, v: Values): (r: seq<Patient>)
    ensures |r| == |ps|
  {
    seq(|ps|, i requires 0 <= i < |ps| => if ps[i].id == id then Overwrite(ps[i], v) else ps[i])
  }

  /** `onSubmit` of the edit form for patient `id`. Store calls: 0 the lookup of
      another patient with the phone, 1 the update of every field by id. */
  function Edit(r: Registry, id: nat, v: Values, oracle: seq<bool>): (res: (Registry, EditOutcome))
    ensures res.1 == EditRefused <==> !EditAccepts(v)
    ensures res.1 != Updated ==> res.0 == r
    ensures res.1 == Updated ==> res.0 == r.(patients := UpdateById(r.patients, id, v))
  {
    if !EditAccepts(v) then (r, EditRefused)
    else if !Fails(oracle, 0) && CountPhone(r.patients, v.phone, Some(id)) == 1 then (r, PhoneTaken)
    else if Fails(oracle, 1) then (r, UpdateFailed)
    else (r.(patients := UpdateById(r.patients, id, v)), Updated)
  }

  /** With a working lookup, an edit keeps phone numbers unique. */
  lemma EditKeepsPhonesUnique(r: Registry, id: nat, v: Values, oracle: seq<bool>)
    requires PhonesUnique(r.patients) && IdsUnique(r.patients)
    requires !Fails(oracle, 0)
    ensures PhonesUnique(Edit(r, id, v, oracle).0.patients)
  {
    var res := Edit(r, id, v, oracle);
    if res.1 == Updated {
      var ps := res.0.patients;
      CountPhoneAtMostOne(r.patients, v.phone, Some(id));
      CountPhoneZero(r.patients, v.phone, Some(id));
      forall i, j | 0 <= i < j < |ps|
        ensures ps[i].phone != ps[j].phone
      {
        if r.patients[i].id == id && r.patients[j].id == id {
          assert false;
        }
      }
    }
  }

  /** Keeping one's own phone number is never refused as taken. */
  lemma EditKeepsOwnPhone(r: Registry, k: nat, v: Values, oracle: seq<bool>)
    requires PhonesUnique(r.patients)
    requires k < |r.patients| && v.phone == r.patients[k].phone && EditAccepts(v)
    ensures Edit(r, r.patients[k].id, v, oracle).1 != PhoneTaken
  {
    var id := r.patients[k].id;
    CountPhoneZero(r.patients, v.phone, Some(id));
    assert CountPhone(r.patients, v.phone, Some(id)) == 0;
  }

  /** A phone another patient has is refused. */
  lemma EditRefusesOthersPhone(r: Registry, id: nat, k: nat, v: Values)
    requires PhonesUnique(r.patients)
    requires k < |r.patients| && r.patients[k].id != id && v.phone == r.patients[k].phone && EditAccepts(v)
    ensures Edit(r, id, v, []) == (r, PhoneTaken)
  {
    CountPhoneAtMostOne(r.patients, v.phone, Some(id));
    CountPhoneZero(r.patients, v.phone, Some(id));
  }

  // ----- lookup by phone -----

  /** What the lookup card shows. */
  datatype LookupView = LookupView(patient: Option<Patient>, notFound: bool)

  datatype LookupOutcome = InvalidInput | SearchFailed | NotFound | Hit

  /** `handleSearch`: the input must be a phone number before any query is
      made; the not-found flag is cleared before the query. */
  function Lookup(view: LookupView, input: string, ps: seq<Patient>, fails: bool): (r: (LookupView, LookupOutcome))
    ensures r.1 == InvalidInput <==> !IsPhoneNumber(input)
    ensures r.1 == InvalidInput ==> r.0 == view
    ensures r.1 == SearchFailed ==> r.0 == view.(notFound := false)
    ensures r.1 == NotFound ==> r.0 == LookupView(None, true)
    ensures r.1 == Hit ==> !r.0.notFound && r.0.patient.Some? && r.0.patient.value in ps
                           && r.0.patient.value.phone == input
  {
    if !IsPhoneNumber(input) then (view, InvalidInput)
    else if fails then (view.(notFound := false), SearchFailed)
    else if CountPhone(ps, input, None) != 1 then (LookupView(None, true), NotFound)
    else
      var k := FindPhone(ps, input);
      (LookupView(Some(ps[k]), false), Hit)
  }

  function FindPhone(ps: seq<Patient>, ph: string): (k: nat)
    requires CountPhone(ps, ph, None) >= 1
    ensures k < |ps| && ps[k].phone == ph
  {
    if ps[0].phone == ph then 0 else 1 + FindPhone(ps[1..], ph)
  }

  /** A registered phone is found, and with unique phones it is that patient. */
  lemma LookupFindsRegistered(view: LookupView, ps: seq<Patient>, k: nat)
    requires PhonesUnique(ps) && k < |ps| && IsPhoneNumber(ps[k].phone)
    ensures Lookup(view, ps[k].phone, ps, false) == (LookupView(Some(ps[k]), false), Hit)
  {
    CountPhoneAtMostOne(ps, ps[k].phone, None);
    CountPhoneZero(ps, ps[k].phone, None);
    var j := FindPhone(ps, ps[k].phone);
    assert j == k;
  }

  // ----- the patient list -----

  /** Role and gender filters: "" and "all" let everything through. */
  predicate FilterAdmits(filter: string, value: string) {
    filter == "" || filter == "all" || value == filter
  }

  predicate MatchesSearch(p: Patient, term: string) {
    || term == ""
    || Contains(Lower(p.name), Lower(term))
    || (p.idNumber.Some? && |p.idNumber.value| > 0 && Contains(Lower(p.idNumber.value), Lower(term)))
    || (|p.phone| > 0 && Contains(p.phone, term))
  }

  predicate Matches(p: Patient, term: string, role: string, gender: string) {
    MatchesSearch(p, term) && FilterAdmits(role, p.role) && FilterAdmits(gender, p.gender)
  }

  function FilterPatients(ps: seq<Patient>, term: string, role: string, gender: string): (r: seq<Patient>)
    ensures |r| <= |ps|
    ensures forall p :: p in r <==> p in ps && Matches(p, term, role, gender)
  {
    if |ps| == 0 then []
    else
      var rest := FilterPatients(ps[1..], term, role, gender);
      assert forall p :: p in ps <==> p == ps[0] || p in ps[1..];
      if Matches(ps[0], term, role, gender) then [ps[0]] + rest else rest
  }

  lemma {:induction false} FilterIsSubsequence(ps: seq<Patient>, term: string, role: string, gender: string)
    ensures Subsequence(FilterPatients(ps, term, role, gender), ps)
  {
    if |ps| > 0 {
      FilterIsSubsequence(ps[1..], term, role, gender);
      var rest := FilterPatients(ps[1..], term, role, gender);
      if Matches(ps[0], term, role, gender) {
        assert ([ps[0]] + rest)[1..] == rest;
      } else if |rest| > 0 {
        SubsequenceHead(rest, ps, term, role, gender);
      }
    }
  }

  lemma SubsequenceHead(rest: seq<Patient>, ps: seq<Patient>, term: string, role: string, gender: string)
    requires |ps| > 0 && |rest| > 0 && !Matches(ps[0], term, role, gender)
    requires rest == FilterPatients(ps[1..], term, role, gender)
    ensures rest[0] != ps[0]
  {
    assert rest[0] in rest;
  }

  /** Filtering twice with the same settings filters once. */
  lemma {:induction false} FilterIdempotent(ps: seq<Patient>, term: string, role: string, gender: string)
    ensures FilterPatients(FilterPatients(ps, term, role, gender), term, role, gender)
            == FilterPatients(ps, term, role, gender)
  {
    if |ps| > 0 {
      FilterIdempotent(ps[1..], term, role, gender);
      var rest := FilterPatients(ps[1..], term, role, gender);
      if Matches(ps[0], term, role, gender) {
        assert ([ps[0]] + rest)[1..] == rest;
      }
    }
  }

  /** With no search text and the filters unset, every patient is listed. */
  lemma {:induction false} FilterUnsetKeepsAll(ps: seq<Patient>, role: string, gender: string)
    requires role in {"", "all"} && gender in {"", "all"}
    ensures FilterPatients(ps, "", role, gender) == ps
  {
    if |ps| > 0 {
      FilterUnsetKeepsAll(ps[1..], role, gender);
    }
  }

  /** The search matches names case-insensitively, phones as typed. */
  lemma SearchExamples(p: Patient)
    requires p.name == "Priya Singh" && p.phone == "6543210987"
    ensures MatchesSearch(p, "SINGH")
    ensures MatchesSearch(p, "3210")
  {
    assert Lower("SINGH") == "singh";
    assert Lower(p.name) == "priya singh";
    assert OccursAt(Lower(p.name), "singh", 6);
    assert OccursAt(p.phone, "3210", 3);
  }

  // ----- the sample patients -----

  function MockPatients(): seq<Patient> {
    [ Patient(1, "John Smith", "Male", 22, Some("S123456"), "9876543210", "john.smith@pjtsau.edu", "Student"),
      Patient(2, "Sarah Johnson", "Female", 35, Some("E789012"), "8765432109", "sarah.j@pjtsau.edu", "Permanent Employee"),
      Patient(3, "Rahul Patel", "Male", 45, Some("R456789"), "7654321098", "rahul.p@pjtsau.edu", "Contract Employee"),
      Patient(4, "Priya Singh", "Female", 19, Some("S654321"), "6543210987", "priya.s@pjtsau.edu", "Student") ]
  }

  /** The list the page shows: the store's rows, or the four sample patients
      when the query fails (`None`) or returns nothing. */
  function Listed(result: Option<seq<Patient>>): (r: seq<Patient>)
    ensures |r| > 0
    ensures result.Some? && |result.value| > 0 ==> r == result.value
  {
    match result
    case Some(rows) => if |rows| > 0 then rows else MockPatients()
    case None => MockPatients()
  }

  /** The sample patients satisfy the registry's invariants. */
  lemma MockPatientsWellFormed()
    ensures |MockPatients()| == 4
    ensures PhonesUnique(MockPatients()) && IdsUnique(MockPatients())
    ensures Listed(None) == MockPatients() && Listed(Some([])) == MockPatients()
  {
  }
}

=== FILE: purchase_commit.dfy ===
/**
  The one-shot transfer of a paid purchase's items into the master inventory
  (`handleTransferToInventory` in app/dashboard/purchases/view-purchase-dialog.tsx).
  Items are applied one after another: each looks its medicine up by exact name
  and either adds to the row found or inserts a new row. The outcome of every
  per-item call is ignored, and the purchase is flagged as transferred after the
  loop whatever happened inside it.
 */
module PurchaseCommit {
  import opened Text
  import opened Inventory
  import Purchases

  /** The row the commit inserts for a medicine the master inventory lacks:
      category TDSR, the invoice number as its stock book page. */
  function CommitRow(it: Purchases.Item, invoice: string): Row {
    Row(0, it.name, it.quantity, None, Some("TDSR"), None, Some(invoice), None)
  }

  function AddQuantity(existing: Row, it: Purchases.Item): Row -> Row {
    (row: Row) => row.(quantity := existing.quantity + it.quantity)
  }

  /** One item: a lookup (a failed one reads as "no such row") and one write,
      which changes nothing when it fails. */
  function ApplyItem(s: Stock, it: Purchases.Item, invoice: string, lookupFails: bool, writeFails: bool): (r: Stock)
    ensures r.pharmacy == s.pharmacy
  {
    var found := if lookupFails then NoRows else SingleNamed(s.master, it.name);
    if writeFails then s
    else match found
      case Found(existing, _) => s.(master := UpdateByName(s.master, it.name, AddQuantity(existing, it)))
      case NoRows => Insert(s, Master, CommitRow(it, invoice))
  }

  /** A master row the commit created: named after one of the items, TDSR, and
      filed under the invoice number. */
  ghost predicate CreatedFor(row: Row, items: seq<Purchases.Item>, invoice: string) {
    && row.category == Some("TDSR") && row.page == Some(invoice)
    && exists i :: 0 <= i < |items| && items[i].name == row.name
  }

  /** What one item does to the master inventory: the item's medicine gains its
      quantity when the write goes through, and no other medicine changes;
      existing rows keep everything but their quantity; a row that is added is
      a commit row for this item. */
  lemma ApplyItemFacts(s: Stock, it: Purchases.Item, invoice: string, lookupFails: bool, writeFails: bool)
    ensures var r := ApplyItem(s, it, invoice, lookupFails, writeFails);
            && |s.master| <= |r.master| <= |s.master| + 1
            && (forall n :: Qty(r.master, n) == Qty(s.master, n) + (if it.name == n && !writeFails then it.quantity else 0))
            && (forall j :: 0 <= j < |s.master| ==> r.master[j] == s.master[j].(quantity := r.master[j].quantity))
            && (|r.master| == |s.master| + 1 ==> r.master[|s.master|] == CommitRow(it, invoice).(id := s.nextId))
  {
    var r := ApplyItem(s, it, invoice, lookupFails, writeFails);
    var found := if lookupFails then NoRows else SingleNamed(s.master, it.name);
    if !writeFails {
      match found
      case Found(existing, at) =>
        assert forall i :: 0 <= i < |s.master| && i != at ==> r.master[i] == s.master[i];
        forall n
          ensures Qty(r.master, n) == Qty(s.master, n) + (if it.name == n then it.quantity else 0)
        {
          QtyPointUpdate(s.master, r.master, at, n);
        }
      case NoRows =>
        forall n
          ensures Qty(r.master, n) == Qty(s.master, n) + (if it.name == n then it.quantity else 0)
        {
          QtyAppend(s.master, CommitRow(it, invoice).(id := s.nextId), n);
        }
    }
  }

  /** Quantity of medicine `n` the first `k` items carry, counting only the
      items whose write (call 2i+1) went through. */
  function Applied(items: seq<Purchases.Item>, oracle: seq<bool>, n: string, k: nat): int
    requires k <= |items|
  {
    if k == 0 then 0
    else Applied(items, oracle, n, k - 1)
         + (if items[k - 1].name == n && !Fails(oracle, 2 * (k - 1) + 1) then items[k - 1].quantity else 0)
  }

  /** Reference definition: the quantity of medicine `n` over all of a
      purchase's items. */
  function ItemQty(items: seq<Purchases.Item>, n: string): int {
    if |items| == 0 then 0
    else (if items[0].name == n then items[0].quantity else 0) + ItemQty(items[1..], n)
  }

  function MarkTransferred(): Purchases.Purchase -> Purchases.Purchase {
    (q: Purchases.Purchase) => q.(transferred := true)
  }

  /** `p` is the purchase as the dialog holds it and `items` its loaded items.
      Store calls: 2i and 2i+1 for item i, then 2|items| for the flag. Returns
      the stock, the ledger and the dialog's own copy of the purchase. */
  method Commit(s: Stock, l: Purchases.Ledger, p: Purchases.Purchase, items: seq<Purchases.Item>, oracle: seq<bool>)
    returns (stock: Stock, ledger: Purchases.Ledger, local: Purchases.Purchase)
    ensures |items| == 0 ==> stock == s && ledger == l && local == p
    ensures stock.pharmacy == s.pharmacy
    ensures forall n :: Qty(stock.master, n) == Qty(s.master, n) + Applied(items, oracle, n, |items|)
    ensures |s.master| <= |stock.master|
    ensures forall j :: 0 <= j < |s.master| ==> stock.master[j] == s.master[j].(quantity := stock.master[j].quantity)
    ensures forall j :: |s.master| <= j < |stock.master| ==> CreatedFor(stock.master[j], items, p.invoice)
    ensures ledger.items == l.items
    ensures ledger.purchases == (if |items| > 0 && !Fails(oracle, 2 * |items|)
                                 then Purchases.UpdatePurchase(l.purchases, p.id, MarkTransferred())
                                 else l.purchases)
    ensures local == (if |items| > 0 then p.(transferred := true) else p)
  {
    if |items| == 0 {
      return s, l, p;
    }
    stock := s;
    var i := 0;
    while i < |items|
      invariant 0 <= i <= |items|
      invariant stock.pharmacy == s.pharmacy
      invariant |s.master| <= |stock.master|
      invariant forall n :: Qty(stock.master, n) == Qty(s.master, n) + Applied(items, oracle, n, i)
      invariant forall j :: 0 <= j < |s.master| ==> stock.master[j] == s.master[j].(quantity := stock.master[j].quantity)
      invariant forall j :: |s.master| <= j < |stock.master| ==> CreatedFor(stock.master[j], items, p.invoice)
    {
      var next := ApplyItem(stock, items[i], p.invoice, Fails(oracle, 2 * i), Fails(oracle, 2 * i + 1));
      ApplyItemFacts(stock, items[i], p.invoice, Fails(oracle, 2 * i), Fails(oracle, 2 * i + 1));
      assert forall j :: |s.master| <= j < |stock.master| ==>
        next.master[j].name == stock.master[j].name && next.master[j].category == stock.master[j].category
        && next.master[j].page == stock.master[j].page;
      stock := next;
      i := i + 1;
    }
    ledger := if Fails(oracle, 2 * |items|) then l
              else l.(purchases := Purchases.UpdatePurchase(l.purchases, p.id, MarkTransferred()));
    local := p.(transferred := true);
  }

  lemma {:induction false} ItemQtyAppend(items: seq<Purchases.Item>, it: Purchases.Item, n: string)
    ensures ItemQty(items + [it], n) == ItemQty(items, n) + (if it.name == n then it.quantity else 0)
  {
    if |items| > 0 {
      assert (items + [it])[1..] == items[1..] + [it];
      ItemQtyAppend(items[1..], it, n);
    } else {
      assert items + [it] == [it];
    }
  }

  /** When no item write fails, every medicine gains exactly the total quantity
      of the purchase's items that name it (0 for a medicine not on it). */
  lemma {:induction false} AppliedWithoutFailures(items: seq<Purchases.Item>, oracle: seq<bool>, n: string, k: nat)
    requires k <= |items|
    requires forall j :: 0 <= j < k ==> !Fails(oracle, 2 * j + 1)
    ensures Applied(items, oracle, n, k) == ItemQty(items[..k], n)
  {
    if k > 0 {
      AppliedWithoutFailures(items, oracle, n, k - 1);
      assert items[..k] == items[..k - 1] + [items[k - 1]];
      ItemQtyAppend(items[..k - 1], items[k - 1], n);
    }
  }

  lemma CommitAppliesEveryItem(items: seq<Purchases.Item>, oracle: seq<bool>, n: string)
    requires forall j :: 0 <= j < |items| ==> !Fails(oracle, 2 * j + 1)
    ensures Applied(items, oracle, n, |items|) == ItemQty(items, n)
  {
    AppliedWithoutFailures(items, oracle, n, |items|);
    assert items[..|items|] == items;
  }

  /** Once the flag write succeeds, the stored purchase is no longer offered
      for transfer, so the commit cannot be repeated from the dialog. */
  lemma FlagEndsOffer(ps: seq<Purchases.Purchase>, pid: nat, i: nat)
    requires i < |ps| && ps[i].id == pid
    ensures !Purchases.CommitOffered(Purchases.Displayed(Purchases.UpdatePurchase(ps, pid, MarkTransferred())[i]))
  {
  }
}

=== FILE: purchases.dfy ===
/**
  Supplier purchases and their line items, as the purchase screens edit them:
  - the purchase detail dialog (app/dashboard/purchases/view-purchase-dialog.tsx)
    adds and deletes items, keeping the purchase's total in step, sets the paid
    amount or the payment status, and re-derives the status it displays;
  - the purchase list (app/dashboard/purchases/purchases-list.tsx) colours the
    status, shows the inventory badge and deletes a purchase with its items;
  - the purchases page (app/dashboard/purchases/purchases-client.tsx) shows the
    total of all paid purchases.
  Quantities are whole units; amounts are real numbers, without the rounding
  of floating point.
 */
module Purchases {
  import opened Text

  datatype Purchase = Purchase(
    id: nat,
    invoice: string,
    supplier: string,
    date: string,
    total: real,
    status: string,
    paid: real,
    notes: string,
    transferred: bool)

  datatype Item = Item(
    id: nat,
    purchaseId: nat,
    name: string,
    batch: string,
    expiry: string,
    quantity: int,
    unitPrice: real,
    totalPrice: real)

  /** The `purchases` and `purchase_items` tables, in storage order. */
  datatype Ledger = Ledger(purchases: seq<Purchase>, items: seq<Item>, nextId: nat)

  predicate Fails(oracle: seq<bool>, n: nat) {
    n < |oracle| && oracle[n]
  }

  // ----- totals -----

  /** Sum of the line totals of the items belonging to purchase `pid`. */
  function ItemsTotal(items: seq<Item>, pid: nat): real {
    if |items| == 0 then 0.0
    else (if items[0].purchaseId == pid then items[0].totalPrice else 0.0) + ItemsTotal(items[1..], pid)
  }

  lemma {:induction false} ItemsTotalAppend(items: seq<Item>, it: Item, pid: nat)
    ensures ItemsTotal(items + [it], pid)
            == ItemsTotal(items, pid) + (if it.purchaseId == pid then it.totalPrice else 0.0)
  {
    if |items| > 0 {
      assert (items + [it])[1..] == items[1..] + [it];
      ItemsTotalAppend(items[1..], it, pid);
    }
  }

  /** The purchase row's total equals the sum of its items' totals. */
  ghost predicate TotalsAgree(l: Ledger, pid: nat) {
    forall i :: 0 <= i < |l.purchases| && l.purchases[i].id == pid
      ==> l.purchases[i].total == ItemsTotal(l.items, pid)
  }

  ghost predicate ItemIdsUnique(items: seq<Item>) {
    forall i, j :: 0 <= i < j < |items| ==> items[i].id != items[j].id
  }

  /** Every purchase row whose id is not `pid` is where it was and as it was. */
  ghost predicate OthersKept(before: seq<Purchase>, after: seq<Purchase>, pid: nat) {
    |after| == |before|
    && forall i :: 0 <= i < |before| && before[i].id != pid ==> after[i] == before[i]
  }

  /** `.update(...).eq("id", pid)` on the purchases table. */
  function UpdatePurchase(ps: seq<Purchase>, pid: nat, patch: Purchase -> Purchase): (r: seq<Purchase>)
  {
    seq(|ps|, i requires 0 <= i < |ps| => if ps[i].id == pid then patch(ps[i]) else ps[i])
  }

  function SetTotal(total: real): Purchase -> Purchase {
    (p: Purchase) => p.(total := total)
  }

  // ----- adding and deleting items -----

  /** The "new item" fields of the dialog. */
  datatype NewItem = NewItem(name: string, batch: string, expiry: string, quantity: int, unitPrice: real)

  /** The Add Item button is enabled only for a named, batched item with a
      positive quantity and a positive unit price. */
  predicate AddItemEnabled(n: NewItem) {
    |n.name| > 0 && |n.batch| > 0 && n.quantity > 0 && n.unitPrice > 0.0
  }

  datatype EditOutcome = RowWriteFailed | TotalWriteFailed | Done

  datatype EditResult = EditResult(ledger: Ledger, outcome: EditOutcome)

  /** Store calls: 0 insert the item (its total is quantity times unit price),
      1 raise the purchase's total by that amount. `p` is the purchase as the
      dialog holds it. */
  function AddItem(l: Ledger, p: Purchase, n: NewItem, oracle: seq<bool>): (r: EditResult)
    ensures r.outcome == RowWriteFailed ==> r.ledger == l
    ensures r.outcome != RowWriteFailed ==>
      r.ledger.items == l.items + [Item(l.nextId, p.id, n.name, n.batch, n.expiry,
                                        n.quantity, n.unitPrice, n.quantity as real * n.unitPrice)]
    ensures r.outcome == TotalWriteFailed ==> r.ledger.purchases == l.purchases
    ensures OthersKept(l.purchases, r.ledger.purchases, p.id)
    ensures r.outcome == Done ==>
      forall i :: 0 <= i < |l.purchases| && l.purchases[i].id == p.id ==>
        r.ledger.purchases[i] == l.purchases[i].(total := p.total + n.quantity as real * n.unitPrice)
  {
    var totalPrice := n.quantity as real * n.unitPrice;
    if Fails(oracle, 0) then EditResult(l, RowWriteFailed)
    else
      var item := Item(l.nextId, p.id, n.name, n.batch, n.expiry, n.quantity, n.unitPrice, totalPrice);
      var l' := l.(items := l.items + [item], nextId := l.nextId + 1);
      if Fails(oracle, 1) then EditResult(l', TotalWriteFailed)
      else EditResult(l'.(purchases := UpdatePurchase(l.purchases, p.id, SetTotal(p.total + totalPrice))), Done)
  }

  /** When both writes succeed on a purchase whose total agreed with its items,
      it still agrees, and the total has grown by quantity times unit price. */
  lemma AddItemKeepsTotals(l: Ledger, p: Purchase, n: NewItem, oracle: seq<bool>)
    requires p in l.purchases && TotalsAgree(l, p.id)
    requires AddItem(l, p, n, oracle).outcome == Done
    ensures TotalsAgree(AddItem(l, p, n, oracle).ledger, p.id)
    ensures ItemsTotal(AddItem(l, p, n, oracle).ledger.items, p.id)
            == ItemsTotal(l.items, p.id) + n.quantity as real * n.unitPrice
  {
    var item := Item(l.nextId, p.id, n.name, n.batch, n.expiry, n.quantity, n.unitPrice, n.quantity as real * n.unitPrice);
    ItemsTotalAppend(l.items, item, p.id);
  }

  /** If the total write fails, the item stays inserted while the purchase total
      does not move: the two disagree by exactly the new line's total. */
  lemma AddItemPartialWrite(l: Ledger, p: Purchase, n: NewItem, oracle: seq<bool>)
    requires p in l.purchases && TotalsAgree(l, p.id)
    requires AddItem(l, p, n, oracle).outcome == TotalWriteFailed
    ensures var l' := AddItem(l, p, n, oracle).ledger;
            && l'.purchases == l.purchases
            && ItemsTotal(l'.items, p.id) == p.total + n.quantity as real * n.unitPrice
  {
    var item := Item(l.nextId, p.id, n.name, n.batch, n.expiry, n.quantity, n.unitPrice, n.quantity as real * n.unitPrice);
    ItemsTotalAppend(l.items, item, p.id);
  }

  /** An enabled add strictly raises the purchase's item total. */
  lemma AddEnabledItemRaisesTotal(l: Ledger, p: Purchase, n: NewItem, oracle: seq<bool>)
    requires AddItemEnabled(n)
    requires AddItem(l, p, n, oracle).outcome != RowWriteFailed
    ensures ItemsTotal(AddItem(l, p, n, oracle).ledger.items, p.id) > ItemsTotal(l.items, p.id)
  {
    var item := Item(l.nextId, p.id, n.name, n.batch, n.expiry, n.quantity, n.unitPrice, n.quantity as real * n.unitPrice);
    ItemsTotalAppend(l.items, item, p.id);
    assert n.quantity as real * n.unitPrice > 0.0;
  }

  /** `.delete().eq("id", itemId)` on the items table. */
  function RemoveItemId(items: seq<Item>, itemId: nat): (r: seq<Item>)
    ensures |r| <= |items|
    ensures forall it :: it in r <==> it in items && it.id != itemId
  {
    if |items| == 0 then []
    else if items[0].id == itemId then RemoveItemId(items[1..], itemId)
    else
      var rest := RemoveItemId(items[1..], itemId);
      assert forall it :: it in items <==> it == items[0] || it in items[1..];
      [items[0]] + rest
  }

  /** Store calls: 0 delete the item, 1 lower the purchase's total by the line
      total the dialog shows for it. */
  function DeleteItem(l: Ledger, p: Purchase, itemId: nat, itemTotal: real, oracle: seq<bool>): (r: EditResult)
    ensures r.outcome == RowWriteFailed ==> r.ledger == l
    ensures r.outcome != RowWriteFailed ==> r.ledger.items == RemoveItemId(l.items, itemId)
    ensures r.outcome == TotalWriteFailed ==> r.ledger.purchases == l.purchases
    ensures OthersKept(l.purchases, r.ledger.purchases, p.id)
    ensures r.outcome == Done ==>
      forall i :: 0 <= i < |l.purchases| && l.purchases[i].id == p.id ==>
        r.ledger.purchases[i] == l.purchases[i].(total := p.total - itemTotal)
  {
    if Fails(oracle, 0) then EditResult(l, RowWriteFailed)
    else
      var l' := l.(items := RemoveItemId(l.items, itemId));
      if Fails(oracle, 1) then EditResult(l', TotalWriteFailed)
      else EditResult(l'.(purchases := UpdatePurchase(l.purchases, p.id, SetTotal(p.total - itemTotal))), Done)
  }

  lemma {:induction false} ItemsTotalRemove(items: seq<Item>, k: nat, pid: nat)
    requires ItemIdsUnique(items) && k < |items|
    ensures ItemsTotal(RemoveItemId(items, items[k].id), pid)
            == ItemsTotal(items, pid) - (if items[k].purchaseId == pid then items[k].totalPrice else 0.0)
  {
    if k == 0 {
      ItemsTotalNoId(items[1..], items[0].id, pid);
    } else {
      ItemsTotalRemove(items[1..], k - 1, pid);
    }
  }

  lemma {:induction false} ItemsTotalNoId(items: seq<Item>, itemId: nat, pid: nat)
    requires forall i :: 0 <= i < |items| ==> items[i].id != itemId
    ensures RemoveItemId(items, itemId) == items
  {
    if |items| > 0 {
      ItemsTotalNoId(items[1..], itemId, pid);
    }
  }

  /** Deleting one of the purchase's items, with both writes succeeding, keeps
      the purchase total equal to the sum of the remaining items. */
  lemma DeleteItemKeepsTotals(l: Ledger, p: Purchase, k: nat, oracle: seq<bool>)
    requires ItemIdsUnique(l.items) && k < |l.items| && l.items[k].purchaseId == p.id
    requires p in l.purchases && TotalsAgree(l, p.id)
    requires DeleteItem(l, p, l.items[k].id, l.items[k].totalPrice, oracle).outcome == Done
    ensures TotalsAgree(DeleteItem(l, p, l.items[k].id, l.items[k].totalPrice, oracle).ledger, p.id)
  {
    ItemsTotalRemove(l.items, k, p.id);
  }

  // ----- editing items in place -----

  /** Sum of the line totals of a list of items (`reduce` over `total_price`). */
  function LineSum(items: seq<Item>): real {
    if |items| == 0 then 0.0 else items[0].totalPrice + LineSum(items[1..])
  }

  lemma {:induction false} LineSumPointUpdate(a: seq<Item>, b: seq<Item>, k: nat)
    requires |a| == |b| && k < |a|
    requires forall i :: 0 <= i < |a| && i != k ==> b[i] == a[i]
    ensures LineSum(b) == LineSum(a) - a[k].totalPrice + b[k].totalPrice
  {
    if k > 0 {
      LineSumPointUpdate(a[1..], b[1..], k - 1);
    } else {
      assert b[1..] == a[1..];
    }
  }

  /** JavaScript's `x || y` on numbers: `y` when `x` is 0. */
  function OrElse(x: int, y: int): int {
    if x != 0 then x else y
  }

  function OrElseReal(x: real, y: real): real {
    if x != 0.0 then x else y
  }

  /** `parseInt(text) || 0`: NaN and 0 both give 0. */
  function ParsedOrZero(text: string): int {
    match ParseInt(text, Auto) case None => 0 case Some(v) => v
  }

  /** A line's total: quantity times unit price. */
  function LineTotal(quantity: int, unitPrice: real): real {
    quantity as real * unitPrice
  }

  /** The edited list and the purchase total shown with it. */
  datatype Edited = Edited(items: seq<Item>, total: real)

  /** Typing `text` into the quantity cell of row `k`: the quantity is
      `parseInt(text) || 0`, the line total is that quantity times the row's
      unit price (the saved one when the edited price is 0), and the purchase
      total becomes the sum of all line totals. `saved` is the list as loaded. */
  function EditQuantity(edited: seq<Item>, saved: seq<Item>, k: nat, text: string): (r: Edited)
    requires k < |edited| && k < |saved|
    ensures |r.items| == |edited|
    ensures forall i :: 0 <= i < |edited| && i != k ==> r.items[i] == edited[i]
    ensures r.items[k].quantity == ParsedOrZero(text)
    ensures r.items[k].unitPrice == edited[k].unitPrice
    ensures r.items[k].totalPrice == LineTotal(r.items[k].quantity, OrElseReal(edited[k].unitPrice, saved[k].unitPrice))
    ensures r.total == LineSum(r.items)
  {
    var q := ParsedOrZero(text);
    var items := edited[k := edited[k].(quantity := q, totalPrice := LineTotal(q, OrElseReal(edited[k].unitPrice, saved[k].unitPrice)))];
    Edited(items, LineSum(items))
  }

  /** Typing into the unit-price cell of row `k`; `price` is the parsed number,
      `None` when it does not parse, and `|| 0` makes that 0. The line total is
      the price times the row's quantity, the saved one when the edited one is 0. */
  function EditPrice(edited: seq<Item>, saved: seq<Item>, k: nat, price: Option<real>): (r: Edited)
    requires k < |edited| && k < |saved|
    ensures |r.items| == |edited|
    ensures forall i :: 0 <= i < |edited| && i != k ==> r.items[i] == edited[i]
    ensures r.items[k].unitPrice == (match price case None => 0.0 case Some(v) => v)
    ensures r.items[k].quantity == edited[k].quantity
    ensures r.items[k].totalPrice == r.items[k].unitPrice * OrElse(edited[k].quantity, saved[k].quantity) as real
    ensures r.total == LineSum(r.items)
  {
    var p := match price case None => 0.0 case Some(v) => v;
    var items := edited[k := edited[k].(unitPrice := p, totalPrice := p * OrElse(edited[k].quantity, saved[k].quantity) as real)];
    Edited(items, LineSum(items))
  }

  /** A quantity edit moves the purchase total by exactly the change in that
      row's line total. */
  lemma EditQuantityMovesTotal(edited: seq<Item>, saved: seq<Item>, k: nat, text: string)
    requires k < |edited| && k < |saved|
    ensures var r := EditQuantity(edited, saved, k, text);
            r.total == LineSum(edited) - edited[k].totalPrice + r.items[k].totalPrice
  {
    var r := EditQuantity(edited, saved, k, text);
    LineSumPointUpdate(edited, r.items, k);
  }

  lemma EditPriceMovesTotal(edited: seq<Item>, saved: seq<Item>, k: nat, price: Option<real>)
    requires k < |edited| && k < |saved|
    ensures var r := EditPrice(edited, saved, k, price);
            r.total == LineSum(edited) - edited[k].totalPrice + r.items[k].totalPrice
  {
    var r := EditPrice(edited, saved, k, price);
    LineSumPointUpdate(edited, r.items, k);
  }

  /** Text that does not parse sets the quantity, and so the line total, to 0.
      A cleared number field delivers the empty string, which is such text. */
  lemma EditQuantityUnparsable(edited: seq<Item>, saved: seq<Item>, k: nat, text: string)
    requires k < |edited| && k < |saved|
    requires |text| == 0 || 'a' <= text[0] <= 'z' || 'A' <= text[0] <= 'Z'
    ensures EditQuantity(edited, saved, k, text).items[k].totalPrice == 0.0
  {
    ParseNoDigits(text, Auto);
  }

  // ----- paid amount and status -----

  /** The status the dialog displays: "paid" only when something has been paid
      and it equals the total. */
  function DerivedStatus(p: Purchase): (s: string)
    ensures s == "paid" <==> p.paid != 0.0 && p.paid == p.total
    ensures s == "paid" || s == "pending"
  {
    if p.paid == 0.0 then "pending" else if p.paid == p.total then "paid" else "pending"
  }

  /** `Math.min(Math.max(amount, 0), total)`. */
  function ClampPaid(amount: real, total: real): (v: real)
    ensures total >= 0.0 ==> 0.0 <= v <= total
    ensures 0.0 <= amount <= total ==> v == amount
    ensures amount < 0.0 && total >= 0.0 ==> v == 0.0
    ensures amount > total ==> v == total
  {
    var atLeastZero := if amount < 0.0 then 0.0 else amount;
    if atLeastZero < total then atLeastZero else total
  }

  function PaymentPatch(paid: real, status: string): Purchase -> Purchase {
    (q: Purchase) => q.(paid := paid, status := status)
  }

  /** Sets the paid amount, clamped to the purchase total, and the status with
      it: "pending" when nothing is paid, "paid" otherwise. One store call. */
  function UpdatePaidAmount(l: Ledger, p: Purchase, amount: real, oracle: seq<bool>): (r: Ledger)
    ensures Fails(oracle, 0) ==> r == l
    ensures r.items == l.items
    ensures OthersKept(l.purchases, r.purchases, p.id)
  {
    var valid := ClampPaid(amount, p.total);
    if Fails(oracle, 0) then l
    else l.(purchases := UpdatePurchase(l.purchases, p.id,
                                        PaymentPatch(valid, if valid == 0.0 then "pending" else "paid")))
  }

  /** The stored status is "pending" exactly when the clamped amount is zero,
      and the amount never leaves [0, total] for a non-negative total. */
  lemma UpdatePaidAmountStatus(l: Ledger, p: Purchase, amount: real, oracle: seq<bool>, i: nat)
    requires !Fails(oracle, 0) && i < |l.purchases| && l.purchases[i].id == p.id
    ensures var q := UpdatePaidAmount(l, p, amount, oracle).purchases[i];
            && q.paid == ClampPaid(amount, p.total)
            && (q.status == "pending" <==> q.paid == 0.0)
            && (q.status == "paid" <==> q.paid != 0.0)
            && (p.total >= 0.0 ==> 0.0 <= q.paid <= p.total)
  {
  }

  /** A part payment is stored as "paid" yet displayed as "pending", so the
      dialog offers no transfer to inventory for it. */
  lemma PartPaymentDisplaysPending(l: Ledger, p: Purchase, amount: real, i: nat)
    requires 0.0 < amount < p.total
    requires i < |l.purchases| && l.purchases[i].id == p.id && l.purchases[i].total == p.total
    ensures var q := UpdatePaidAmount(l, p, amount, []).purchases[i];
            q.status == "paid" && DerivedStatus(q) == "pending"
  {
  }

  /** Choosing a status from the select: "paid" also sets the paid amount to the
      total, any other choice sets it to zero. One store call. */
  function SetStatus(l: Ledger, p: Purchase, newStatus: string, oracle: seq<bool>): (r: Ledger)
    ensures Fails(oracle, 0) ==> r == l
    ensures r.items == l.items
    ensures OthersKept(l.purchases, r.purchases, p.id)
    ensures !Fails(oracle, 0) ==>
      forall i :: 0 <= i < |l.purchases| && l.purchases[i].id == p.id ==>
        && r.purchases[i].status == newStatus
        && r.purchases[i].paid == (if newStatus == "paid" then p.total else 0.0)
        && r.purchases[i] == l.purchases[i].(status := r.purchases[i].status, paid := r.purchases[i].paid)
  {
    if Fails(oracle, 0) then l
    else l.(purchases := UpdatePurchase(l.purchases, p.id,
                                        PaymentPatch(if newStatus == "paid" then p.total else 0.0, newStatus)))
  }

  /** After choosing "pending" the displayed status is "pending"; after
      choosing "paid" it is "paid" exactly when the total is not zero. */
  lemma SetStatusDisplayed(l: Ledger, p: Purchase, newStatus: string, i: nat)
    requires i < |l.purchases| && l.purchases[i].id == p.id && l.purchases[i].total == p.total
    requires newStatus in {"paid", "pending"}
    ensures var q := SetStatus(l, p, newStatus, []).purchases[i];
            && q.status == newStatus
            && (DerivedStatus(q) == "paid" <==> newStatus == "paid" && p.total != 0.0)
  {
  }

  // ----- the commit gate and the list badges -----

  /** The purchase as the dialog displays it, status re-derived. */
  function Displayed(p: Purchase): Purchase {
    p.(status := DerivedStatus(p))
  }

  /** The transfer-to-inventory button is shown only for a displayed "paid"
      purchase not yet transferred. */
  predicate CommitOffered(p: Purchase) {
    p.status == "paid" && !p.transferred
  }

  /** A purchase whose total is zero is never offered for transfer, whatever
      status is stored for it. */
  lemma ZeroTotalNeverOffered(p: Purchase)
    requires p.total == 0.0
    ensures !CommitOffered(Displayed(p))
  {
  }

  datatype Colour = Green | Yellow | Red

  /** Badge colour of a status as written: the return meant for "pending" sits
      after the "paid" return and is never reached, so only "paid" is green and
      "pending" falls through to red. */
  function StatusColourAsWritten(status: string): (c: Colour)
    ensures c != Yellow
    ensures c == Green <==> status == "paid"
  {
    if status == "paid" then Green else Red
  }

  /** The list shows a pending purchase in red, the colour left for unknown
      statuses. */
  lemma PendingShownRed()
    ensures StatusColourAsWritten("pending") == Red
  {
  }

  /** Badge colour with the missing `case "pending":` label restored: each
      colour belongs to exactly one kind of status. */
  function StatusColour(status: string): (c: Colour)
    ensures c == Green <==> status == "paid"
    ensures c == Yellow <==> status == "pending"
    ensures c == Red <==> status != "paid" && status != "pending"
  {
    if status == "paid" then Green
    else if status == "pending" then Yellow
    else Red
  }

  /** The two agree on every status except "pending". */
  lemma StatusColourFixesOnlyPending(status: string)
    ensures StatusColour(status) == StatusColourAsWritten(status) <==> status != "pending"
  {
  }

  datatype InventoryBadge = Transferred | NotTransferred

  /** The inventory column shows a badge only for paid purchases. */
  function InventoryBadgeOf(p: Purchase): (b: Option<InventoryBadge>)
    ensures b.Some? <==> p.status == "paid"
    ensures b.Some? ==> (b.value == Transferred <==> p.transferred)
  {
    if p.status != "paid" then None
    else if p.transferred then Some(Transferred) else Some(NotTransferred)
  }

  // ----- deleting a purchase -----

  /** Every item belongs to a purchase that exists. */
  ghost predicate NoOrphans(l: Ledger) {
    forall i :: 0 <= i < |l.items| ==> exists j :: 0 <= j < |l.purchases| && l.purchases[j].id == l.items[i].purchaseId
  }

  function RemoveItemsOf(items: seq<Item>, pid: nat): (r: seq<Item>)
    ensures forall it :: it in r <==> it in items && it.purchaseId != pid
  {
    if |items| == 0 then []
    else
      var rest := RemoveItemsOf(items[1..], pid);
      assert forall it :: it in items <==> it == items[0] || it in items[1..];
      if items[0].purchaseId == pid then rest else [items[0]] + rest
  }

  function RemovePurchase(ps: seq<Purchase>, pid: nat): (r: seq<Purchase>)
    ensures forall p :: p in r <==> p in ps && p.id != pid
  {
    if |ps| == 0 then []
    else
      var rest := RemovePurchase(ps[1..], pid);
      assert forall p :: p in ps <==> p == ps[0] || p in ps[1..];
      if ps[0].id == pid then rest else [ps[0]] + rest
  }

  datatype DeleteOutcome = ItemsDeleteFailed | PurchaseDeleteFailed | Deleted

  /** Store calls: 0 delete the purchase's items, 1 delete the purchase. The
      purchase row is not touched when the items could not be deleted. */
  function DeletePurchase(l: Ledger, pid: nat, oracle: seq<bool>): (r: (Ledger, DeleteOutcome))
    ensures r.1 == ItemsDeleteFailed <==> Fails(oracle, 0)
    ensures r.1 == ItemsDeleteFailed ==> r.0 == l
    ensures r.1 != ItemsDeleteFailed ==> forall it :: it in r.0.items <==> it in l.items && it.purchaseId != pid
    ensures r.1 == PurchaseDeleteFailed ==> r.0.purchases == l.purchases
    ensures r.1 == Deleted ==> forall p :: p in r.0.purchases <==> p in l.purchases && p.id != pid
  {
    if Fails(oracle, 0) then (l, ItemsDeleteFailed)
    else
      var l' := l.(items := RemoveItemsOf(l.items, pid));
      if Fails(oracle, 1) then (l', PurchaseDeleteFailed)
      else (l'.(purchases := RemovePurchase(l.purchases, pid)), Deleted)
  }

  /** Whatever fails, deleting items before their purchase never leaves an item
      without its purchase. */
  lemma DeletePurchaseNoOrphans(l: Ledger, pid: nat, oracle: seq<bool>)
    requires NoOrphans(l)
    ensures NoOrphans(DeletePurchase(l, pid, oracle).0)
  {
    var r := DeletePurchase(l, pid, oracle).0;
    if !Fails(oracle, 0) {
      var kept := RemoveItemsOf(l.items, pid);
      assert r.items == kept;
      forall i | 0 <= i < |r.items|
        ensures exists j :: 0 <= j < |r.purchases| && r.purchases[j].id == r.items[i].purchaseId
      {
        ItemHasOwner(l, pid, oracle, kept[i]);
      }
    }
  }

  /** An item the delete keeps still has its purchase afterwards. */
  lemma ItemHasOwner(l: Ledger, pid: nat, oracle: seq<bool>, it: Item)
    requires NoOrphans(l)
    requires !Fails(oracle, 0)
    requires it in RemoveItemsOf(l.items, pid)
    ensures var r := DeletePurchase(l, pid, oracle).0;
            exists j :: 0 <= j < |r.purchases| && r.purchases[j].id == it.purchaseId
  {
    var r := DeletePurchase(l, pid, oracle).0;
    assert it in l.items && it.purchaseId != pid;
    var i0 :| 0 <= i0 < |l.items| && l.items[i0] == it;
    var j :| 0 <= j < |l.purchases| && l.purchases[j].id == l.items[i0].purchaseId;
    var owner := l.purchases[j];
    if Fails(oracle, 1) {
      assert r.purchases == l.purchases;
      assert r.purchases[j].id == it.purchaseId;
    } else {
      assert r.purchases == RemovePurchase(l.purchases, pid);
      assert owner in l.purchases && owner.id != pid;
      assert owner in r.purchases;
      var j' :| 0 <= j' < |r.purchases| && r.purchases[j'] == owner;
      assert r.purchases[j'].id == it.purchaseId;
    }
  }


  // ----- the paid total -----

  function PaidRows(ps: seq<Purchase>): (r: seq<Purchase>)
    ensures forall p :: p in r ==> p in ps && p.status == "paid"
  {
    if |ps| == 0 then []
    else if ps[0].status == "paid" then [ps[0]] + PaidRows(ps[1..])
    else PaidRows(ps[1..])
  }

  function SumTotals(ps: seq<Purchase>): real {
    if |ps| == 0 then 0.0 else ps[0].total + SumTotals(ps[1..])
  }

  /** `.select("total_amount").eq("payment_status", "paid")` then the sum; a
      failed query has no data and shows 0. Recomputed from the table on every
      call. */
  function TotalPurchases(ps: seq<Purchase>, queryFails: bool): real {
    if queryFails then 0.0 else SumTotals(PaidRows(ps))
  }

  lemma {:induction false} PaidRowsAppend(a: seq<Purchase>, b: seq<Purchase>)
    ensures PaidRows(a + b) == PaidRows(a) + PaidRows(b)
  {
    if |a| > 0 {
      assert (a + b)[1..] == a[1..] + b;
      PaidRowsAppend(a[1..], b);
    } else {
      assert a + b == b;
    }
  }

  lemma {:induction false} SumTotalsAppend(a: seq<Purchase>, b: seq<Purchase>)
    ensures SumTotals(a + b) == SumTotals(a) + SumTotals(b)
  {
    if |a| > 0 {
      assert (a + b)[1..] == a[1..] + b;
      SumTotalsAppend(a[1..], b);
    } else {
      assert a + b == b;
    }
  }

  /** The paid total is additive over the table, and a row that is not paid
      adds nothing to it. */
  lemma TotalPurchasesAppend(a: seq<Purchase>, b: seq<Purchase>)
    ensures TotalPurchases(a + b, false) == TotalPurchases(a, false) + TotalPurchases(b, false)
  {
    PaidRowsAppend(a, b);
    SumTotalsAppend(PaidRows(a), PaidRows(b));
  }

  lemma PendingAddsNothing(ps: seq<Purchase>, p: Purchase)
    requires p.status != "paid"
    ensures TotalPurchases(ps + [p], false) == TotalPurchases(ps, false)
  {
    TotalPurchasesAppend(ps, [p]);
    assert [p][1..] == [];
  }

  /** Reference definition: every row counted, with its total when it is paid
      and with nothing otherwise. */
  function PaidSum(ps: seq<Purchase>): real {
    if |ps| == 0 then 0.0 else (if ps[0].status == "paid" then ps[0].total else 0.0) + PaidSum(ps[1..])
  }

  lemma {:induction false} TotalPurchasesIsPaidSum(ps: seq<Purchase>)
    ensures TotalPurchases(ps, false) == PaidSum(ps)
  {
    if |ps| > 0 {
      TotalPurchasesIsPaidSum(ps[1..]);
    }
  }

  /** With non-negative totals, the paid total is at most the total of all
      purchases, and a failed query shows 0. */
  lemma {:induction false} TotalPurchasesBounded(ps: seq<Purchase>)
    requires forall i :: 0 <= i < |ps| ==> ps[i].total >= 0.0
    ensures 0.0 <= TotalPurchases(ps, false) <= SumTotals(ps)
    ensures TotalPurchases(ps, true) == 0.0
  {
    if |ps| > 0 {
      TotalPurchasesBounded(ps[1..]);
    }
  }
}

=== FILE: text.dfy ===
/**
  String helpers shared by the forms and filters: ASCII case folding, substring
  search, the ten-digit phone check and the `parseInt` conversion of ECMA-262
  (section 19.2.5), which the quantity fields use to turn text into numbers.
 */
module Text {

  datatype Option<T> = None | Some(value: T)

  /** `a` is `b` with some entries left out and the rest in their order: what
      JavaScript's `Array.filter` returns. */
  predicate Subsequence<T(==)>(a: seq<T>, b: seq<T>) {
    if |a| == 0 then true
    else if |b| == 0 then false
    else if a[0] == b[0] then Subsequence(a[1..], b[1..])
    else Subsequence(a, b[1..])
  }

  predicate IsDigit(c: char) {
    '0' <= c <= '9'
  }

  predicate AllDigits(s: string) {
    forall i :: 0 <= i < |s| ==> IsDigit(s[i])
  }

  /** Lower-cases the ASCII letters A-Z and leaves every other character alone. */
  function LowerChar(c: char): char {
    if 'A' <= c <= 'Z' then (c as int + 32) as char else c
  }

  function Lower(s: string): (r: string)
    ensures |r| == |s|
    ensures forall i :: 0 <= i < |s| ==> r[i] == LowerChar(s[i])
  {
    if |s| == 0 then "" else [LowerChar(s[0])] + Lower(s[1..])
  }

  lemma LowerIdempotent(s: string)
    ensures Lower(Lower(s)) == Lower(s)
  {
  }

  /** `t` occurs in `s` starting at position `k`. */
  ghost predicate OccursAt(s: string, t: string, k: int) {
    0 <= k && k + |t| <= |s| && s[k..k + |t|] == t
  }

  /** JavaScript's `s.includes(t)`: `t` is a contiguous substring of `s`. */
  function Contains(s: string, t: string): (r: bool)
    ensures r <==> exists k :: OccursAt(s, t, k)
  {
    if |t| <= |s| && s[..|t|] == t then
      assert OccursAt(s, t, 0);
      true
    else if |s| == 0 then
      assert forall k :: !OccursAt(s, t, k);
      false
    else
      var r := Contains(s[1..], t);
      assert forall k :: OccursAt(s[1..], t, k) ==> OccursAt(s, t, k + 1);
      assert forall k :: OccursAt(s, t, k) && k > 0 ==> OccursAt(s[1..], t, k - 1);
      r
  }

  lemma ContainsEmpty(s: string)
    ensures Contains(s, "")
  {
    assert OccursAt(s, "", 0);
  }

  lemma ContainsSelf(s: string)
    ensures Contains(s, s)
  {
    assert OccursAt(s, s, 0);
  }

  /** A substring of a substring is a substring. */
  lemma ContainsTransitive(a: string, b: string, c: string)
    requires Contains(a, b) && Contains(b, c)
    ensures Contains(a, c)
  {
    var i :| OccursAt(a, b, i);
    var j :| OccursAt(b, c, j);
    assert forall k :: 0 <= k < |c| ==> a[i + j + k] == b[j + k] == c[k];
    assert a[i + j..i + j + |c|] == c;
    assert OccursAt(a, c, i + j);
  }

  /** Lower-casing commutes with taking a substring. */
  lemma LowerSlice(s: string, i: int, j: int)
    requires 0 <= i <= j <= |s|
    ensures Lower(s)[i..j] == Lower(s[i..j])
  {
  }

  lemma ContainsLower(s: string, t: string)
    requires Contains(s, t)
    ensures Contains(Lower(s), Lower(t))
  {
    var k :| OccursAt(s, t, k);
    LowerSlice(s, k, k + |t|);
    assert OccursAt(Lower(s), Lower(t), k);
  }

  /** The phone-number rule shared by registration, edit and lookup: exactly ten
      characters, each a decimal digit (`/^\d+$/` without the `u` flag). */
  predicate IsPhoneNumber(s: string) {
    |s| == 10 && AllDigits(s)
  }

  // ----- parseInt (ECMA-262, section 19.2.5) -----

  /** The radix argument: `Ten` for `parseInt(s, 10)`, `Auto` for `parseInt(s)`,
      which also accepts a `0x`/`0X` prefix as hexadecimal. */
  datatype Radix = Ten | Auto

  /** Leading characters stripped before parsing: ECMA-262's WhiteSpace (tab,
      vertical tab, form feed, U+FEFF and the space separators of Unicode 15,
      category Zs) and LineTerminator (line feed, carriage return, U+2028,
      U+2029). */
  predicate IsWhiteSpace(c: char) {
    c == '\t' || c == '\U{000B}' || c == '\U{000C}' || c == '\U{FEFF}'
    || c == ' ' || c == '\U{00A0}' || c == '\U{1680}' || '\U{2000}' <= c <= '\U{200A}'
    || c == '\U{202F}' || c == '\U{205F}' || c == '\U{3000}'
    || c == '\n' || c == '\r' || c == '\U{2028}' || c == '\U{2029}'
  }

  function TrimStart(s: string): (r: string)
    ensures |r| <= |s| && r == s[|s| - |r|..]
    ensures |r| > 0 ==> !IsWhiteSpace(r[0])
    ensures forall i :: 0 <= i < |s| - |r| ==> IsWhiteSpace(s[i])
  {
    if |s| > 0 && IsWhiteSpace(s[0]) then TrimStart(s[1..]) else s
  }

  function DigitValue(c: char, base: nat): Option<nat>
  {
    if IsDigit(c) && (c as int - '0' as int) < base then Some(c as int - '0' as int)
    else if base == 16 && 'a' <= c <= 'f' then Some(c as int - 'a' as int + 10)
    else if base == 16 && 'A' <= c <= 'F' then Some(c as int - 'A' as int + 10)
    else None
  }

  /** Length of the longest prefix of `s` made of digits of `base`. */
  function DigitRun(s: string, base: nat): (n: nat)
    ensures n <= |s|
    ensures forall i :: 0 <= i < n ==> DigitValue(s[i], base).Some?
    ensures n < |s| ==> DigitValue(s[n], base).None?
  {
    if |s| > 0 && DigitValue(s[0], base).Some? then 1 + DigitRun(s[1..], base) else 0
  }

  /** Value of a digit string read most significant digit first. */
  function DigitsValue(s: string, base: nat): (v: nat)
    requires forall i :: 0 <= i < |s| ==> DigitValue(s[i], base).Some?
  {
    if |s| == 0 then 0
    else DigitsValue(s[..|s| - 1], base) * base + DigitValue(s[|s| - 1], base).value
  }

  /** The digits at the front of `body`, read in `base`; `None` when there are none. */
  function LeadingValue(body: string, base: nat): (r: Option<nat>)
    ensures r.None? <==> DigitRun(body, base) == 0
  {
    var n := DigitRun(body, base);
    if n == 0 then None
    else
      var digits := body[..n];
      assert forall i :: 0 <= i < |digits| ==> digits[i] == body[i];
      Some(DigitsValue(digits, base))
  }

  predicate HasHexPrefix(u: string) {
    |u| >= 2 && u[0] == '0' && (u[1] == 'x' || u[1] == 'X')
  }

  /** `parseInt(s, radix)`; `None` stands for NaN. */
  function ParseInt(s: string, radix: Radix): (r: Option<int>)
  {
    var t := TrimStart(s);
    var negative := |t| > 0 && t[0] == '-';
    var u := if |t| > 0 && (t[0] == '-' || t[0] == '+') then t[1..] else t;
    var hex := radix == Auto && HasHexPrefix(u);
    var magnitude := if hex then LeadingValue(u[2..], 16) else LeadingValue(u, 10);
    match magnitude
    case None => None
    case Some(v) => Some(if negative then -(v as int) else v)
  }

  /** Decimal rendering of a natural number (`n.toString()`). */
  function NatToString(n: nat): (s: string)
    ensures |s| > 0 && AllDigits(s)
  {
    if n < 10 then [('0' as int + n) as char]
    else NatToString(n / 10) + [('0' as int + n % 10) as char]
  }

  lemma {:induction false} DigitsValueOfNatToString(n: nat)
    ensures DigitsValue(NatToString(n), 10) == n
  {
    var s := NatToString(n);
    if n >= 10 {
      DigitsValueOfNatToString(n / 10);
      assert s[..|s| - 1] == NatToString(n / 10);
    }
  }

  lemma {:induction false} DigitRunOfDigits(s: string)
    requires AllDigits(s)
    ensures DigitRun(s, 10) == |s|
  {
    if |s| > 0 {
      DigitRunOfDigits(s[1..]);
    }
  }

  /** A non-empty run of decimal digits parses, in either radix mode, to its
      decimal value. */
  lemma ParseDigits(s: string, radix: Radix)
    requires |s| > 0 && AllDigits(s)
    ensures ParseInt(s, radix) == Some(DigitsValue(s, 10))
  {
    assert !IsWhiteSpace(s[0]);
    assert TrimStart(s) == s;
    assert s[0] != '-' && s[0] != '+';
    assert |s| >= 2 ==> s[1] != 'x' && s[1] != 'X';
    assert !HasHexPrefix(s);
    DigitRunOfDigits(s);
    assert s[..|s|] == s;
  }

  /** Rendering a count and parsing it back gives the count again: an edit dialog
      whose quantity field was not touched submits the original quantity. */
  lemma ParseNatToString(n: nat, radix: Radix)
    ensures ParseInt(NatToString(n), radix) == Some(n)
  {
    ParseDigits(NatToString(n), radix);
    DigitsValueOfNatToString(n);
  }

  /** Parsing stops at the first character that is not a digit. */
  lemma ParseTrailingLetters()
    ensures ParseInt("12abc", Ten) == Some(12)
  {
    var s := "12abc";
    assert !IsWhiteSpace(s[0]) && TrimStart(s) == s;
    assert DigitRun(s[2..], 10) == 0;
    assert DigitRun(s, 10) == 2;
    assert s[..2] == "12";
    assert "12"[..1] == "1" && ""[..0] == "";
    assert DigitsValue("1", 10) == 1;
    assert DigitsValue("12", 10) == 12;
    assert LeadingValue(s, 10) == Some(12);
  }

  /** A leading minus sign negates the value. */
  lemma ParseNegative()
    ensures ParseInt("-3", Ten) == Some(-3)
  {
    var s := "-3";
    assert !IsWhiteSpace(s[0]) && TrimStart(s) == s;
    assert s[1..] == "3";
    assert DigitRun("3", 10) == 1;
    assert "3"[..1] == "3";
  }

  /** Without a radix a `0x` prefix switches to hexadecimal; with radix 10 the
      same text stops at the `x`. */
  lemma ParseHexPrefix()
    ensures ParseInt("0x1A", Auto) == Some(26)
    ensures ParseInt("0x1A", Ten) == Some(0)
  {
    ParseHexAuto();
    ParseHexTen();
  }

  lemma ParseHexAuto()
    ensures ParseInt("0x1A", Auto) == Some(26)
  {
    var s := "0x1A";
    assert !IsWhiteSpace(s[0]) && TrimStart(s) == s;
    assert s[2..] == "1A";
    assert DigitRun("1A", 16) == 2;
    assert "1A"[..2] == "1A" && "1A"[..1] == "1";
    assert DigitsValue("1", 16) == 1;
    assert DigitsValue("1A", 16) == 26;
    assert LeadingValue("1A", 16) == Some(26);
  }

  lemma ParseHexTen()
    ensures ParseInt("0x1A", Ten) == Some(0)
  {
    var s := "0x1A";
    assert !IsWhiteSpace(s[0]) && TrimStart(s) == s;
    assert DigitRun(s, 10) == 1;
    assert s[..1] == "0";
  }

  /** The empty string, and text starting with an ASCII letter, are NaN. */
  lemma ParseNoDigits(s: string, radix: Radix)
    requires |s| == 0 || 'a' <= s[0] <= 'z' || 'A' <= s[0] <= 'Z'
    ensures ParseInt(s, radix) == None
  {
    if |s| > 0 {
      LetterLeadIsKept(s);
    } else {
      assert TrimStart(s) == s && DigitRun(s, 10) == 0;
    }
    var u := TrimStart(s);
    assert u == s && !(|u| > 0 && (u[0] == '-' || u[0] == '+')) && !HasHexPrefix(u);
    assert LeadingValue(u, 10).None?;
  }

  /** A letter is not white space, a sign or a digit, so `parseInt` reads a
      letter-led string as it is, in base 10, and finds no digit. */
  lemma LetterLeadIsKept(s: string)
    requires |s| > 0 && ('a' <= s[0] <= 'z' || 'A' <= s[0] <= 'Z')
    ensures TrimStart(s) == s && !HasHexPrefix(s) && DigitRun(s, 10) == 0
    ensures s[0] != '-' && s[0] != '+'
  {
    assert !IsWhiteSpace(s[0]);
    assert DigitValue(s[0], 10).None?;
  }

}

=== FILE: transfer.dfy ===
/**
  Moving stock from the master inventory to the pharmacy inventory
  (app/dashboard/inventory/transfer-medicine-dialog.tsx). The dialog checks the
  request against its own copy of the master list, debits the master row, then
  adds to the pharmacy row of the same name or creates one. If a later step
  fails it writes the old master quantity back, without checking whether that
  write went through. No transfers-log row is written here.

  Store calls, numbered for the failure oracle:
    0  debit master                 (update by id)
    1  look up the pharmacy row     (select by name, single)
    2  credit pharmacy              (update by id, or insert)
    2 or 3  compensating master write, after a failure of call 1 or call 2
 */
module StockTransfer {
  import opened Text
  import opened Inventory

  /** The submitted form: the selected master id ("" when nothing is selected),
      the quantity and the pharmacy minimum stock level. */
  datatype Request = Request(medicineId: Option<nat>, quantity: int, minStockLevel: int)

  /** An entry of the master list the dialog was opened with. */
  datatype Listed = Listed(id: nat, name: string, quantity: int, unit: Option<string>)

  datatype Outcome =
    | SchemaRejected
    | UnknownMedicine
    | ExceedsAvailable
    | DebitFailed
    | PharmacyQueryFailed
    | PharmacyUpdateFailed
    | PharmacyInsertFailed
    | Transferred

  datatype Result = Result(stock: Stock, outcome: Outcome)

  /** The form schema: a medicine is selected, at least one unit is moved and
      the minimum stock level is not negative. */
  predicate SchemaAccepts(r: Request) {
    r.medicineId.Some? && r.quantity >= 1 && r.minStockLevel >= 0
  }

  /** `masterInventory.find(m => m.id === id)`: the first entry with that id. */
  function FindListed(list: seq<Listed>, id: nat): (r: Option<Listed>)
    ensures r.Some? ==> r.value in list && r.value.id == id
    ensures r.None? <==> forall m :: m in list ==> m.id != id
  {
    if |list| == 0 then None
    else if list[0].id == id then Some(list[0])
    else
      var r := FindListed(list[1..], id);
      assert forall m :: m in list ==> m == list[0] || m in list[1..];
      r
  }

  /** The request passes every check made before the first store call. */
  predicate Admissible(list: seq<Listed>, req: Request) {
    SchemaAccepts(req)
    && FindListed(list, req.medicineId.value).Some?
    && req.quantity <= FindListed(list, req.medicineId.value).value.quantity
  }

  /** What the dialog writes into the pharmacy: the existing row gains the
      quantity and takes the submitted minimum; a new row copies name and unit
      from the master entry. */
  function CreditPatch(q: int, minStock: int): Row -> Row {
    (row: Row) => row.(quantity := row.quantity + q, minStock := Some(minStock))
  }

  function NewPharmacyRow(m: Listed, req: Request): Row {
    Row(0, m.name, req.quantity, m.unit, None, None, None, Some(req.minStockLevel))
  }

  /** Writes the snapshot quantity back to the master row after a failure; the
      outcome of this write is not inspected. */
  function Compensate(s: Stock, m: Listed, failed: bool): Stock {
    if failed then s else s.(master := SetQuantityById(s.master, m.id, m.quantity))
  }

  function Submit(s: Stock, list: seq<Listed>, req: Request, oracle: seq<bool>): (r: Result)
    ensures r.outcome in {SchemaRejected, UnknownMedicine, ExceedsAvailable}
            <==> !Admissible(list, req)
    ensures r.outcome in {SchemaRejected, UnknownMedicine, ExceedsAvailable, DebitFailed}
            ==> r.stock == s
  {
    if !SchemaAccepts(req) then Result(s, SchemaRejected)
    else
      match FindListed(list, req.medicineId.value)
      case None => Result(s, UnknownMedicine)
      case Some(m) =>
        if req.quantity > m.quantity then Result(s, ExceedsAvailable)
        else if Fails(oracle, 0) then Result(s, DebitFailed)
        else
          var debited := s.(master := SetQuantityById(s.master, m.id, m.quantity - req.quantity));
          if Fails(oracle, 1) then
            Result(Compensate(debited, m, Fails(oracle, 2)), PharmacyQueryFailed)
          else
            match SingleNamed(debited.pharmacy, m.name)
            case Found(row, _) =>
              if Fails(oracle, 2) then
                Result(Compensate(debited, m, Fails(oracle, 3)), PharmacyUpdateFailed)
              else
                Result(debited.(pharmacy := UpdateById(debited.pharmacy, row.id,
                                                       CreditPatch(req.quantity, req.minStockLevel))),
                       Transferred)
            case NoRows =>
              if Fails(oracle, 2) then
                Result(Compensate(debited, m, Fails(oracle, 3)), PharmacyInsertFailed)
              else
                Result(Insert(debited, Pharmacy, NewPharmacyRow(m, req)), Transferred)
  }

  /** The store agrees with the dialog's copy of the master entry: exactly the
      row at `k` carries its id, with the same name and quantity. */
  ghost predicate SnapshotCurrent(s: Stock, m: Listed, k: nat) {
    Wf(s) && k < |s.master| && s.master[k].id == m.id
    && s.master[k].name == m.name && s.master[k].quantity == m.quantity
  }

  /** The transfer goes through exactly when the request is admissible and the
      debit, the lookup and the credit all succeed. */
  lemma SubmitSucceedsIff(s: Stock, list: seq<Listed>, req: Request, oracle: seq<bool>)
    ensures Submit(s, list, req, oracle).outcome == Transferred
            <==> Admissible(list, req) && !Fails(oracle, 0) && !Fails(oracle, 1) && !Fails(oracle, 2)
  {
  }

  /** A successful transfer moves the quantity from master to pharmacy: master
      loses it, pharmacy gains it (an absent pharmacy row counts as 0), so the
      total of the two inventories for that medicine is unchanged. */
  lemma SubmitConservesStock(s: Stock, list: seq<Listed>, req: Request, oracle: seq<bool>, k: nat)
    requires Admissible(list, req)
    requires SnapshotCurrent(s, FindListed(list, req.medicineId.value).value, k)
    requires Submit(s, list, req, oracle).outcome == Transferred
    ensures var m := FindListed(list, req.medicineId.value).value;
            var s' := Submit(s, list, req, oracle).stock;
            && Qty(s'.master, m.name) == Qty(s.master, m.name) - req.quantity
            && Qty(s'.pharmacy, m.name) == Qty(s.pharmacy, m.name) + req.quantity
            && Qty(s'.master, m.name) + Qty(s'.pharmacy, m.name)
               == Qty(s.master, m.name) + Qty(s.pharmacy, m.name)
  {
    var m := FindListed(list, req.medicineId.value).value;
    var s' := Submit(s, list, req, oracle).stock;
    QtySetById(s.master, k, m.quantity - req.quantity);
    var debited := s.(master := SetQuantityById(s.master, m.id, m.quantity - req.quantity));
    assert s'.master == debited.master;
    match SingleNamed(s.pharmacy, m.name)
    case Found(row, at) =>
      var t := UpdateById(s.pharmacy, row.id, CreditPatch(req.quantity, req.minStockLevel));
      assert s'.pharmacy == t;
      assert forall i :: 0 <= i < |t| && i != at ==> t[i] == s.pharmacy[i];
      QtyPointUpdate(s.pharmacy, t, at, m.name);
    case NoRows =>
      QtyAppend(s.pharmacy, NewPharmacyRow(m, req).(id := s.nextId), m.name);
  }

  /** Moving everything that is listed drains the master row to zero. */
  lemma SubmitAllDrainsMaster(s: Stock, list: seq<Listed>, req: Request, oracle: seq<bool>, k: nat)
    requires Admissible(list, req)
    requires SnapshotCurrent(s, FindListed(list, req.medicineId.value).value, k)
    requires req.quantity == FindListed(list, req.medicineId.value).value.quantity
    requires Submit(s, list, req, oracle).outcome == Transferred
    ensures Submit(s, list, req, oracle).stock.master[k].quantity == 0
  {
  }

  /** Nothing else changes on success: master rows other than the selected id
      are untouched, and the pharmacy either has one row rewritten (the only row
      of that name, which takes the submitted minimum) or one row appended that
      copies name and unit from the master entry. */
  lemma SubmitTouchesOnlyTheMedicine(s: Stock, list: seq<Listed>, req: Request, oracle: seq<bool>)
    requires Wf(s)
    requires Submit(s, list, req, oracle).outcome == Transferred
    ensures var m := FindListed(list, req.medicineId.value).value;
            var s' := Submit(s, list, req, oracle).stock;
            && |s'.master| == |s.master|
            && (forall i :: 0 <= i < |s.master| && s.master[i].id != m.id ==> s'.master[i] == s.master[i])
            && (forall i :: 0 <= i < |s.master| && s.master[i].id == m.id
                  ==> s'.master[i] == s.master[i].(quantity := m.quantity - req.quantity))
            && ((|s'.pharmacy| == |s.pharmacy| && CountNamed(s.pharmacy, m.name) == 1
                 && forall i :: 0 <= i < |s.pharmacy| ==>
                      if s.pharmacy[i].name == m.name
                      then s'.pharmacy[i] == s.pharmacy[i].(quantity := s.pharmacy[i].quantity + req.quantity,
                                                            minStock := Some(req.minStockLevel))
                      else s'.pharmacy[i] == s.pharmacy[i])
                || (s'.pharmacy == s.pharmacy + [NewPharmacyRow(m, req).(id := s.nextId)]
                    && CountNamed(s.pharmacy, m.name) != 1))
  {
    var m := FindListed(list, req.medicineId.value).value;
    match SingleNamed(s.pharmacy, m.name)
    case Found(row, at) =>
      assert forall i :: 0 <= i < |s.pharmacy| && i != at ==> s.pharmacy[i].id != row.id;
    case NoRows =>
  }

  /** When the debit went through but a later call failed and the compensating
      write succeeded, the store is exactly as before the transfer. */
  lemma SubmitCompensationRestores(s: Stock, list: seq<Listed>, req: Request, oracle: seq<bool>, k: nat)
    requires Admissible(list, req)
    requires SnapshotCurrent(s, FindListed(list, req.medicineId.value).value, k)
    requires !Fails(oracle, 0)
    requires Submit(s, list, req, oracle).outcome in {PharmacyQueryFailed, PharmacyUpdateFailed, PharmacyInsertFailed}
    requires if Fails(oracle, 1) then !Fails(oracle, 2) else !Fails(oracle, 3)
    ensures Submit(s, list, req, oracle).stock == s
  {
    var m := FindListed(list, req.medicineId.value).value;
    var back := SetQuantityById(SetQuantityById(s.master, m.id, m.quantity - req.quantity), m.id, m.quantity);
    assert forall i :: 0 <= i < |s.master| ==> back[i] == s.master[i];
    assert back == s.master;
  }

  /** When the compensating write fails as well, the debited units are gone:
      master is down by the quantity and the pharmacy has not gained it. */
  lemma SubmitFailedCompensationLosesStock(s: Stock, list: seq<Listed>, req: Request, oracle: seq<bool>, k: nat)
    requires Admissible(list, req)
    requires SnapshotCurrent(s, FindListed(list, req.medicineId.value).value, k)
    requires !Fails(oracle, 0)
    requires Submit(s, list, req, oracle).outcome in {PharmacyQueryFailed, PharmacyUpdateFailed, PharmacyInsertFailed}
    requires if Fails(oracle, 1) then Fails(oracle, 2) else Fails(oracle, 3)
    ensures var m := FindListed(list, req.medicineId.value).value;
            var s' := Submit(s, list, req, oracle).stock;
            && s'.pharmacy == s.pharmacy
            && Qty(s'.master, m.name) == Qty(s.master, m.name) - req.quantity
  {
    var m := FindListed(list, req.medicineId.value).value;
    QtySetById(s.master, k, m.quantity - req.quantity);
  }

  /** The worked example: 100 units of Paracetamol in master and none in the
      pharmacy; moving 30 with minimum 10 leaves 70 in master and creates a
      pharmacy row of 30 with minimum 10. */
  lemma SubmitExample()
    ensures var row := Row(7, "Paracetamol", 100, Some("tabs"), Some("TDSR"), None, Some("12"), None);
            var s := Stock([row], [], 8);
            var list := [Listed(7, "Paracetamol", 100, Some("tabs"))];
            var r := Submit(s, list, Request(Some(7), 30, 10), []);
            && r.outcome == Transferred
            && r.stock.master == [row.(quantity := 70)]
            && r.stock.pharmacy == [Row(8, "Paracetamol", 30, Some("tabs"), None, None, None, Some(10))]
  {
    var row := Row(7, "Paracetamol", 100, Some("tabs"), Some("TDSR"), None, Some("12"), None);
    assert SetQuantityById([row], 7, 70) == [row.(quantity := 70)];
    assert CountNamed([], "Paracetamol") == 0;
  }
}

=== FILE: transfer_log.dfy ===
/**
  The transfers log and its page (app/dashboard/transfers/page.tsx and
  app/dashboard/transfers/edit-transfer-dialog.tsx): the statistics computed
  from the log, the time-range filter, the recent list, deleting an entry and
  editing one. None of these touch the inventories. Dates are kept as
  comparable numbers (later is larger).
 */
module TransferLog {
  import opened Text
  import Inventory

  datatype Transfer = Transfer(
    id: nat,
    name: string,
    quantity: int,
    source: string,
    target: string,
    issuer: string,
    receiver: string,
    date: int)

  /** The log together with the inventories, which no operation here changes. */
  datatype Store = Store(stock: Inventory.Stock, log: seq<Transfer>)

  /** Newest first, the order the page asks the store for. */
  ghost predicate NewestFirst(rows: seq<Transfer>) {
    forall i, j :: 0 <= i < j < |rows| ==> rows[i].date >= rows[j].date
  }

  // ----- the query -----

  /** `.gte("transfer_date", start)` when a range is chosen; "all" is `None`. */
  function InRange(rows: seq<Transfer>, start: Option<int>): (r: seq<Transfer>)
    ensures |r| <= |rows|
    ensures forall t :: t in r <==> t in rows && (start.Some? ==> t.date >= start.value)
  {
    if |rows| == 0 then []
    else
      var rest := InRange(rows[1..], start);
      assert forall t :: t in rows <==> t == rows[0] || t in rows[1..];
      if start.None? || rows[0].date >= start.value then [rows[0]] + rest else rest
  }

  lemma {:induction false} InRangeAll(rows: seq<Transfer>)
    ensures InRange(rows, None) == rows
  {
    if |rows| > 0 {
      InRangeAll(rows[1..]);
    }
  }

  /** The filter keeps the newest-first order. */
  lemma {:induction false} InRangeNewestFirst(rows: seq<Transfer>, start: Option<int>)
    requires NewestFirst(rows)
    ensures NewestFirst(InRange(rows, start))
  {
    if |rows| > 0 {
      InRangeNewestFirst(rows[1..], start);
      var rest := InRange(rows[1..], start);
      assert forall t :: t in rest ==> t in rows[1..] && t.date <= rows[0].date;
    }
  }

  /** `.limit(10)` on the ordered, filtered rows. */
  function Recent(rows: seq<Transfer>, start: Option<int>): (r: seq<Transfer>)
    ensures |r| == (if |InRange(rows, start)| < 10 then |InRange(rows, start)| else 10)
    ensures r == InRange(rows, start)[..|r|]
  {
    var all := InRange(rows, start);
    if |all| <= 10 then all else all[..10]
  }

  // ----- the statistics -----

  /** One per-medicine entry of the statistics. */
  datatype Entry = Entry(name: string, count: nat, quantity: int, last: int)

  function FindEntry(es: seq<Entry>, n: string): (r: Option<nat>)
    ensures r.Some? ==> r.value < |es| && es[r.value].name == n
    ensures r.None? ==> forall k :: 0 <= k < |es| ==> es[k].name != n
  {
    if |es| == 0 then None
    else if es[0].name == n then Some(0)
    else match FindEntry(es[1..], n)
      case None => None
      case Some(k) => Some(k + 1)
  }

  /** One step of the `forEach`: a known medicine gets one more transfer and
      its quantity; a new one gets an entry dated with this transfer. */
  function Step(es: seq<Entry>, t: Transfer): seq<Entry> {
    match FindEntry(es, t.name)
    case Some(k) => es[k := es[k].(count := es[k].count + 1, quantity := es[k].quantity + t.quantity)]
    case None => es + [Entry(t.name, 1, t.quantity, t.date)]
  }

  /** The per-medicine entries, in order of first appearance (a `Map`). */
  function Entries(rows: seq<Transfer>): seq<Entry> {
    if |rows| == 0 then [] else Step(Entries(rows[..|rows| - 1]), rows[|rows| - 1])
  }

  /** Reference definitions over the rows themselves. */
  function CountOf(rows: seq<Transfer>, n: string): nat {
    if |rows| == 0 then 0
    else CountOf(rows[..|rows| - 1], n) + (if rows[|rows| - 1].name == n then 1 else 0)
  }

  function QuantityOf(rows: seq<Transfer>, n: string): int {
    if |rows| == 0 then 0
    else QuantityOf(rows[..|rows| - 1], n) + (if rows[|rows| - 1].name == n then rows[|rows| - 1].quantity else 0)
  }

  function TotalQuantity(rows: seq<Transfer>): int {
    if |rows| == 0 then 0 else TotalQuantity(rows[..|rows| - 1]) + rows[|rows| - 1].quantity
  }

  /** Position of the first transfer of medicine `n`. */
  function FirstOf(rows: seq<Transfer>, n: string): (r: Option<nat>)
    ensures r.Some? ==> r.value < |rows| && rows[r.value].name == n
                        && forall j :: 0 <= j < r.value ==> rows[j].name != n
    ensures r.None? ==> forall j :: 0 <= j < |rows| ==> rows[j].name != n
  {
    if |rows| == 0 then None
    else match FirstOf(rows[..|rows| - 1], n)
      case Some(k) => Some(k)
      case None => if rows[|rows| - 1].name == n then Some(|rows| - 1) else None
  }

  function Names(rows: seq<Transfer>): set<string> {
    set i | 0 <= i < |rows| :: rows[i].name
  }

  function EntryNames(es: seq<Entry>): set<string> {
    set k | 0 <= k < |es| :: es[k].name
  }

  function SumCounts(es: seq<Entry>): int {
    if |es| == 0 then 0 else es[0].count + SumCounts(es[1..])
  }

  function SumQuantities(es: seq<Entry>): int {
    if |es| == 0 then 0 else es[0].quantity + SumQuantities(es[1..])
  }

  datatype Stats = Stats(transfers: nat, medicines: nat, quantity: int, perMedicine: seq<Entry>)

  /** The statistics of the rows the query returned. */
  function StatsOf(rows: seq<Transfer>): Stats {
    Stats(|rows|, |Names(rows)|, TotalQuantity(rows), Entries(rows))
  }

  /** What the entries say about the rows they were built from. */
  ghost predicate Describes(es: seq<Entry>, rows: seq<Transfer>) {
    && (forall k, m :: 0 <= k < m < |es| ==> es[k].name != es[m].name)
    && EntryNames(es) == Names(rows)
    && (forall k :: 0 <= k < |es| ==> EntryFacts(es[k], rows))
    && SumCounts(es) == |rows|
    && SumQuantities(es) == TotalQuantity(rows)
  }

  lemma {:induction false} SumsPointUpdate(a: seq<Entry>, b: seq<Entry>, k: nat)
    requires |a| == |b| && k < |a|
    requires forall i :: 0 <= i < |a| && i != k ==> b[i] == a[i]
    ensures SumCounts(b) == SumCounts(a) - a[k].count + b[k].count
    ensures SumQuantities(b) == SumQuantities(a) - a[k].quantity + b[k].quantity
  {
    if k > 0 {
      SumsPointUpdate(a[1..], b[1..], k - 1);
    } else {
      assert b[1..] == a[1..];
    }
  }

  lemma {:induction false} SumsAppend(a: seq<Entry>, e: Entry)
    ensures SumCounts(a + [e]) == SumCounts(a) + e.count
    ensures SumQuantities(a + [e]) == SumQuantities(a) + e.quantity
  {
    if |a| > 0 {
      assert (a + [e])[1..] == a[1..] + [e];
      SumsAppend(a[1..], e);
    } else {
      assert a + [e] == [e];
    }
  }

  /** Appending a transfer extends the reference definitions by that transfer. */
  lemma AppendFacts(rows: seq<Transfer>, t: Transfer, n: string)
    ensures CountOf(rows + [t], n) == CountOf(rows, n) + (if t.name == n then 1 else 0)
    ensures QuantityOf(rows + [t], n) == QuantityOf(rows, n) + (if t.name == n then t.quantity else 0)
    ensures TotalQuantity(rows + [t]) == TotalQuantity(rows) + t.quantity
    ensures FirstOf(rows + [t], n) == (if FirstOf(rows, n).Some? then FirstOf(rows, n)
                                       else if t.name == n then Some(|rows|) else None)
  {
    assert (rows + [t])[..|rows|] == rows;
  }

  lemma {:induction false} AbsentName(rows: seq<Transfer>, n: string)
    requires forall j :: 0 <= j < |rows| ==> rows[j].name != n
    ensures CountOf(rows, n) == 0 && QuantityOf(rows, n) == 0
  {
    if |rows| > 0 {
      AbsentName(rows[..|rows| - 1], n);
    }
  }

  ghost predicate EntryFacts(e: Entry, rows: seq<Transfer>) {
    && e.count == CountOf(rows, e.name)
    && e.quantity == QuantityOf(rows, e.name)
    && FirstOf(rows, e.name).Some?
    && e.last == rows[FirstOf(rows, e.name).value].date
  }

  lemma NamesAppend(rows: seq<Transfer>, t: Transfer)
    ensures Names(rows + [t]) == Names(rows) + {t.name}
  {
    var rows' := rows + [t];
    assert forall i :: 0 <= i < |rows| ==> rows'[i] == rows[i];
    assert rows'[|rows|] == t;
  }

  /** An entry's facts carry over to the longer log, with the counts of the
      appended transfer's medicine raised. */
  lemma EntryFactsAppend(e: Entry, rows: seq<Transfer>, t: Transfer)
    requires EntryFacts(e, rows)
    ensures e.name != t.name ==> EntryFacts(e, rows + [t])
    ensures e.name == t.name ==> EntryFacts(e.(count := e.count + 1, quantity := e.quantity + t.quantity), rows + [t])
  {
    AppendFacts(rows, t, e.name);
    assert (rows + [t])[FirstOf(rows, e.name).value] == rows[FirstOf(rows, e.name).value];
  }

  lemma StepDescribesKnown(es: seq<Entry>, rows: seq<Transfer>, t: Transfer, k: nat)
    requires Describes(es, rows)
    requires FindEntry(es, t.name) == Some(k)
    ensures Describes(Step(es, t), rows + [t])
  {
    var es' := Step(es, t);
    assert es[k].name in EntryNames(es);
    NamesAppend(rows, t);
    AppendFacts(rows, t, t.name);
    StepKnownShape(es, t, k);
    SumsPointUpdate(es, es', k);
    StepKnownEntries(es, rows, t, k);
  }

  /** A known name's step changes entry `k` only, and keeps every name. */
  lemma StepKnownShape(es: seq<Entry>, t: Transfer, k: nat)
    requires FindEntry(es, t.name) == Some(k)
    ensures |Step(es, t)| == |es| && k < |es|
    ensures forall i :: 0 <= i < |es| && i != k ==> Step(es, t)[i] == es[i]
    ensures forall i :: 0 <= i < |es| ==> Step(es, t)[i].name == es[i].name
    ensures EntryNames(Step(es, t)) == EntryNames(es)
  {
    var es' := Step(es, t);
    assert forall i :: 0 <= i < |es| ==> es'[i].name == es[i].name;
  }

  lemma StepKnownEntries(es: seq<Entry>, rows: seq<Transfer>, t: Transfer, k: nat)
    requires Describes(es, rows)
    requires FindEntry(es, t.name) == Some(k)
    ensures forall i :: 0 <= i < |Step(es, t)| ==> EntryFacts(Step(es, t)[i], rows + [t])
  {
    var es' := Step(es, t);
    StepKnownShape(es, t, k);
    forall i | 0 <= i < |es'|
      ensures EntryFacts(es'[i], rows + [t])
    {
      EntryFactsAppend(es[i], rows, t);
    }
  }

  lemma NewEntryFacts(rows: seq<Transfer>, t: Transfer)
    requires forall j :: 0 <= j < |rows| ==> rows[j].name != t.name
    ensures EntryFacts(Entry(t.name, 1, t.quantity, t.date), rows + [t])
  {
    AbsentName(rows, t.name);
    AppendFacts(rows, t, t.name);
    assert (rows + [t])[|rows|] == t;
  }

  lemma StepDescribesNew(es: seq<Entry>, rows: seq<Transfer>, t: Transfer)
    requires Describes(es, rows)
    requires FindEntry(es, t.name).None?
    ensures Describes(Step(es, t), rows + [t])
  {
    var rows' := rows + [t];
    var e := Entry(t.name, 1, t.quantity, t.date);
    var es' := es + [e];
    assert Step(es, t) == es';
    NamesAppend(rows, t);
    AppendFacts(rows, t, t.name);
    SumsAppend(es, e);
    assert t.name !in Names(rows) by {
      assert t.name !in EntryNames(es);
    }
    assert forall j :: 0 <= j < |rows| ==> rows[j].name != t.name by {
      assert forall j :: 0 <= j < |rows| ==> rows[j].name in Names(rows);
    }
    NewEntryFacts(rows, t);
    assert EntryNames(es') == EntryNames(es) + {t.name} by {
      assert forall i :: 0 <= i < |es| ==> es'[i] == es[i];
      assert es'[|es|] == e;
    }
    forall i | 0 <= i < |es'|
      ensures EntryFacts(es'[i], rows')
    {
      if i < |es| {
        EntryFactsAppend(es[i], rows, t);
      }
    }
  }

  lemma StepDescribes(es: seq<Entry>, rows: seq<Transfer>, t: Transfer)
    requires Describes(es, rows)
    ensures Describes(Step(es, t), rows + [t])
  {
    match FindEntry(es, t.name)
    case Some(k) => StepDescribesKnown(es, rows, t, k);
    case None => StepDescribesNew(es, rows, t);
  }

  /** The fold builds entries that describe the rows: one per distinct name,
      each with that medicine's transfer count, quantity and first date; the
      counts add up to the number of transfers and the quantities to the total
      quantity. */
  lemma {:induction false} EntriesDescribe(rows: seq<Transfer>)
    ensures Describes(Entries(rows), rows)
  {
    if |rows| == 0 {
      assert Names(rows) == {};
      assert EntryNames([]) == {};
    } else {
      var front := rows[..|rows| - 1];
      EntriesDescribe(front);
      StepDescribes(Entries(front), front, rows[|rows| - 1]);
      assert front + [rows[|rows| - 1]] == rows;
    }
  }

  lemma {:induction false} DistinctCard(es: seq<Entry>)
    requires forall k, m :: 0 <= k < m < |es| ==> es[k].name != es[m].name
    ensures |EntryNames(es)| == |es|
  {
    if |es| > 0 {
      var tail := es[1..];
      DistinctCard(tail);
      assert EntryNames(es) == EntryNames(tail) + {es[0].name} by {
        assert forall k :: 1 <= k < |es| ==> es[k] == tail[k - 1];
        assert forall k :: 0 <= k < |tail| ==> tail[k] == es[k + 1];
      }
      assert es[0].name !in EntryNames(tail) by {
        assert forall k :: 0 <= k < |tail| ==> tail[k] == es[k + 1];
      }
    }
  }

  /** The summary agrees with the per-medicine entries: as many entries as
      distinct medicines, entry counts summing to the number of transfers and
      entry quantities to the total quantity. */
  lemma StatsAgree(rows: seq<Transfer>)
    ensures var s := StatsOf(rows);
            && s.medicines == |s.perMedicine|
            && SumCounts(s.perMedicine) == s.transfers
            && SumQuantities(s.perMedicine) == s.quantity
  {
    EntriesDescribe(rows);
    DistinctCard(Entries(rows));
  }

  /** With the rows newest first, an entry's date is that medicine's latest
      transfer. */
  lemma LastIsLatest(rows: seq<Transfer>, k: nat, i: nat)
    requires NewestFirst(rows)
    requires k < |Entries(rows)| && i < |rows| && rows[i].name == Entries(rows)[k].name
    ensures rows[i].date <= Entries(rows)[k].last
  {
    EntriesDescribe(rows);
  }

  // ----- deleting and editing -----

  function WithoutId(rows: seq<Transfer>, id: nat): (r: seq<Transfer>)
    ensures forall t :: t in r <==> t in rows && t.id != id
  {
    if |rows| == 0 then []
    else
      var rest := WithoutId(rows[1..], id);
      assert forall t :: t in rows <==> t == rows[0] || t in rows[1..];
      if rows[0].id == id then rest else [rows[0]] + rest
  }

  /** `handleDeleteTransfer`: only the rows with that id go; the inventories
      stay as they are. One store call. */
  function DeleteTransfer(s: Store, id: nat, fails: bool): (r: Store)
    ensures r.stock == s.stock
    ensures fails ==> r == s
    ensures !fails ==> forall t :: t in r.log <==> t in s.log && t.id != id
  {
    if fails then s else s.(log := WithoutId(s.log, id))
  }

  datatype EditOutcome = QuantityRefused | WriteFailed | Updated

  /** The dialog's fields. */
  datatype EditFields = EditFields(quantity: string, source: string, target: string, issuer: string, receiver: string)

  function Edited(t: Transfer, q: int, f: EditFields): Transfer {
    t.(quantity := q, source := f.source, target := f.target, issuer := f.issuer, receiver := f.receiver)
  }

  /** `.update(...).eq("id", id)` on the log. */
  function EditLog(log: seq<Transfer>, id: nat, q: int, f: EditFields): (r: seq<Transfer>)
    ensures |r| == |log|
  {
    seq(|log|, i requires 0 <= i < |log| => if log[i].id == id then Edited(log[i], q, f) else log[i])
  }

  /** `handleSubmit` of the edit dialog: the quantity text must parse (no radix)
      to a positive number; then one store call rewrites the row with that id. */
  function EditTransfer(s: Store, id: nat, f: EditFields, fails: bool): (r: (Store, EditOutcome))
    ensures r.0.stock == s.stock
    ensures r.1 == QuantityRefused <==> (match ParseInt(f.quantity, Auto) case None => true case Some(q) => q <= 0)
    ensures r.1 != Updated ==> r.0 == s
    ensures |r.0.log| == |s.log|
    ensures forall i :: 0 <= i < |s.log| ==>
              && r.0.log[i].name == s.log[i].name && r.0.log[i].date == s.log[i].date && r.0.log[i].id == s.log[i].id
    ensures r.1 == Updated ==> forall i :: 0 <= i < |s.log| && s.log[i].id == id ==>
              && r.0.log[i].quantity > 0 && Some(r.0.log[i].quantity) == ParseInt(f.quantity, Auto)
              && r.0.log[i].source == f.source && r.0.log[i].target == f.target
              && r.0.log[i].issuer == f.issuer && r.0.log[i].receiver == f.receiver
    ensures forall i :: 0 <= i < |s.log| && s.log[i].id != id ==> r.0.log[i] == s.log[i]
  {
    match ParseInt(f.quantity, Auto)
    case None => (s, QuantityRefused)
    case Some(q) =>
      if q <= 0 then (s, QuantityRefused)
      else if fails then (s, WriteFailed)
      else
        var log' := EditLog(s.log, id, q, f);
        assert forall i :: 0 <= i < |s.log| ==> log'[i] == (if s.log[i].id == id then Edited(s.log[i], q, f) else s.log[i]);
        (s.(log := log'), Updated)
  }

  /** Saving a dialog that shows the row's own values (the quantity as text,
      the other fields as they are) writes every row back unchanged. Only a
      freshly mounted dialog is sure to show them; see `OpenAsWritten`. */
  lemma EditUntouchedKeepsLog(s: Store, i: nat)
    requires i < |s.log| && s.log[i].quantity > 0
    requires forall j :: 0 <= j < |s.log| && s.log[j].id == s.log[i].id ==> s.log[j] == s.log[i]
    ensures var t := s.log[i];
            EditTransfer(s, t.id, EditFields(NatToString(t.quantity), t.source, t.target, t.issuer, t.receiver), false).0 == s
  {
    var t := s.log[i];
    ParseNatToString(t.quantity, Auto);
    var f := EditFields(NatToString(t.quantity), t.source, t.target, t.issuer, t.receiver);
    var r := EditTransfer(s, t.id, f, false).0;
    assert forall j :: 0 <= j < |s.log| ==> r.log[j] == s.log[j];
    assert r.log == s.log;
  }

  // ----- the edit dialog across openings -----

  /** `transfer.quantity.toString()`. */
  function QuantityText(q: int): string {
    if q >= 0 then NatToString(q) else "-" + NatToString(-q)
  }

  /** The values a freshly mounted dialog shows for `t`. */
  function FieldsOf(t: Transfer): EditFields {
    EditFields(QuantityText(t.quantity), t.source, t.target, t.issuer, t.receiver)
  }

  /** The page's edit state: the selected transfer (the dialog is mounted
      exactly while there is one), the dialog's field state and the open flag. */
  datatype EditDialog = EditDialog(selected: Option<Transfer>, fields: EditFields, open: bool)

  function Unmounted(): EditDialog {
    EditDialog(None, EditFields("", "", "", "", ""), false)
  }

  /** The pencil button as written. The dialog's fields are `useState`
      initialisers, which run when the dialog mounts; the page renders it
      without a `key`, so a dialog that is already mounted keeps its fields
      and only the selected transfer changes. */
  function OpenAsWritten(d: EditDialog, t: Transfer): (r: EditDialog)
    ensures r.selected == Some(t) && r.open
    ensures d.selected.Some? ==> r.fields == d.fields
    ensures d.selected.None? ==> r.fields == FieldsOf(t)
  {
    EditDialog(Some(t), if d.selected.None? then FieldsOf(t) else d.fields, true)
  }

  /** Cancel, or any other way of closing: only the open flag drops. */
  function Close(d: EditDialog): (r: EditDialog)
    ensures r.selected == d.selected && r.fields == d.fields && !r.open
  {
    d.(open := false)
  }

  /** Save as written: the fields are written to the selected transfer's id.
      After a successful write the dialog closes, then the page's callback calls
      an undeclared `refetch` and throws before it clears the selection, so the
      dialog stays mounted with its fields. */
  function SaveAsWritten(s: Store, d: EditDialog, fails: bool): (r: (Store, EditDialog))
    ensures d.selected.None? ==> r == (s, d)
    ensures r.1.selected == d.selected && r.1.fields == d.fields
    ensures r.0.stock == s.stock
    ensures d.selected.Some? ==> r.0 == EditTransfer(s, d.selected.value.id, d.fields, fails).0
  {
    match d.selected
    case None => (s, d)
    case Some(t) =>
      var (s', outcome) := EditTransfer(s, t.id, d.fields, fails);
      (s', if outcome == Updated then Close(d) else d)
  }

  /** Opening a second transfer after the first, with nothing typed, and saving
      writes the first transfer's quantity, places and people into the second
      one's row. */
  lemma StaleFieldsWriteIntoNextTransfer(s: Store, i: nat, j: nat)
    requires i < |s.log| && j < |s.log| && s.log[i].id != s.log[j].id
    requires s.log[i].quantity > 0
    ensures var d := OpenAsWritten(Close(OpenAsWritten(Unmounted(), s.log[i])), s.log[j]);
            var r := SaveAsWritten(s, d, false).0;
            && r.log[j].quantity == s.log[i].quantity
            && r.log[j].source == s.log[i].source && r.log[j].target == s.log[i].target
            && r.log[j].issuer == s.log[i].issuer && r.log[j].receiver == s.log[i].receiver
            && r.log[j].name == s.log[j].name
  {
    ParseNatToString(s.log[i].quantity, Auto);
  }

  /** The pencil button with the dialog keyed by the transfer's id, so that
      selecting another transfer mounts a fresh dialog. */
  function OpenKeyed(d: EditDialog, t: Transfer): (r: EditDialog)
    ensures r.selected == Some(t) && r.open && r.fields == FieldsOf(t)
  {
    EditDialog(Some(t), FieldsOf(t), true)
  }

  /** Save with a callback that does not throw: a successful write closes the
      dialog and clears the selection. */
  function SaveKeyed(s: Store, d: EditDialog, fails: bool): (r: (Store, EditDialog))
    ensures d.selected.None? ==> r == (s, d)
    ensures r.0.stock == s.stock
    ensures d.selected.Some? ==> r.0 == EditTransfer(s, d.selected.value.id, d.fields, fails).0
    ensures d.selected.Some? && r.0 != s ==> r.1.selected.None? && !r.1.open
  {
    match d.selected
    case None => (s, d)
    case Some(t) =>
      var (s', outcome) := EditTransfer(s, t.id, d.fields, fails);
      (s', if outcome == Updated then Unmounted() else d)
  }

  /** With the keyed dialog, whatever was opened before, opening a transfer and
      saving it untouched writes the log back unchanged. */
  lemma KeyedDialogKeepsLog(s: Store, d: EditDialog, i: nat)
    requires i < |s.log| && s.log[i].quantity > 0
    requires forall j :: 0 <= j < |s.log| && s.log[j].id == s.log[i].id ==> s.log[j] == s.log[i]
    ensures SaveKeyed(s, OpenKeyed(d, s.log[i]), false).0 == s
  {
    EditUntouchedKeepsLog(s, i);
  }
}
